=== FILE: README.md ===
# Sport-field reservations: the rule-bearing core in Dafny

This project models the rule-bearing parts of a sport-field reservation application. The application is a React front end over an Express/MySQL backend. Players find fields on a map or through a search form. They drag over a 24-hour availability grid to select up to three hours, and then book and pay. Field owners see the same grid for their own fields and can cancel reservations. A training assistant asks a language model for a weekly plan and parses the text it returns.

The modules follow the program's structure:

| module | file | what it covers |
|---|---|---|
| `Availability` | availability.dfy | Three things shared by the three grids: the schedule text ("non-stop" or "HH:MM - HH:MM"), the fixed +3 h re-localisation of reservation rows, and `isReserved` with the colour of one hour cell |
| `FieldsMap` | fields_map.dfy | The map popup. `displayAvailability` is an imperative loop over an array of rows. The drag selection is kept in closure variables, modelled as the class `DragSelection` over an array of cell colours and specified by pure transitions on `Drag` |
| `SearchFields` | search_fields.dfy | The search page. The base-status map is filled by nested loops, and the drag selection is kept in maps of cell keys. The class `SearchGrid` holds that state, specified by pure transitions on `Search` |
| `OwnersHistory` | owners.dfy | The owner's grid: cell colour, the click that opens a reservation, and the cancel handler |
| `FieldSearch` | field_search.dfy | The backend's `/search-fields`: the optional sport and sector clauses and their parameters, plus `getFutureReservations` and its ordering |
| `BookingGate` | booking_gate.dfy | The backend's `/make-reservation`: the past-day and past-hour tests, then the insert |
| `TrainingPlan` | training_plan.dfy | The dictionary part of `translateText`, `extractExerciseName`, and the day/exercise parser of the generated plan |
| `Register`, `SetNewPassword`, `ResetPassword` | register.dfy, set_new_password.dfy, reset_password.dfy | The e-mail suffix rule, the password complexity rule and the alert flags |
| `MyProfile`, `VirtualAssistant`, `ReservationHistory` | my_profile.dfy, virtual_assistant.dfy, reservation_history.dfy | Favourite sports as a ", " list, the assistant's guards and chat list, and the player's history with cancel-by-id |
| `Text`, `Lists`, `Wrappers` | text.dfy, lists.dfy, wrappers.dfy | Helpers: JavaScript `trim`, `split`, `join`, `padStart`, `parseInt` and string `<=`; the membership toggle; `Option` |

External data enters as parameters of the model. This covers every backend reply, the user's `confirm` answer, the current time, the random reservation id and the YouTube links.

Times are integers. A reservation row from the backend carries instants in minutes since the epoch (UTC). Localising it adds 180 minutes, then takes the day number and the minute of that day. This is the shift the pages apply with `addHours(…, 3)`, read with the browser's clock taken as UTC.

## Model

| member | source | states |
|---|---|---|
| Availability.ParseWindowText | rezervareteren-react/src/pages/Reservation-History-Owners/Reservation-History-Owners.jsx:27-33 | A window text "HH:00 - HH:00" parses back to its two hours (split on " - ", hour prefix before ':') |
| Availability.SplitWindowText | rezervareteren-react/src/pages/Reservation-History-Owners/Reservation-History-Owners.jsx:29-30 | A window text is not "non-stop", and splitting it at " - " gives exactly its two clock texts |
| Availability.ScheduleExtremes | rezervareteren-react/src/pages/Reservation-History-Owners/Reservation-History-Owners.jsx:27-33 | "non-stop" is open at every hour; a window whose close is not after its open is open at no hour |
| Availability.HourPrefixOfClock | rezervareteren-react/src/pages/Search-Fields/Search-Fields.jsx:61 | `parseInt(t.split(":")[0])` of a zero-padded "HH:00" gives back HH |
| Availability.Localise | rezervareteren-react/src/pages/Reservation-History-Owners/Reservation-History-Owners.jsx:52-60 | Id, user and field are kept. Start and end become minutes of the day at UTC+3: each lies in [0, 1440) and is congruent, modulo one day, to its instant + 180 minutes. The date becomes the day of the shifted date instant |
| Availability.LocaliseInPlace | rezervareteren-react/src/pages/Reservation-History-Owners/Reservation-History-Owners.jsx:52-60 | Every element of the array is overwritten by its localised row, in place |
| Availability.FetchFieldReservations | rezervareteren-react/src/pages/Search-Fields/Search-Fields.jsx:75-96 | A failed fetch, an unsuccessful reply or a reply without rows gives the empty list. Otherwise the result is the reply's rows, each localised, in order |
| Availability.IsReservedIff | rezervareteren-react/src/pages/Fields-Map/Fields-Map.jsx:86-96 | `isReserved`'s test `h >= s && h + 1 <= e` over the rows holds exactly when some row has `s <= h < e`, the popup's inline test |
| Availability.OnDate | rezervareteren-react/src/pages/Reservation-History-Owners/Reservation-History-Owners.jsx:259-261 | The filter keeps exactly the rows of the selected day, each as often as in the list, and no row of another day |
| Availability.OnDateAppend | rezervareteren-react/src/pages/Reservation-History-Owners/Reservation-History-Owners.jsx:259-261 | The filter works piecewise over a concatenation, so the kept rows stay in their list order |
| Availability.CellStatus | rezervareteren-react/src/pages/Search-Fields/Search-Fields.jsx:172-180 | A cell is never yellow. It is gray exactly when the hour is outside the schedule, whatever the reservations. It is red exactly when the hour is open and a reservation of that day covers it. Otherwise it is green |
| Availability.EndingAtMidnightShowsNothing | rezervareteren-react/src/pages/Fields-Map/Fields-Map.jsx:410-418 | A reservation whose localised end falls in hour 0 (it ends at local midnight) never makes a cell red |
| FieldsMap.MapBoundsAgree | rezervareteren-react/src/pages/Fields-Map/Fields-Map.jsx:362-368 | The popup's own open/close bounds and `hour >= open && hour < close` agree with `isWithinSchedule` on every hour of the day |
| FieldsMap.MapBoundsOfWindow | rezervareteren-react/src/pages/Fields-Map/Fields-Map.jsx:362-368 | "non-stop" gives bounds 0 and 24; a well-formed window gives its two hours |
| FieldsMap.ScanHour | rezervareteren-react/src/pages/Fields-Map/Fields-Map.jsx:410-418 | The loop over the rows gives red exactly when a row of the selected date covers the hour, and green otherwise |
| FieldsMap.HourColour | rezervareteren-react/src/pages/Fields-Map/Fields-Map.jsx:402-418 | One hour's cell: gray outside the popup's bounds, otherwise the row scan's colour, which is exactly `CellStatus` of that hour |
| FieldsMap.PaintHours | rezervareteren-react/src/pages/Fields-Map/Fields-Map.jsx:402-419 | The loop over the 24 hours yields 24 colours, each exactly `CellStatus` of its hour, and changes nothing |
| FieldsMap.DisplayAvailability | rezervareteren-react/src/pages/Fields-Map/Fields-Map.jsx:361-419 | A schedule the popup cannot split changes nothing and produces no grid. Otherwise every row is localised in place, and the 24 colours are exactly `CellStatus` of the schedule and the localised rows |
| FieldsMap.PaintTwice | rezervareteren-react/src/pages/Fields-Map/Fields-Map.jsx:600-608 | A second colour over the same selection hides the first, so a failed checkout's green is overwritten by red |
| FieldsMap.Abort | rezervareteren-react/src/pages/Fields-Map/Fields-Map.jsx:483-487 | The drag stops, the selection empties, and exactly the selected cells turn green |
| FieldsMap.PressAsWritten | rezervareteren-react/src/pages/Fields-Map/Fields-Map.jsx:467-474 | The mousedown as written: a green cell becomes yellow, the drag starts from it, and the cell is pushed onto the selection without emptying it first. Any other cell changes nothing |
| FieldsMap.PressAsWrittenFresh | rezervareteren-react/src/pages/Fields-Map/Fields-Map.jsx:467-474 | With nothing left selected, the mousedown as written and the corrected one give the same state |
| FieldsMap.PressAsWrittenOverflows | rezervareteren-react/src/pages/Fields-Map/Fields-Map.jsx:467-474 | When three cells are left selected, the mousedown as written makes a fourth, so the drag invariant's three-cell bound fails. This happens after the catch at 532-536, or after a mouseup outside every cell, which leaves `isDragging` set |
| FieldsMap.Press | rezervareteren-react/src/pages/Fields-Map/Fields-Map.jsx:467-474 | This is the corrected mousedown. A non-green cell changes nothing. A green cell starts a drag whose selection is that cell alone, now yellow |
| FieldsMap.InitialInv | rezervareteren-react/src/pages/Fields-Map/Fields-Map.jsx:452-457 | A fresh grid with no drag satisfies the drag invariant, the one the transitions keep under the corrected mousedown: 24 cells; a selection of at most 3 distinct hours that begins at the start cell and is exactly the yellow cells; a drag always has a selection |
| FieldsMap.AbortInv | rezervareteren-react/src/pages/Fields-Map/Fields-Map.jsx:483-487 | Aborting preserves the drag invariant |
| FieldsMap.PressInv | rezervareteren-react/src/pages/Fields-Map/Fields-Map.jsx:467-474 | The corrected mousedown (`Press`) preserves the drag invariant. The mousedown as written does not: see `PressAsWrittenOverflows` |
| FieldsMap.MoveInv | rezervareteren-react/src/pages/Fields-Map/Fields-Map.jsx:476-510 | Mousemove preserves the drag invariant. So, with the corrected mousedown, the selection never exceeds three cells. On the page as written it can (see `PressAsWrittenOverflows`) |
| FieldsMap.ReleaseInv | rezervareteren-react/src/pages/Fields-Map/Fields-Map.jsx:512-625 | Mouseup preserves the drag invariant on every outcome of the lookups, the confirmation, the booking and the checkout. The invariant is the one kept under the corrected mousedown |
| FieldsMap.ClosedAndReservedStay | rezervareteren-react/src/pages/Fields-Map/Fields-Map.jsx:467-625 | No press (the corrected one), move or release changes a gray or red cell |
| FieldsMap.PressOnlyOnGreen | rezervareteren-react/src/pages/Fields-Map/Fields-Map.jsx:467-474 | A drag is in progress after a press exactly when one was before or the pressed cell is green; then the selection is that cell alone |
| FieldsMap.MoveAborts | rezervareteren-react/src/pages/Fields-Map/Fields-Map.jsx:480-508 | During a drag, moving into another field, onto a red or gray cell, or onto a fourth green cell stops the drag, empties the selection and turns exactly the selected cells green |
| FieldsMap.MoveOverSelectedIgnored | rezervareteren-react/src/pages/Fields-Map/Fields-Map.jsx:490-501 | Moving back over an already selected cell of the same field changes nothing |
| FieldsMap.ReleaseLimits | rezervareteren-react/src/pages/Fields-Map/Fields-Map.jsx:526-547 | Three reservations that day, or one on this field that day, mean nothing is sent, the drag stops, the selection empties and its cells turn green |
| FieldsMap.ReleaseBooks | rezervareteren-react/src/pages/Fields-Map/Fields-Map.jsx:553-623 | A confirmed release past the limits asks for the start hour to the last selected hour + 1. It charges price-per-hour × selection size. Every selected cell ends red after a booking, whatever the checkout did, and green otherwise. The selection and start are cleared |
| FieldsMap.ReleasePastLimits | rezervareteren-react/src/pages/Fields-Map/Fields-Map.jsx:553-623 | The complete state and request after the limit checks: a declined confirmation paints the selection green and sends nothing; a confirmed one sends the request and paints red or green by the booking result |
| FieldsMap.UpwardDrag | rezervareteren-react/src/pages/Fields-Map/Fields-Map.jsx:516-565 | Neither direction nor adjacency is checked. Pressing 12:00 and moving to 11:00 asks for 12:00 to 12:00 and charges two hours |
| FieldsMap.StaleSelectionOvercharges | rezervareteren-react/src/pages/Fields-Map/Fields-Map.jsx:532-536 | With mousedown as written, a failed day-limit lookup leaves three hours selected. The next single-hour drag then asks for one hour at a total of four hours, and a successful booking sends that total to the checkout |
| FieldsMap.FreshSelectionCharges | rezervareteren-react/src/pages/Fields-Map/Fields-Map.jsx:467-474 | With the corrected mousedown, a press and release on one green hour asks for that hour and charges exactly one hour |
| FieldsMap.DragSelection.constructor | rezervareteren-react/src/pages/Fields-Map/Fields-Map.jsx:453-457 | The listeners start on the grid's colours with no drag, no start cell and no selection |
| FieldsMap.DragSelection.PaintSelected | rezervareteren-react/src/pages/Fields-Map/Fields-Map.jsx:608 | The `forEach` colours exactly the selected cells of the array |
| FieldsMap.DragSelection.MouseDown | rezervareteren-react/src/pages/Fields-Map/Fields-Map.jsx:467-474 | With the corrected mousedown, the new state is `Press` of the old, changed in place |
| FieldsMap.DragSelection.MouseMove | rezervareteren-react/src/pages/Fields-Map/Fields-Map.jsx:476-510 | The new state is `Move` of the old, changed in place |
| FieldsMap.DragSelection.Stop | rezervareteren-react/src/pages/Fields-Map/Fields-Map.jsx:483-487 | The new state is `Abort` of the old |
| FieldsMap.DragSelection.MouseUp | rezervareteren-react/src/pages/Fields-Map/Fields-Map.jsx:512-625 | The new state and the request sent are those of `Release` of the old state and the outcome |
| FieldsMap.DragSelection.Settle | rezervareteren-react/src/pages/Fields-Map/Fields-Map.jsx:556-625 | Once both limit checks have passed, the confirmation, the booking and the checkout leave the state and the request that `Release` gives, changed in place |
| SearchFields.FillHour | rezervareteren-react/src/pages/Search-Fields/Search-Fields.jsx:166-181 | One hour's pass over the fields adds a key for that hour for every field id. Each key takes the colour of the last field with that id. Keys of other hours are untouched |
| SearchFields.ComputeBase | rezervareteren-react/src/pages/Search-Fields/Search-Fields.jsx:163-185 | The base map has exactly the keys (field id, hour) for every found field and each of the 24 hours. Each value is that field's `CellStatus` on the chosen date; a repeated id keeps its last field's colours |
| SearchFields.Restore | rezervareteren-react/src/pages/Search-Fields/Search-Fields.jsx:104-110 | Each selected key gets its base status, or green when the base has none; every other key keeps its value |
| SearchFields.ResetToBase | rezervareteren-react/src/pages/Search-Fields/Search-Fields.jsx:103-114 | The selected keys return to their base status (green if absent). Every other key is unchanged. The selection is emptied, the start cleared and dragging stops |
| SearchFields.FindField | rezervareteren-react/src/pages/Search-Fields/Search-Fields.jsx:329 | `find` returns nothing exactly when no field has the id; otherwise it returns the first field with it |
| SearchFields.HourLabelPrefix | rezervareteren-react/src/pages/Search-Fields/Search-Fields.jsx:348-349 | The backend reads back the hour of every "HH:00" label the page sends |
| SearchFields.RequestTotal | rezervareteren-react/src/pages/Search-Fields/Search-Fields.jsx:328-331 | The total is the release field's hourly price × the selection size, and 0 when no field has that id |
| SearchFields.SubmittedInv | rezervareteren-react/src/pages/Search-Fields/Search-Fields.jsx:184-185 | Installing the base map as both the live and the base map satisfies the selection invariant: at most 3 distinct yellow keys of one field starting at the start cell; a drag has a selection; live and base maps have the same keys, all of hours below 24 |
| SearchFields.ResetInv | rezervareteren-react/src/pages/Search-Fields/Search-Fields.jsx:103-114 | Resetting preserves the selection invariant |
| SearchFields.PressInv | rezervareteren-react/src/pages/Search-Fields/Search-Fields.jsx:195-206 | Mousedown preserves the selection invariant |
| SearchFields.EnterInv | rezervareteren-react/src/pages/Search-Fields/Search-Fields.jsx:208-255 | Mouseenter preserves the selection invariant, so the selection never exceeds three keys |
| SearchFields.ReleaseOutsideInv | rezervareteren-react/src/pages/Search-Fields/Search-Fields.jsx:41-50 | The global mouseup preserves the selection invariant |
| SearchFields.ReleaseInv | rezervareteren-react/src/pages/Search-Fields/Search-Fields.jsx:257-422 | Mouseup on a cell preserves the selection invariant on every outcome |
| SearchFields.PressOnlyOnGreen | rezervareteren-react/src/pages/Search-Fields/Search-Fields.jsx:195-206 | Mousedown on a green key starts a drag whose selection is exactly that key, now yellow; on any other key nothing changes |
| SearchFields.EnterAborts | rezervareteren-react/src/pages/Search-Fields/Search-Fields.jsx:221-235 | During a drag, entering a key of another field or any non-green key resets the selection to base |
| SearchFields.EnterSelectedAborts | rezervareteren-react/src/pages/Search-Fields/Search-Fields.jsx:229-238 | Re-entering an already selected (yellow) key also resets, because the colour test runs before the duplicate test |
| SearchFields.EnterFourthAborts | rezervareteren-react/src/pages/Search-Fields/Search-Fields.jsx:241-246 | Entering a fourth green key resets the selection |
| SearchFields.ReleaseIdle | rezervareteren-react/src/pages/Search-Fields/Search-Fields.jsx:257-261 | Mouseup with no drag in progress changes nothing and sends nothing |
| SearchFields.ReleaseBlocked | rezervareteren-react/src/pages/Search-Fields/Search-Fields.jsx:288-342 | A failed lookup, three reservations that day, one on this field, or a declined confirmation: each resets the selection and sends nothing |
| SearchFields.ReleaseSendsRequest | rezervareteren-react/src/pages/Search-Fields/Search-Fields.jsx:344-359 | A confirmed release past both limits sends the request built from the start key, the last selected key and the release field |
| SearchFields.RequestContents | rezervareteren-react/src/pages/Search-Fields/Search-Fields.jsx:345-351 | The request runs from the zero-padded first selected hour to the zero-padded last selected hour + 1, with no adjacency or order check. The backend reads both hours back |
| SearchFields.BookedStaysRed | rezervareteren-react/src/pages/Search-Fields/Search-Fields.jsx:372-378 | After a successful booking, every selected key is red in both the live map and the base map, whatever the checkout did. The selection is cleared |
| SearchFields.ReleaseWithoutUser | rezervareteren-react/src/pages/Search-Fields/Search-Fields.jsx:277-282 | Without a logged-in user the release only stops the drag; the selection stays yellow and nothing is sent |
| SearchFields.SearchGrid.constructor | rezervareteren-react/src/pages/Search-Fields/Search-Fields.jsx:18-28 | The page starts with empty maps, no drag, no selection and no error |
| SearchFields.SearchGrid.Submit | rezervareteren-react/src/pages/Search-Fields/Search-Fields.jsx:117-192 | Everything is cleared first. No date, a failed request (the `catch` at 186-188), or no fields found leaves empty maps and the matching error. Otherwise the live and base maps are the computed base map, with the invariant holding |
| SearchFields.SearchGrid.ResetSelectedToBase | rezervareteren-react/src/pages/Search-Fields/Search-Fields.jsx:103-114 | The loop over the selected keys leaves exactly `ResetToBase` of the old state |
| SearchFields.SearchGrid.MouseDown | rezervareteren-react/src/pages/Search-Fields/Search-Fields.jsx:195-206 | The new state is `Press` of the old |
| SearchFields.SearchGrid.MouseEnter | rezervareteren-react/src/pages/Search-Fields/Search-Fields.jsx:208-255 | The new state is `Enter` of the old |
| SearchFields.SearchGrid.GlobalMouseUp | rezervareteren-react/src/pages/Search-Fields/Search-Fields.jsx:41-50 | The new state is `ReleaseOutside` of the old: a drag in progress is reset, otherwise nothing changes |
| SearchFields.SearchGrid.MouseUp | rezervareteren-react/src/pages/Search-Fields/Search-Fields.jsx:257-422 | The new state and the request sent are those of `Release` |
| OwnersHistory.CellColourAgrees | rezervareteren-react/src/pages/Reservation-History-Owners/Reservation-History-Owners.jsx:263-275 | The owner's colour expression over `isWithinSchedule` and `isReserved` on that day's rows is the shared `CellStatus` |
| OwnersHistory.FindCovering | rezervareteren-react/src/pages/Reservation-History-Owners/Reservation-History-Owners.jsx:279-291 | `find` returns the first row with `start <= i < end`, or nothing when no row covers `i` |
| OwnersHistory.Click | rezervareteren-react/src/pages/Reservation-History-Owners/Reservation-History-Owners.jsx:277-298 | Clicking a cell that is not reserved opens nothing |
| OwnersHistory.ClickOnReservedOpens | rezervareteren-react/src/pages/Reservation-History-Owners/Reservation-History-Owners.jsx:277-298 | Clicking a reserved cell always opens a reservation of that day that covers the hour, with its id, user and times. It is the first such reservation in the day's list order, the one `filter` then `find` picks when reservations overlap |
| OwnersHistory.GrayReservedCellOpens | rezervareteren-react/src/pages/Reservation-History-Owners/Reservation-History-Owners.jsx:263-298 | A reservation outside the schedule leaves its cell gray, yet clicking the cell still opens it |
| OwnersHistory.CancelReservation | rezervareteren-react/src/pages/Reservation-History-Owners/Reservation-History-Owners.jsx:113-138 | A request is sent exactly when a modal is open and the owner confirms, and it carries the modal's id. The search reruns and the modal closes exactly on success; otherwise the modal stays |
| FieldSearch.BuildSearchQuery | rezervareteren-backend/app.js:338-350 | The base condition keeps confirmed fields. A sport and a sector condition are added only for non-empty inputs, with parameters in the order sport, sector. The query selects a field exactly when the reference rule `Matches` holds |
| FieldSearch.SportPart | rezervareteren-backend/app.js:342-345 | The optional sport clause and its parameter select exactly the fields of that sport when a sport is given, together with the sector part |
| FieldSearch.SectorPart | rezervareteren-backend/app.js:347-350 | The optional sector clause binds one parameter exactly when a sector is given, and then selects exactly the fields of that sector |
| FieldSearch.RunQuery | rezervareteren-backend/app.js:353-358 | The result holds exactly the table's rows that the query selects |
| FieldSearch.OfField | rezervareteren-backend/app.js:379 | `WHERE id_teren = ?` keeps exactly the field's rows, each exactly as often as in the table, and no row of another field |
| FieldSearch.Insert | rezervareteren-backend/app.js:380 | Inserting into an ordered list keeps it ordered by (date, start) and adds exactly that row |
| FieldSearch.Sort | rezervareteren-backend/app.js:380 | `ORDER BY data_rezervare, ora_inceput` returns a permutation of its input that is ordered by date, then start |
| FieldSearch.FieldReservationsSpec | rezervareteren-backend/app.js:374-391 | `getFutureReservations` returns every reservation of the field, past ones included, each as often as stored, ordered by date then start |
| FieldSearch.Attach | rezervareteren-backend/app.js:360-365 | Each found field is paired, in order, with its reservations |
| FieldSearch.SearchFields | rezervareteren-backend/app.js:335-367 | Every field returned is in the table and matches the filter. Every matching field is returned. Each carries exactly `getFutureReservations` of its id |
| BookingGate.MakeReservation | rezervareteren-backend/app.js:398-431 | The intended gate, for a start time that parses: a day before today is refused with its message and the table unchanged. So is a same-day start not later than now, and so is a failed insert. Success holds exactly when both tests pass and the insert succeeds; then exactly one row with the request's field, user, day and times is appended. The handler as written does not refuse the past hour (see `MakeReservationAsWritten`) |
| BookingGate.MakeReservationAsWritten | rezervareteren-backend/app.js:398-431 | The handler with the start as `new Date(ora_inceput)` parses it. A start that parses gives exactly `MakeReservation`. An unparsable start, which is what Node makes of the "HH:00" text, gives success exactly when the day is not past and the insert succeeds; a refusal leaves the table unchanged |
| BookingGate.UnparsedNeverPast | rezervareteren-backend/app.js:400-414 | The text "NaN:NaN" of an invalid start is never `<=` the current "HH:MM", so the hour test never fires for it |
| BookingGate.PastHourStoredAsWritten | rezervareteren-backend/app.js:400-431 | A same-day booking for a start not later than now is refused by the intended gate, but stored by the handler as written |
| BookingGate.SameDayOrder | rezervareteren-backend/app.js:400-416 | On the same day, the string test `"HH:MM" <= "HH:MM"` refuses exactly the starts not later than now in (hour, minute) order |
| BookingGate.LaterDayPasses | rezervareteren-backend/app.js:410-416 | Corollary of the two tests: a booking for a later day passes both whatever the hours |
| BookingGate.AtMostOneInsert | rezervareteren-backend/app.js:418-431 | Corollary of `MakeReservation`'s contract: a refused request leaves the table as it was, and a successful one extends it by exactly one row |
| BookingGate.NoOverlapCheck | rezervareteren-backend/app.js:410-431 | Nothing prevents a double booking: a request overlapping a stored reservation of the same field and day is stored next to it |
| Text.ClockTextOrder | rezervareteren-backend/app.js:400-414 | Comparing zero-padded "HH:MM" texts with `<=` is comparing (hour, minute) pairs |
| Text.ClockTextLess | rezervareteren-backend/app.js:400-414 | Strict `<` on zero-padded "HH:MM" texts is strict (hour, minute) order |
| Text.Trim | rezervareteren-backend/app.js:601 | `trim` leaves no white space at either end and never lengthens the text |
| Text.TrimKeeps | rezervareteren-backend/app.js:601 | `trim` removes only white space: every other character of the text is kept, and nothing new appears |
| Text.ToLower | rezervareteren-backend/app.js:601 | `toLowerCase` keeps the length and lowers each letter A-Z, leaving every other character |
| Text.SplitJoinCommaSpace | rezervareteren-react/src/pages/My-Profile/My-Profile.jsx:31 | Splitting at ", " a list joined with ", " gives the list back when no element contains ", " |
| Text.Pad2 | rezervareteren-react/src/pages/Search-Fields/Search-Fields.jsx:348-349 | `padStart(2, "0")` of an hour below 100 is its two decimal digits |
| Text.ParseIntOfPad2 | rezervareteren-react/src/pages/Search-Fields/Search-Fields.jsx:61 | `parseInt` of a zero-padded number below 100 gives the number back |
| TrainingPlan.TranslateText | rezervareteren-backend/app.js:586-623 | A word whose trimmed, lower-cased form is in the dictionary gives the dictionary entry. Any other word gives the service's answer, or the original text when the service fails |
| TrainingPlan.DictionaryIgnoresService | rezervareteren-backend/app.js:601-605 | For a dictionary word the result does not depend on the translation service at all, and it is non-empty |
| TrainingPlan.ExtractExerciseName | rezervareteren-backend/app.js:625-628 | The result is null exactly when the text has no character other than ':' and '-'. Otherwise it is trimmed and drawn from the text with no ':' or '-' |
| TrainingPlan.NameRun | rezervareteren-backend/app.js:626 | The group `[^:-]+` is the longest prefix free of ':' and '-' |
| TrainingPlan.SkipStops | rezervareteren-backend/app.js:626 | The match starts at the first character that is neither ':' nor '-', and there is none exactly when every character is one of them |
| TrainingPlan.Group | rezervareteren-backend/app.js:626 | The captured group holds only characters of the text, none of them ':' or '-' |
| TrainingPlan.BulletSkipped | rezervareteren-backend/app.js:626 | After the optional "* " prefix the name is the run up to the first ':' or '-' |
| TrainingPlan.NumberedSkipped | rezervareteren-backend/app.js:626 | After the optional "Exercitiu N - " prefix the name is the run up to the first ':' or '-' |
| TrainingPlan.SplitDaysJoin | rezervareteren-backend/app.js:760 | The split at newlines followed by a day header loses nothing: rejoining with newlines gives the text back |
| TrainingPlan.SplitDaysHeaders | rezervareteren-backend/app.js:760 | Every piece after the first starts with a day header (`\d+\.\s?[A-Z][a-z]`): the split cuts only at a newline that a header follows, and a header never contains a cut |
| TrainingPlan.PreambleDropped | rezervareteren-backend/app.js:760 | Text before the first cut, of any number of lines as long as none of its newlines is followed by a day header, joins the first piece, which `slice(1)` drops. The later pieces are exactly those of the rest of the text |
| TrainingPlan.DaysAfterPreamble | rezervareteren-backend/app.js:760 | For a preamble, a newline and then a text starting with a day header, the pieces the parser keeps are exactly the split of that text: nothing of the preamble survives |
| TrainingPlan.StripDayNumberExact | rezervareteren-backend/app.js:765 | A line beginning with digits and a dot loses exactly those digits, the dot and one white-space character when one follows (none otherwise, and then what is left does not start with white space). Any other line is unchanged |
| TrainingPlan.ExerciseEntry | rezervareteren-backend/app.js:769-785 | A line is kept exactly when its extracted name is non-empty. The kept entry is the line without its leading dash, trimmed, possibly followed by a video link |
| TrainingPlan.StripDash | rezervareteren-backend/app.js:769 | The result is a suffix of the line |
| TrainingPlan.StripDashExact | rezervareteren-backend/app.js:769 | A line whose first non-space character is a dash is white space, the dash, white space and the result, and the result does not start with white space: exactly `^\s*-\s*` is removed. Any other line is returned unchanged |
| TrainingPlan.Assign | rezervareteren-backend/app.js:788 | After `trainingPlan[day] = exercises` the day maps to those exercises and every other day is unchanged |
| TrainingPlan.AssignShape | rezervareteren-backend/app.js:788 | A day already present is overwritten in its place; a new day is appended |
| TrainingPlan.AssignDays | rezervareteren-backend/app.js:788 | After the assignment the plan's days are its old days plus the assigned one |
| TrainingPlan.AssignDistinct | rezervareteren-backend/app.js:788 | The assignment keeps each day named once in the plan |
| TrainingPlan.BuildDays | rezervareteren-backend/app.js:763-789 | The plan's days are exactly the days it had plus the day names parsed |
| TrainingPlan.BuildDistinct | rezervareteren-backend/app.js:763-789 | Each day appears once in the plan, however often it is named |
| TrainingPlan.LastEntryWins | rezervareteren-backend/app.js:788 | A repeated day name overwrites the earlier one: the last section with that name gives the day's exercises |
| TrainingPlan.UnnamedDayKept | rezervareteren-backend/app.js:788 | Sections with other names leave a day's exercises alone |
| TrainingPlan.DaysOfAt | rezervareteren-backend/app.js:763-765 | The k-th day entry is built from the k-th section alone, so each day's name and exercises depend on no other section |
| TrainingPlan.PlanOfDays | rezervareteren-backend/app.js:760-789 | The parsed plan has one entry per distinct day name of the sections after the first piece |
| TrainingPlan.CollectExercises | rezervareteren-backend/app.js:768-786 | The loop over the exercise lines collects exactly the surviving entries, in order |
| TrainingPlan.ParseTrainingPlan | rezervareteren-backend/app.js:760-789 | The parsing loop yields `PlanOf` of the text, with distinct day names |
| Register.ValidateEmailIff | rezervareteren-react/src/pages/Register/Register.jsx:28 | An address is accepted exactly when it is some local part followed by "@gmail.com" |
| Register.PasswordChecks | rezervareteren-react/src/pages/Register/Register.jsx:39-48 | Each of the five flags holds exactly when its condition holds: an A-Z, an a-z, a 0-9, a character of the special set, length 8 to 12 |
| Register.ChecksAgree | rezervareteren-react/src/pages/Register/Register.jsx:30-48 | The five flags all hold exactly when `isPasswordComplex` holds |
| Register.ComplexExample | rezervareteren-react/src/pages/Register/Register.jsx:30-37 | Illustration of the complexity rule: "Abcdef1!" is complex |
| Register.NotComplexExamples | rezervareteren-react/src/pages/Register/Register.jsx:30-37 | Illustration of the complexity rule: a password without an uppercase letter is not complex, and neither is one of 13 characters |
| Register.ValidateAccount | rezervareteren-react/src/pages/Register/Register.jsx:58-80 | The result holds exactly when e-mail, complexity and match all pass. The first failing check, in that order, raises only its own alert; success leaves no alert |
| Register.Submit | rezervareteren-react/src/pages/Register/Register.jsx:82-108 | A request is sent exactly when the validation passes. A success stores the username with no alert. A refusal or an error raises only `duplicateEmail`. At most one alert is ever raised |
| SetNewPassword.SameRuleAsRegister | rezervareteren-react/src/pages/Set-New-Password/Set-New-Password.jsx:17-25 | `every(Boolean)` over the five checks is the registration form's complexity rule |
| SetNewPassword.ValidatePasswords | rezervareteren-react/src/pages/Set-New-Password/Set-New-Password.jsx:27-37 | A password that is not complex raises only `passwordComplexity`. A complex one that differs from its confirmation raises only `differentPasswords`. Otherwise both flags are clear and the result is true. Never are both raised |
| SetNewPassword.Submit | rezervareteren-react/src/pages/Set-New-Password/Set-New-Password.jsx:39-41 | The new password is sent exactly when it is complex and equals its confirmation |
| ResetPassword.ResetPassword | rezervareteren-react/src/pages/Reset-Password/Reset-Password.jsx:17-42 | A request is sent exactly when the address ends with "@gmail.com". An invalid address raises only `invalidEmail`; a success only `emailSent`; a refusal only `nonExistentEmail`. A failed request leaves the flags as they were |
| ResetPassword.ExactlyOneFlag | rezervareteren-react/src/pages/Reset-Password/Reset-Password.jsx:20-38 | Every handled outcome leaves exactly one flag raised |
| ResetPassword.AtMostOneFlag | rezervareteren-react/src/pages/Reset-Password/Reset-Password.jsx:20-41 | From at most one raised flag, every outcome, a thrown error included, leaves at most one |
| MyProfile.ParseSports | rezervareteren-react/src/pages/My-Profile/My-Profile.jsx:31 | The parsed list has no empty name; a null or empty column gives the empty list |
| MyProfile.NonEmpty | rezervareteren-react/src/pages/My-Profile/My-Profile.jsx:31 | `filter(Boolean)` keeps exactly the non-empty names |
| MyProfile.ParseJoin | rezervareteren-react/src/pages/My-Profile/My-Profile.jsx:63 | Parsing the joined list gives the list back when no name is empty or contains ", " |
| MyProfile.ToggleSport | rezervareteren-react/src/pages/My-Profile/My-Profile.jsx:47-53 | A present sport is removed everywhere, an absent one is appended at the end, and no other sport changes membership |
| MyProfile.ToggleKeepsWellFormed | rezervareteren-react/src/pages/My-Profile/My-Profile.jsx:47-53 | Toggling a well-formed name keeps the list free of empty names and of ", " |
| MyProfile.ToggleTwice | rezervareteren-react/src/pages/My-Profile/My-Profile.jsx:47-53 | Toggling twice restores every membership; from an absent sport it restores the exact list |
| MyProfile.LoadProfile | rezervareteren-react/src/pages/My-Profile/My-Profile.jsx:28-32 | A loaded profile keeps the stored column and edits a list with no empty name |
| MyProfile.SaveSports | rezervareteren-react/src/pages/My-Profile/My-Profile.jsx:55-79 | The joined list is sent. On success the profile's column becomes that text and the modal closes; otherwise nothing changes |
| MyProfile.SaveThenLoad | rezervareteren-react/src/pages/My-Profile/My-Profile.jsx:63-70 | After a successful save, loading the profile again shows the same list |
| Lists.ToggleTwiceAbsent | rezervareteren-react/src/pages/Virtual-Assistant/Virtual-Assistant.jsx:23-27 | Toggling an absent element twice gives back exactly the list |
| Lists.Toggle | rezervareteren-react/src/pages/Virtual-Assistant/Virtual-Assistant.jsx:23-27 | A present element is removed and an absent one added; no other element changes membership |
| Lists.RemoveAll | rezervareteren-react/src/pages/My-Profile/My-Profile.jsx:50 | `filter(s => s !== x)` leaves no `x` and keeps the membership of every other element |
| Lists.ToggleTwiceMembership | rezervareteren-react/src/pages/My-Profile/My-Profile.jsx:47-53 | Toggling the same element twice restores every membership |
| Lists.RemoveAllKeepsOthers | rezervareteren-react/src/pages/My-Profile/My-Profile.jsx:50 | Removing one element keeps every other element exactly as often as it was |
| VirtualAssistant.ToggleDay | rezervareteren-react/src/pages/Virtual-Assistant/Virtual-Assistant.jsx:23-27 | A present day is removed, an absent day is appended, no other day changes membership and nothing else in the page changes |
| VirtualAssistant.ChangeSport | rezervareteren-react/src/pages/Virtual-Assistant/Virtual-Assistant.jsx:280-283 | Changing the sport always clears the preferred position and leaves the messages and days alone |
| VirtualAssistant.Submit | rezervareteren-react/src/pages/Virtual-Assistant/Virtual-Assistant.jsx:29-78 | The stream opens exactly when a day is chosen and the browser is online. No day sets only the error flag. Offline appends one assistant message. Otherwise it appends the user's summary and starts typing |
| VirtualAssistant.OnMessage | rezervareteren-react/src/pages/Virtual-Assistant/Virtual-Assistant.jsx:80-100 | A successful event with a plan appends the plan card; any other appends its message or the fallback; typing stops |
| VirtualAssistant.OnError | rezervareteren-react/src/pages/Virtual-Assistant/Virtual-Assistant.jsx:102-114 | A stream error appends one assistant message chosen by the connection state; typing stops |
| VirtualAssistant.StepAppends | rezervareteren-react/src/pages/Virtual-Assistant/Virtual-Assistant.jsx:39-148 | Each handler keeps the old chat list as a prefix and adds at most one entry |
| VirtualAssistant.RunAppends | rezervareteren-react/src/pages/Virtual-Assistant/Virtual-Assistant.jsx:39-148 | The chat list is append-only: over any sequence of events the old list stays a prefix, growing by at most one entry per event |
| VirtualAssistant.OfflineSubmit | rezervareteren-react/src/pages/Virtual-Assistant/Virtual-Assistant.jsx:38-47 | Offline, a submit with days chosen opens nothing and appends exactly one assistant message |
| ReservationHistory.Format | rezervareteren-react/src/pages/Reservation-History/Reservation-History.jsx:32-47 | The original record is kept whole. The display date is the day of the date + 3 h. Start and end are the minutes of their own day, unshifted. `isFuture` holds exactly when the start is later than now |
| ReservationHistory.FormatAll | rezervareteren-react/src/pages/Reservation-History/Reservation-History.jsx:32-47 | Every record is formatted, in order |
| ReservationHistory.CancelOnlyFuture | rezervareteren-react/src/pages/Reservation-History/Reservation-History.jsx:218 | The cancel button is disabled exactly when the reservation has already started |
| ReservationHistory.HistoryTimeDiffersFromGrid | rezervareteren-react/src/pages/Reservation-History/Reservation-History.jsx:34-35 | The history shows start times three hours earlier (mod one day) than the owner's grid and the map popup show for the same reservation |
| ReservationHistory.Load | rezervareteren-react/src/pages/Reservation-History/Reservation-History.jsx:24-55 | A successful reply with an array fills the list. Any other reply sets its message, or the fallback, as the error. A failed request sets the loading error |
| ReservationHistory.RemoveById | rezervareteren-react/src/pages/Reservation-History/Reservation-History.jsx:79-81 | Exactly the records with that id go |
| ReservationHistory.RemoveByIdAppend | rezervareteren-react/src/pages/Reservation-History/Reservation-History.jsx:79-81 | The filter works piecewise, so the kept records keep their order |
| ReservationHistory.RemoveByIdAbsent | rezervareteren-react/src/pages/Reservation-History/Reservation-History.jsx:79-81 | With no record of that id the list is unchanged |
| ReservationHistory.RemoveByIdCount | rezervareteren-react/src/pages/Reservation-History/Reservation-History.jsx:79-81 | The list shrinks by exactly the number of records with that id |
| ReservationHistory.Cancel | rezervareteren-react/src/pages/Reservation-History/Reservation-History.jsx:64-89 | A request is sent exactly when the user confirms. Only a successful reply removes the records with the id; a declined confirmation, a refusal or an error leaves the list unchanged |

## Left out

- Time zones. The browser's and the server's clocks are taken as UTC. The localisation is the fixed +180 minutes the pages add. The conversion with moment-timezone to Europe/Bucharest (`app.js:407-408`) is left out; the stored start and end instants are inputs.
- JavaScript `Date` parsing and formatting (`new Date(string)`, `toISOString`, `toTimeString`) is left out. Dates are day numbers and times are minutes.
- BookingGate.MakeReservation: this is the intended gate, not the code as written. The handler builds the compared start from `new Date(ora_inceput)`, and `ora_inceput` is an "HH:00" text. Node does not parse that text as a date, so the code as written compares "NaN:NaN" and accepts a same-day booking for an hour already past. `MakeReservationAsWritten` models that, and a row under "## Findings" records it. Which texts `Date` parses is left out; the parse result is an input.
- BookingGate.MakeReservation: the outer `catch` answering 500 "Failed to process reservation." is left out. Nothing in the modelled handler throws.
- Random reservation ids and reset tokens are inputs.
- Strings are sequences of characters. `toLowerCase` is modelled on ASCII letters only, and `trim` on the ASCII white space it recognises; UTF-16 and Unicode case rules are left out.
- TrainingPlan.TranslateText: JavaScript object lookup also finds prototype keys such as "constructor". The model's dictionary holds only the eleven listed words.
- TrainingPlan.ParseTrainingPlan: a plan is a list of (day, exercises) in insertion order. JavaScript puts integer-like keys first; day names are never integer-like here, so this is not modelled.
- External services are parameters: Google Translate (an optional answer), the YouTube search (a map from exercise name to link), Stripe checkout (a `Payment` outcome), the OpenAI call and its stream (events of the chat page), nodemailer, Google Maps and geocoding.
- SQL is modelled as a list of clauses with bound parameters, evaluated over a table given as a sequence. MySQL collation, `NULL` columns and the error path of `/search-fields` (status 500) are left out.
- FieldSearch.Sort: `ORDER BY` is modelled as an insertion sort. Rows with equal date and start may come back in any order, so the model promises only order and permutation.
- Prices are mathematical reals. Floating-point rounding, the multiplication by 100 for Stripe and the haversine distance are left out.
- React state updates are modelled as taking effect immediately. Stale closures, batching and concurrent events are left out; the component's state is one record changed by each handler in turn.
- SearchFields: cell keys are pairs (field id, hour) rather than the text `${id}-${HH}`, so a key always splits back into its parts.
- FieldsMap.DragSelection.MouseDown: the class runs the corrected mousedown (`Press`), which first gives any left-over selection back its green. On the page the mousedown pushes onto the old selection (`PressAsWritten`), so the three-cell bound of `Inv` and the rows built on it (`PressInv`, `MoveInv`, `ReleaseInv`, `ClosedAndReservedStay`) describe the corrected page, not the page as written.
- FieldsMap.Release: neither label of the request is zero-padded. The start label is `${startHour}:00`, and `startHour` is the cell's unpadded `data-hour` (`Fields-Map.jsx:424, 470, 564`). The end label is `${parseInt(endHour) + 1}:00`. So 9 o'clock is sent as "9:00". The model's request carries the two hours as numbers, not as label texts.
- The `handleSearch` glue of the owner's page (fetching owned fields, descriptions) and page navigation, `localStorage`, alerts and rendering are left out.
- Pages with no rules (login, dashboards, adding and listing fields, the owner's profile) are not part of this model.
- Concurrency at the database level (two simultaneous bookings) is left out. NoOverlapCheck states only that the gate itself performs no overlap test.

## Findings

| source | as written | input that shows it | evidently intended | confidence | as-written member | corrected member |
|---|---|---|---|---|---|---|
| rezervareteren-react/src/pages/Fields-Map/Fields-Map.jsx:532-536 | A failed day-limit lookup returns without emptying `selectedCells`. The next mousedown pushes onto the old selection (467-474), so a later release books from the new start cell but charges for every stale cell as well | Drag 10:00-12:00 and let the day-limit lookup fail. Then press and release 15:00 alone. The request is 15:00-16:00, charged at four hours | Each drag starts a fresh selection, as the search page's mousedown does: one selected hour is charged as one hour | not executed | FieldsMap.StaleSelectionOvercharges | FieldsMap.FreshSelectionCharges |
| rezervareteren-backend/app.js:400-414 | The same-day test compares `newOra_inceput`, built from `new Date(ora_inceput)`. With the "HH:00" text the frontend sends, that is an invalid date, so the text is "NaN:NaN". It sorts after every "HH:MM", so the hour test never refuses | At 14:30, a booking for today starting at 10:00 is stored with "Reservation made successfully!" | A same-day start not later than the current time is refused with "Nu poti face rezervari inainte de ora de astazi!" | not executed | BookingGate.PastHourStoredAsWritten | BookingGate.MakeReservation |

=== FILE: availability.dfy ===
/**
 * The occupancy rules shared by the three availability grids (the map popup,
 * the search results and the owner's history): parsing a field's schedule
 * text, re-localising reservation rows by a fixed +3 hours, `isReserved`, and
 * the colour of one hour cell.
 */
module Availability {
  import opened Wrappers
  import Text

  /** Colour of an hour cell: closed, available, reserved, or part of a drag selection. */
  datatype Status = Gray | Green | Red | Yellow

  /**
   * A field's schedule as `isWithinSchedule` reads it: "non-stop", or the two
   * hour prefixes of "HH:MM - HH:MM"; a bound that parses to NaN (or is
   * missing, i.e. `undefined`) is None.
   */
  datatype Schedule = NonStop | Window(open: Option<int>, close: Option<int>)

  const NonStopText: string := "non-stop"
  const RangeSeparator: string := " - "
  const HoursPerDay: int := 24

  /** `parseInt(time.split(":")[0], 10)` */
  function HourPrefix(time: string): Option<int>
  {
    Text.ParseInt(Text.Split(time, ":")[0])
  }

  function ParseSchedule(text: string): Schedule
  {
    if text == NonStopText then NonStop
    else
      var parts := Text.Split(text, RangeSeparator);
      Window(HourPrefix(parts[0]), if |parts| >= 2 then HourPrefix(parts[1]) else None)
  }

  /** `isWithinSchedule`: comparisons with NaN or undefined are false. */
  predicate IsWithinSchedule(hour: int, schedule: Schedule)
  {
    match schedule
    case NonStop => true
    case Window(open, close) => open.Some? && close.Some? && open.value <= hour < close.value
  }

  /** The text the owners' form stores for a window, "HH:00 - HH:00". */
  function WindowText(open: nat, close: nat): string
  {
    Text.Pad2(open) + ":00" + RangeSeparator + Text.Pad2(close) + ":00"
  }

  lemma HourPrefixOfClock(h: nat)
    requires h < 100
    ensures HourPrefix(Text.Pad2(h) + ":00") == Some(h)
  {
    var p := Text.Pad2(h);
    Text.NoFirstCharNoMatch(p, ":" + "00", ":");
    Text.SplitAfterPiece(p, ":", "00");
    assert p + ":" + "00" == p + ":00";
    Text.ParseIntOfPad2(h);
  }

  /** A well-formed window text splits on " - " into its two clock texts. */
  lemma SplitWindowText(open: nat, close: nat)
    requires open < 100 && close < 100
    ensures WindowText(open, close) != NonStopText
    ensures Text.Split(WindowText(open, close), RangeSeparator)
      == [Text.Pad2(open) + ":00", Text.Pad2(close) + ":00"]
  {
    var a, b := Text.Pad2(open) + ":00", Text.Pad2(close) + ":00";
    assert WindowText(open, close) == a + RangeSeparator + b;
    assert WindowText(open, close)[0] != NonStopText[0];
    assert ' ' !in a && ' ' !in b;
    Text.NoFirstCharNoMatch(a, RangeSeparator + b, RangeSeparator);
    Text.SplitAfterPiece(a, RangeSeparator, b);
    Text.NoFirstCharNoMatch(b, [], RangeSeparator);
    NoMatchMeansNoContains(b, RangeSeparator);
    Text.SplitWithoutSeparator(b, RangeSeparator);
  }

  /** Parsing a well-formed window gives back its two hours. */
  lemma ParseWindowText(open: nat, close: nat)
    requires open < 100 && close < 100
    ensures ParseSchedule(WindowText(open, close)) == Window(Some(open), Some(close))
  {
    SplitWindowText(open, close);
    HourPrefixOfClock(open);
    HourPrefixOfClock(close);
  }

  lemma {:induction false} NoMatchMeansNoContains(x: string, sep: string)
    requires sep != [] && Text.NoMatchStartsIn(x, [], sep)
    ensures !Text.Contains(x, sep)
  {
    assert x + [] == x;
    if x != [] {
      NoMatchMeansNoContains(x[1..], sep);
    }
  }

  /** "non-stop" opens every hour; a window whose close is not after its open opens none. */
  lemma ScheduleExtremes(hour: int, open: int, close: int)
    ensures IsWithinSchedule(hour, ParseSchedule(NonStopText))
    ensures close <= open ==> !IsWithinSchedule(hour, Window(Some(open), Some(close)))
  {
  }

  // ---------------------------------------------------------------- reservation rows

  /**
   * A reservation row. As the backend sends it, `date`, `start` and `end` are
   * instants in minutes since the epoch (UTC); once localised they are the day
   * number and the minutes into that day at the fixed offset UTC+3.
   */
  datatype Row = Row(id: int, user: string, field: int, date: int, start: int, end: int)

  const MinutesPerDay: int := 1440
  const DisplayShift: int := 180

  /** `addHours(new Date(x), 3)` followed by taking the date or the "HH:MM:SS" time. */
  function Localise(r: Row): (l: Row)
    ensures l.id == r.id && l.user == r.user && l.field == r.field
    ensures 0 <= l.start < MinutesPerDay && 0 <= l.end < MinutesPerDay
    ensures l.date * MinutesPerDay + l.start == r.date + DisplayShift - (r.date + DisplayShift) % MinutesPerDay + (r.start + DisplayShift) % MinutesPerDay
    ensures (r.end + DisplayShift - l.end) % MinutesPerDay == 0
  {
    r.(date := (r.date + DisplayShift) / MinutesPerDay,
       start := (r.start + DisplayShift) % MinutesPerDay,
       end := (r.end + DisplayShift) % MinutesPerDay)
  }

  /** The `forEach` that overwrites each reservation's date and times in place. */
  method LocaliseInPlace(rows: array<Row>)
    modifies rows
    ensures forall i :: 0 <= i < rows.Length ==> rows[i] == Localise(old(rows[i]))
  {
    var i := 0;
    while i < rows.Length
      invariant 0 <= i <= rows.Length
      invariant forall j :: 0 <= j < i ==> rows[j] == Localise(old(rows[j]))
      invariant forall j :: i <= j < rows.Length ==> rows[j] == old(rows[j])
    {
      rows[i] := Localise(rows[i]);
      i := i + 1;
    }
  }

  /** The JSON body of `/get-field-reservations`: `success` and, when present, `reservations`. */
  datatype ReservationsReply = ReservationsReply(success: bool, reservations: Option<seq<Row>>)

  /**
   * `fetchFieldReservations`: the rows of a successful reply, localised in
   * place; an empty list for a failed fetch, a reply without rows (the
   * `forEach` throws, or is guarded) or an unsuccessful reply.
   */
  method FetchFieldReservations(reply: Option<ReservationsReply>) returns (rows: seq<Row>)
    ensures reply.None? || !reply.value.success || reply.value.reservations.None? ==> rows == []
    ensures reply.Some? && reply.value.success && reply.value.reservations.Some? ==>
      var raw := reply.value.reservations.value;
      |rows| == |raw| && forall i :: 0 <= i < |raw| ==> rows[i] == Localise(raw[i])
  {
    if reply.None? || reply.value.reservations.None? {
      return [];
    }
    var raw := reply.value.reservations.value;
    var a := new Row[|raw|](i requires 0 <= i < |raw| => raw[i]);
    LocaliseInPlace(a);
    rows := if reply.value.success then a[..] else [];
  }

  /** The hour prefix of a localised "HH:MM:SS" time. */
  function StartHour(r: Row): int { r.start / 60 }
  function EndHour(r: Row): int { r.end / 60 }

  /** `isReserved`'s test for one row: `h >= start && h + 1 <= end`. */
  predicate Covers(r: Row, hour: int)
  {
    hour >= StartHour(r) && hour + 1 <= EndHour(r)
  }

  /** `isReserved(hour, rows)`: `rows.some(...)`. */
  predicate IsReserved(hour: int, rows: seq<Row>)
  {
    rows != [] && (Covers(rows[0], hour) || IsReserved(hour, rows[1..]))
  }

  /** `isReserved` agrees with the inline test `start <= h < end` used by the map popup. */
  lemma {:induction false} IsReservedIff(hour: int, rows: seq<Row>)
    ensures IsReserved(hour, rows) <==> exists r :: r in rows && StartHour(r) <= hour < EndHour(r)
  {
    if rows != [] {
      IsReservedIff(hour, rows[1..]);
      assert forall r :: r in rows <==> r == rows[0] || r in rows[1..];
    }
  }

  /** How often the filter keeps row `x`: as often as in the list when it is of that day, otherwise never. */
  function OnDateCount(rows: seq<Row>, date: int, x: Row): nat
  {
    if x.date == date then multiset(rows)[x] else 0
  }

  /** `reservations.filter(r => r.data_rezervare === date)` */
  function OnDate(rows: seq<Row>, date: int): (r: seq<Row>)
    ensures forall x :: x in r <==> x in rows && x.date == date
    ensures forall x :: multiset(r)[x] == OnDateCount(rows, date, x)
  {
    if rows == [] then []
    else
      assert rows == [rows[0]] + rows[1..];
      if rows[0].date == date then [rows[0]] + OnDate(rows[1..], date)
      else OnDate(rows[1..], date)
  }

  /** The filter works piecewise, so the kept rows stay in their list order. */
  lemma {:induction false} OnDateAppend(a: seq<Row>, b: seq<Row>, date: int)
    ensures OnDate(a + b, date) == OnDate(a, date) + OnDate(b, date)
  {
    if a == [] {
      assert a + b == b;
    } else {
      assert (a + b)[1..] == a[1..] + b;
      OnDateAppend(a[1..], b, date);
    }
  }

  /**
   * The colour of hour `hour` on day `date`: gray outside the schedule whatever
   * the reservations, red when a reservation of that day covers it, else green.
   */
  function CellStatus(schedule: Schedule, rows: seq<Row>, date: int, hour: int): (s: Status)
    ensures s != Yellow
    ensures s == Gray <==> !IsWithinSchedule(hour, schedule)
    ensures s == Red <==> (IsWithinSchedule(hour, schedule) &&
      exists r :: r in rows && r.date == date && StartHour(r) <= hour < EndHour(r))
  {
    IsReservedIff(hour, OnDate(rows, date));
    if !IsWithinSchedule(hour, schedule) then Gray
    else if IsReserved(hour, OnDate(rows, date)) then Red
    else Green
  }

  /** A localised reservation that ends at midnight (end "00:00:00") never colours a cell red. */
  lemma EndingAtMidnightShowsNothing(r: Row, schedule: Schedule, date: int, hour: int)
    requires Localise(r).end < 60 && 0 <= hour
    ensures CellStatus(schedule, [Localise(r)], date, hour) != Red
  {
  }
}

=== FILE: booking_gate.dfy ===
/**
 * The backend's `/make-reservation` gate: a booking for an earlier day, or
 * for an hour of today that is not later than the current "HH:MM", is
 * refused; anything else is inserted as one row, with no check against the
 * reservations already stored.
 */
module BookingGate {
  import opened Wrappers
  import Text

  /** A clock reading of the server, or the start hour parsed from the request. */
  datatype Clock = Clock(hour: nat, minute: nat)

  /** The server's current day (days since the epoch) and time. */
  datatype Now = Now(day: int, time: Clock)

  /**
   * The request body: the field, the day of `data_rezervare`, the user, and
   * the start and end instants the request's local "HH:00" times convert to.
   */
  datatype Request = Request(field: int, day: int, user: string, startUtc: int, endUtc: int)

  /** A row of the `rezervari` table. */
  datatype Stored = Stored(id: int, user: string, field: int, day: int, startUtc: int, endUtc: int)

  datatype Reply = Reply(success: bool, message: string)

  const PastDayText: string := "Nu poti face rezervari pentru zilele din trecut!"
  const PastHourText: string := "Nu poti face rezervari inainte de ora de astazi!"
  const InsertErrorText: string := "Error making reservation."
  const InsertedText: string := "Reservation made successfully!"

  /** The "HH:MM" text built with `padStart(2, "0")`. */
  function ClockText(c: Clock): string
  {
    Text.ClockText(c.hour, c.minute)
  }

  /** The day test: the reservation's day lies before today's midnight. */
  predicate PastDay(req: Request, now: Now)
  {
    req.day < now.day
  }

  /** The hour test on the text `newOra_inceput`: same day, and that text is not after the current "HH:MM" as strings. */
  predicate PastHourOnText(req: Request, startText: string, now: Now)
  {
    req.day == now.day && Text.LexLessEq(startText, ClockText(now.time))
  }

  /** The hour test for a start that parses: its "HH:MM" is not after the current "HH:MM" as strings. */
  predicate PastHour(req: Request, start: Clock, now: Now)
  {
    PastHourOnText(req, ClockText(start), now)
  }

  /**
   * `newOra_inceput`: the hours and minutes of `new Date(ora_inceput)`, each
   * padded to two characters. An invalid date gives `NaN` for both, which the
   * padding leaves as it is.
   */
  function StartText(start: Option<Clock>): string
  {
    match start
    case Some(c) => ClockText(c)
    case None => "NaN:NaN"
  }

  /** The handler on the start text it compares: the day test, the hour test, then the insert. */
  function Respond(table: seq<Stored>, req: Request, startText: string, now: Now, id: int, insertOk: bool): (Reply, seq<Stored>)
  {
    if PastDay(req, now) then (Reply(false, PastDayText), table)
    else if PastHourOnText(req, startText, now) then (Reply(false, PastHourText), table)
    else if !insertOk then (Reply(false, InsertErrorText), table)
    else (Reply(true, InsertedText), table + [Stored(id, req.user, req.field, req.day, req.startUtc, req.endUtc)])
  }

  /**
   * The handler: the reply and the table afterwards. `start` is the request's
   * start time as the handler parses it, `id` the random id it draws, and
   * `insertOk` whether the database accepts the insert.
   */
  function MakeReservation(table: seq<Stored>, req: Request, start: Clock, now: Now, id: int, insertOk: bool): (r: (Reply, seq<Stored>))
    ensures PastDay(req, now) ==> r == (Reply(false, PastDayText), table)
    ensures !PastDay(req, now) && PastHour(req, start, now) ==> r == (Reply(false, PastHourText), table)
    ensures !PastDay(req, now) && !PastHour(req, start, now) && !insertOk ==> r == (Reply(false, InsertErrorText), table)
    ensures r.0.success <==> !PastDay(req, now) && !PastHour(req, start, now) && insertOk
    ensures r.0.success ==> r.1 == table + [Stored(id, req.user, req.field, req.day, req.startUtc, req.endUtc)]
  {
    Respond(table, req, ClockText(start), now, id, insertOk)
  }

  predicate ValidClock(c: Clock)
  {
    c.hour < 24 && c.minute < 60
  }

  /** "NaN:NaN" sorts after every clock text, whose first character is a digit. */
  lemma UnparsedNeverPast(req: Request, now: Now)
    requires ValidClock(now.time)
    ensures !PastHourOnText(req, StartText(None), now)
  {
    var t := ClockText(now.time);
    assert t[0] == Text.DigitChar(now.time.hour / 10);
    assert Text.LexLess(t, StartText(None));
  }

  /**
   * The handler as written, with the start as `new Date(ora_inceput)` parses
   * it: `None` for an invalid date. The request's `ora_inceput` is an "HH:00"
   * text, which Node's `Date` does not parse, so on Node the start is always
   * `None`: then the hour test never refuses, and only the day test and the
   * insert decide.
   */
  function MakeReservationAsWritten(table: seq<Stored>, req: Request, start: Option<Clock>, now: Now, id: int, insertOk: bool): (r: (Reply, seq<Stored>))
    requires ValidClock(now.time)
    ensures start.Some? ==> r == MakeReservation(table, req, start.value, now, id, insertOk)
    ensures start.None? ==> (r.0.success <==> !PastDay(req, now) && insertOk)
    ensures start.None? && r.0.success ==> r.1 == table + [Stored(id, req.user, req.field, req.day, req.startUtc, req.endUtc)]
    ensures !r.0.success ==> r.1 == table
  {
    if start.None? then UnparsedNeverPast(req, now); Respond(table, req, StartText(start), now, id, insertOk)
    else Respond(table, req, StartText(start), now, id, insertOk)
  }

  /**
   * The dead hour test: a same-day booking for a start not later than now,
   * which the intended gate refuses, is stored by the handler as written.
   */
  lemma PastHourStoredAsWritten(table: seq<Stored>, req: Request, start: Clock, now: Now, id: int)
    requires ValidClock(start) && ValidClock(now.time)
    requires req.day == now.day
    requires start.hour < now.time.hour || (start.hour == now.time.hour && start.minute <= now.time.minute)
    ensures MakeReservation(table, req, start, now, id, true) == (Reply(false, PastHourText), table)
    ensures MakeReservationAsWritten(table, req, None, now, id, true)
      == (Reply(true, InsertedText), table + [Stored(id, req.user, req.field, req.day, req.startUtc, req.endUtc)])
  {
    SameDayOrder(req, start, now);
    UnparsedNeverPast(req, now);
  }

  /** On the same day, the string test refuses exactly the starts not later than now in (hour, minute) order. */
  lemma SameDayOrder(req: Request, start: Clock, now: Now)
    requires ValidClock(start) && ValidClock(now.time)
    requires req.day == now.day
    ensures PastHour(req, start, now) <==>
      (start.hour < now.time.hour || (start.hour == now.time.hour && start.minute <= now.time.minute))
  {
    Text.ClockTextOrder(start.hour, start.minute, now.time.hour, now.time.minute);
  }

  /** A booking for a later day passes both tests whatever the hours. */
  lemma LaterDayPasses(req: Request, start: Clock, now: Now)
    requires req.day > now.day
    ensures !PastDay(req, now) && !PastHour(req, start, now)
  {
  }

  /** A request that is refused leaves the table as it was; one that succeeds adds exactly one row. */
  lemma AtMostOneInsert(table: seq<Stored>, req: Request, start: Clock, now: Now, id: int, insertOk: bool)
    ensures var r := MakeReservation(table, req, start, now, id, insertOk);
      |r.1| == |table| + (if r.0.success then 1 else 0) && table <= r.1
  {
  }

  /** Two reservations overlap when they share field and day and their hours intersect. */
  predicate Overlaps(a: Stored, b: Stored)
  {
    a.field == b.field && a.day == b.day && a.startUtc < b.endUtc && b.startUtc < a.endUtc
  }

  /**
   * Nothing stops a double booking: a request that passes the time tests is
   * stored next to an overlapping reservation already in the table.
   */
  lemma NoOverlapCheck(table: seq<Stored>, req: Request, start: Clock, now: Now, id: int, existing: Stored)
    requires existing in table
    requires Overlaps(existing, Stored(id, req.user, req.field, req.day, req.startUtc, req.endUtc))
    requires !PastDay(req, now) && !PastHour(req, start, now)
    ensures var r := MakeReservation(table, req, start, now, id, true);
      r.0.success && existing in r.1 && Stored(id, req.user, req.field, req.day, req.startUtc, req.endUtc) in r.1
  {
  }
}

=== FILE: field_search.dfy ===
/**
 * The backend's `/search-fields`: the query keeps confirmed fields and adds a
 * sport and a sector condition only for non-empty inputs, with the parameters
 * bound in that order; each field found carries all of its reservations,
 * ordered by date and start (`getFutureReservations` applies no date filter).
 */
module FieldSearch {
  import opened Wrappers
  import opened Availability

  /** A row of `terenuri_sportive` as far as the query reads it. */
  datatype FieldRow = FieldRow(id: int, sport: string, sector: string, status: string, schedule: string)

  const ConfirmedStatus: string := "confirmat"

  /** A condition of the WHERE clause; the last two hold a `?` placeholder. */
  datatype Clause = StatusIsConfirmed | SportIs | SectorIs

  /** JavaScript truthiness of an optional request string. */
  predicate Truthy(x: Option<string>)
  {
    x.Some? && x.value != ""
  }

  /** The reference rule: which fields the search should return. */
  predicate Matches(f: FieldRow, sport: Option<string>, sector: Option<string>)
  {
    f.status == ConfirmedStatus
    && (Truthy(sport) ==> f.sport == sport.value)
    && (Truthy(sector) ==> f.sector == sector.value)
  }

  /** How many parameters the clauses bind. */
  function Placeholders(clauses: seq<Clause>): nat
  {
    if clauses == [] then 0
    else (if clauses[0] == StatusIsConfirmed then 0 else 1) + Placeholders(clauses[1..])
  }

  /** What the database does with the query: each `?` takes the next parameter, and all conditions must hold. */
  predicate Selects(clauses: seq<Clause>, params: seq<string>, f: FieldRow)
    requires Placeholders(clauses) == |params|
  {
    if clauses == [] then true
    else match clauses[0]
      case StatusIsConfirmed => f.status == ConfirmedStatus && Selects(clauses[1..], params, f)
      case SportIs => f.sport == params[0] && Selects(clauses[1..], params[1..], f)
      case SectorIs => f.sector == params[0] && Selects(clauses[1..], params[1..], f)
  }

  /** The query builder: the base condition, then `AND denumire_sport = ?` and `AND sector = ?` as the inputs are set. */
  method BuildSearchQuery(sport: Option<string>, sector: Option<string>) returns (clauses: seq<Clause>, params: seq<string>)
    ensures Placeholders(clauses) == |params|
    ensures params == Bound(sport) + Bound(sector)
    ensures |clauses| == 1 + |params| && clauses[0] == StatusIsConfirmed
    ensures forall f :: Selects(clauses, params, f) <==> Matches(f, sport, sector)
  {
    clauses := [StatusIsConfirmed];
    params := [];
    if Truthy(sport) {
      clauses := clauses + [SportIs];
      params := params + [sport.value];
    }
    if Truthy(sector) {
      clauses := clauses + [SectorIs];
      params := params + [sector.value];
    }
    SelectsAgree(clauses, params, sport, sector);
  }

  /** The clause and the parameter an optional input adds. */
  function Optional(c: Clause, x: Option<string>): seq<Clause>
  {
    if Truthy(x) then [c] else []
  }

  function Bound(x: Option<string>): seq<string>
  {
    if Truthy(x) then [x.value] else []
  }

  lemma SelectsAgree(clauses: seq<Clause>, params: seq<string>, sport: Option<string>, sector: Option<string>)
    requires clauses == [StatusIsConfirmed] + Optional(SportIs, sport) + Optional(SectorIs, sector)
    requires params == Bound(sport) + Bound(sector)
    ensures Placeholders(clauses) == |params|
    ensures forall f :: Selects(clauses, params, f) <==> Matches(f, sport, sector)
  {
    var middle := Optional(SportIs, sport) + Optional(SectorIs, sector);
    SportPart(sport, sector);
    assert clauses == [StatusIsConfirmed] + middle && clauses[1..] == middle;
  }

  lemma SportPart(sport: Option<string>, sector: Option<string>)
    ensures Placeholders(Optional(SportIs, sport) + Optional(SectorIs, sector)) == |Bound(sport) + Bound(sector)|
    ensures forall f :: Selects(Optional(SportIs, sport) + Optional(SectorIs, sector), Bound(sport) + Bound(sector), f) <==>
      (Truthy(sport) ==> f.sport == sport.value) && (Truthy(sector) ==> f.sector == sector.value)
  {
    var tail, tailParams := Optional(SectorIs, sector), Bound(sector);
    SectorPart(sector);
    if Truthy(sport) {
      var middle, middleParams := [SportIs] + tail, [sport.value] + tailParams;
      assert middle[1..] == tail && middleParams[1..] == tailParams;
    } else {
      assert Optional(SportIs, sport) + tail == tail && Bound(sport) + tailParams == tailParams;
    }
  }

  lemma SectorPart(sector: Option<string>)
    ensures Placeholders(Optional(SectorIs, sector)) == |Bound(sector)|
    ensures forall f :: Selects(Optional(SectorIs, sector), Bound(sector), f) <==> (Truthy(sector) ==> f.sector == sector.value)
  {
    if Truthy(sector) {
      assert Optional(SectorIs, sector)[1..] == [] && Bound(sector)[1..] == [];
    }
  }

  /** The rows of `terenuri_sportive` the query selects, in table order. */
  function RunQuery(table: seq<FieldRow>, clauses: seq<Clause>, params: seq<string>): (r: seq<FieldRow>)
    requires Placeholders(clauses) == |params|
    ensures forall f :: f in r <==> f in table && Selects(clauses, params, f)
  {
    if table == [] then []
    else
      assert forall f :: f in table <==> f == table[0] || f in table[1..];
      if Selects(clauses, params, table[0]) then [table[0]] + RunQuery(table[1..], clauses, params)
      else RunQuery(table[1..], clauses, params)
  }

  // ---------------------------------------------------------------- getFutureReservations

  /** `ORDER BY data_rezervare, ora_inceput` */
  predicate NotAfter(a: Row, b: Row)
  {
    a.date < b.date || (a.date == b.date && a.start <= b.start)
  }

  predicate Ordered(rows: seq<Row>)
  {
    forall i, j :: 0 <= i < j < |rows| ==> NotAfter(rows[i], rows[j])
  }

  /** How often the filter keeps row `x`: as often as stored when it is of the field, otherwise never. */
  function OfFieldCount(table: seq<Row>, field: int, x: Row): nat
  {
    if x.field == field then multiset(table)[x] else 0
  }

  /** `WHERE id_teren = ?` */
  function OfField(table: seq<Row>, field: int): (r: seq<Row>)
    ensures forall x :: x in r <==> x in table && x.field == field
    ensures multiset(r) <= multiset(table)
    ensures forall x :: multiset(r)[x] == OfFieldCount(table, field, x)
  {
    if table == [] then []
    else
      assert table == [table[0]] + table[1..];
      if table[0].field == field then [table[0]] + OfField(table[1..], field)
      else OfField(table[1..], field)
  }

  /** One row placed into an ordered list. */
  function Insert(x: Row, rows: seq<Row>): (r: seq<Row>)
    requires Ordered(rows)
    ensures Ordered(r)
    ensures forall y :: y in r <==> y == x || y in rows
    ensures multiset(r) == multiset(rows) + multiset{x}
  {
    if rows == [] then [x]
    else if NotAfter(x, rows[0]) then
      InsertFront(x, rows);
      [x] + rows
    else
      var tail := Insert(x, rows[1..]);
      assert rows == [rows[0]] + rows[1..];
      InsertBehind(rows[0], x, rows[1..], tail);
      [rows[0]] + tail
  }

  lemma InsertFront(x: Row, rows: seq<Row>)
    requires Ordered(rows) && rows != [] && NotAfter(x, rows[0])
    ensures Ordered([x] + rows)
  {
    var r := [x] + rows;
    forall i, j | 0 <= i < j < |r|
      ensures NotAfter(r[i], r[j])
    {
      if i == 0 {
        assert NotAfter(rows[0], rows[j - 1]) || j == 1;
      } else {
        assert r[i] == rows[i - 1] && r[j] == rows[j - 1];
      }
    }
  }

  lemma InsertBehind(head: Row, x: Row, rest: seq<Row>, tail: seq<Row>)
    requires Ordered([head] + rest) && !NotAfter(x, head)
    requires Ordered(tail) && forall y :: y in tail ==> y == x || y in rest
    ensures Ordered([head] + tail)
  {
    var r := [head] + tail;
    forall i, j | 0 <= i < j < |r|
      ensures NotAfter(r[i], r[j])
    {
      if i == 0 {
        assert r[0] == head && r[j] == tail[j - 1] && tail[j - 1] in tail;
        if tail[j - 1] != x {
          var k :| 0 <= k < |rest| && rest[k] == tail[j - 1];
          assert ([head] + rest)[0] == head && ([head] + rest)[k + 1] == rest[k];
        }
      } else {
        assert r[i] == tail[i - 1] && r[j] == tail[j - 1];
      }
    }
  }

  /** The ordering the database applies, as an insertion sort; ties keep no particular order. */
  function Sort(rows: seq<Row>): (r: seq<Row>)
    ensures Ordered(r)
    ensures multiset(r) == multiset(rows)
  {
    if rows == [] then []
    else
      assert rows == [rows[0]] + rows[1..];
      Insert(rows[0], Sort(rows[1..]))
  }

  /** `getFutureReservations(id_teren)` */
  function FieldReservations(table: seq<Row>, field: int): seq<Row>
  {
    Sort(OfField(table, field))
  }

  /**
   * Every reservation of the field is returned, past ones included, once per
   * stored row, and nothing of another field; the result is ordered by date
   * and start.
   */
  lemma FieldReservationsSpec(table: seq<Row>, field: int)
    ensures Ordered(FieldReservations(table, field))
    ensures multiset(FieldReservations(table, field)) == multiset(OfField(table, field))
    ensures forall x :: x in FieldReservations(table, field) <==> x in table && x.field == field
    ensures forall x :: multiset(FieldReservations(table, field))[x] == OfFieldCount(table, field, x)
  {
    var r := FieldReservations(table, field);
    assert forall x :: x in r <==> x in multiset(r);
  }

  /** A field of the answer, with its reservations. */
  datatype FoundField = FoundField(field: FieldRow, reservations: seq<Row>)

  /** `fields.map(field => ({ ...field, reservations: getFutureReservations(field.id_teren) }))` */
  function Attach(fields: seq<FieldRow>, reservations: seq<Row>): (r: seq<FoundField>)
    ensures |r| == |fields|
    ensures forall i :: 0 <= i < |fields| ==> r[i] == FoundField(fields[i], FieldReservations(reservations, fields[i].id))
  {
    seq(|fields|, i requires 0 <= i < |fields| => FoundField(fields[i], FieldReservations(reservations, fields[i].id)))
  }

  /**
   * The handler on a working database: the fields the query selects, each
   * with all its reservations. (A database error gives `success: false`.)
   */
  method SearchFields(fields: seq<FieldRow>, reservations: seq<Row>, sport: Option<string>, sector: Option<string>)
    returns (found: seq<FoundField>)
    ensures forall i :: 0 <= i < |found| ==> Matches(found[i].field, sport, sector) && found[i].field in fields
    ensures forall f :: f in fields && Matches(f, sport, sector) ==> exists i :: 0 <= i < |found| && found[i].field == f
    ensures forall i :: 0 <= i < |found| ==> found[i].reservations == FieldReservations(reservations, found[i].field.id)
  {
    var clauses, params := BuildSearchQuery(sport, sector);
    var selected := RunQuery(fields, clauses, params);
    found := Attach(selected, reservations);
    forall f | f in fields && Matches(f, sport, sector)
      ensures exists i :: 0 <= i < |found| && found[i].field == f
    {
      var i :| 0 <= i < |selected| && selected[i] == f;
      assert found[i].field == f;
    }
  }
}

=== FILE: fields_map.dfy ===
/**
 * The availability popup of the map page: the 24-hour grid that
 * `displayAvailability` builds for one field and one day, and the drag
 * selection that `addDragSelectionListeners` runs over that grid's cells.
 *
 * The drag selection is specified by pure transitions on `Drag` (one per DOM
 * event) and implemented by the class `DragSelection`, whose methods change
 * the cell colours, the selection and the dragging flag in place.
 */
module FieldsMap {
  import opened Wrappers
  import Text
  import opened Availability

  // ---------------------------------------------------------------- the grid

  /**
   * The opening and closing hours of `displayAvailability`: 0 and 24 for
   * "non-stop", otherwise the hour prefixes of the two " - " halves (None for
   * NaN). A schedule with no " - " makes `closeStr` undefined and the popup
   * throws: that is the outer None.
   */
  function MapBounds(schedule: string): Option<(Option<int>, Option<int>)>
  {
    if schedule == NonStopText then Some((Some(0), Some(HoursPerDay)))
    else
      var parts := Text.Split(schedule, RangeSeparator);
      if |parts| < 2 then None else Some((HourPrefix(parts[0]), HourPrefix(parts[1])))
  }

  /** `hour >= openHour && hour < closeHour`, false when either is NaN. */
  predicate InBounds(hour: int, open: Option<int>, close: Option<int>)
  {
    open.Some? && close.Some? && open.value <= hour < close.value
  }

  /** The popup's own bounds test agrees with `isWithinSchedule` on every hour of the day. */
  lemma MapBoundsAgree(schedule: string, hour: int)
    requires 0 <= hour < HoursPerDay && MapBounds(schedule).Some?
    ensures InBounds(hour, MapBounds(schedule).value.0, MapBounds(schedule).value.1)
      == IsWithinSchedule(hour, ParseSchedule(schedule))
  {
  }

  /** "non-stop" gives 0 and 24; a well-formed window gives its two hours. */
  lemma MapBoundsOfWindow(open: nat, close: nat)
    requires open < 100 && close < 100
    ensures MapBounds(NonStopText) == Some((Some(0), Some(24)))
    ensures MapBounds(WindowText(open, close)) == Some((Some(open), Some(close)))
  {
    SplitWindowText(open, close);
    HourPrefixOfClock(open);
    HourPrefixOfClock(close);
  }

  /** The inner loop of the popup: red when a reservation of the day covers the hour, else green. */
  method ScanHour(rows: array<Row>, selectedDate: int, hour: int) returns (color: Status)
    ensures color == Green || color == Red
    ensures color == Red <==>
      exists r :: r in rows[..] && r.date == selectedDate && StartHour(r) <= hour < EndHour(r)
  {
    color := Green;
    var k := 0;
    while k < rows.Length
      invariant 0 <= k <= rows.Length
      invariant color == Green || color == Red
      invariant color == Red <==>
        exists r :: r in rows[..k] && r.date == selectedDate && StartHour(r) <= hour < EndHour(r)
    {
      assert rows[..k + 1] == rows[..k] + [rows[k]];
      if rows[k].date == selectedDate {
        var startRes, endRes := StartHour(rows[k]), EndHour(rows[k]);
        if hour >= startRes && hour < endRes {
          color := Red;
        }
      }
      k := k + 1;
    }
    assert rows[..k] == rows[..];
  }

  /**
   * `displayAvailability`: re-localise the reservation rows in place, then
   * colour the 24 hours. `ok` is false when the schedule text makes the popup
   * throw before anything is changed.
   */
  method DisplayAvailability(rows: array<Row>, selectedDate: int, schedule: string)
    returns (grid: seq<Status>, ok: bool)
    modifies rows
    ensures ok <==> MapBounds(schedule).Some?
    ensures !ok ==> grid == [] && rows[..] == old(rows[..])
    ensures ok ==> forall i :: 0 <= i < rows.Length ==> rows[i] == Localise(old(rows[i]))
    ensures ok ==> |grid| == HoursPerDay
    ensures ok ==> forall h :: 0 <= h < HoursPerDay ==>
      grid[h] == CellStatus(ParseSchedule(schedule), rows[..], selectedDate, h)
  {
    var bounds := MapBounds(schedule);
    if bounds.None? {
      return [], false;
    }
    LocaliseInPlace(rows);
    grid := PaintHours(rows, selectedDate, schedule, bounds.value.0, bounds.value.1);
    ok := true;
  }

  /** The popup's loop over the 24 hours, each coloured from the localised rows. */
  method PaintHours(rows: array<Row>, selectedDate: int, schedule: string, open: Option<int>, close: Option<int>)
    returns (grid: seq<Status>)
    requires MapBounds(schedule) == Some((open, close))
    ensures |grid| == HoursPerDay
    ensures forall h :: 0 <= h < HoursPerDay ==>
      grid[h] == CellStatus(ParseSchedule(schedule), rows[..], selectedDate, h)
  {
    ghost var local, parsed := rows[..], ParseSchedule(schedule);
    grid := [];
    var hour := 0;
    while hour < HoursPerDay
      invariant 0 <= hour <= HoursPerDay && |grid| == hour
      invariant forall h :: 0 <= h < hour ==> grid[h] == CellStatus(parsed, local, selectedDate, h)
    {
      var color := HourColour(rows, selectedDate, schedule, open, close, hour);
      PaintedAppend(grid, color, parsed, local, selectedDate);
      grid := grid + [color];
      hour := hour + 1;
    }
  }

  /** Appending the next hour's colour extends a correctly painted prefix by one hour. */
  lemma PaintedAppend(grid: seq<Status>, color: Status, schedule: Schedule, rows: seq<Row>, date: int)
    requires forall h :: 0 <= h < |grid| ==> grid[h] == CellStatus(schedule, rows, date, h)
    requires color == CellStatus(schedule, rows, date, |grid|)
    ensures forall h :: 0 <= h <= |grid| ==> (grid + [color])[h] == CellStatus(schedule, rows, date, h)
  {
  }

  /** One cell of the popup: gray outside the bounds, otherwise the colour the row scan finds. */
  method HourColour(rows: array<Row>, selectedDate: int, schedule: string, open: Option<int>, close: Option<int>, hour: int)
    returns (color: Status)
    requires 0 <= hour < HoursPerDay && MapBounds(schedule) == Some((open, close))
    ensures color == CellStatus(ParseSchedule(schedule), rows[..], selectedDate, hour)
  {
    color := Gray;
    if InBounds(hour, open, close) {
      color := ScanHour(rows, selectedDate, hour);
    }
    MapBoundsAgree(schedule, hour);
  }

  // ---------------------------------------------------------------- the drag selection

  /** A grid cell as the listeners see it: `data-field-id` and `data-hour`. */
  datatype Cell = Cell(field: int, hour: nat)

  /**
   * The listeners' closure state: the colours of the 24 cells, `isDragging`,
   * `startCell`, and the hours of `selectedCells` in the order they were added.
   */
  datatype Drag = Drag(cells: seq<Status>, dragging: bool, start: Option<Cell>, selected: seq<nat>)

  /** What a release asked `/make-reservation` for: hours [startHour, endHour) and the checkout total. */
  datatype Request = Request(field: int, startHour: nat, endHour: nat, total: real)

  /**
   * The answer of a limit lookup: the number of reservations found, a reply
   * without a `result` list, or a failed fetch.
   */
  datatype Lookup = Count(n: nat) | Missing | LookupError
  datatype Booking = Booked | Rejected | BookingError
  datatype Payment = Redirected | NoCheckoutUrl | PaymentError

  /** Everything the release handler learns from the user and the backend. */
  datatype Outcome = Outcome(dayCount: Lookup, fieldCount: Lookup, confirmed: bool,
                             booking: Booking, payment: Payment)

  const MaxSelection: nat := 3
  const DayLimit: nat := 3
  const FieldLimit: nat := 1

  /** `selectedCells.forEach(c => c.style.backgroundColor = color)` */
  function Paint(cells: seq<Status>, selected: seq<nat>, color: Status): (r: seq<Status>)
    ensures |r| == |cells|
    ensures forall i :: 0 <= i < |cells| ==> r[i] == if i in selected then color else cells[i]
  {
    seq(|cells|, i requires 0 <= i < |cells| => if i in selected then color else cells[i])
  }

  /** A second coat over the same selection hides the first. */
  lemma PaintTwice(cells: seq<Status>, selected: seq<nat>, first: Status, second: Status)
    ensures Paint(Paint(cells, selected, first), selected, second) == Paint(cells, selected, second)
  {
  }

  /** The start of a fresh popup: the grid's colours and no drag. */
  function Initial(grid: seq<Status>): Drag
  {
    Drag(grid, false, None, [])
  }

  /** Stop the drag and give every selected cell back its green. */
  function Abort(s: Drag): (r: Drag)
    ensures !r.dragging && r.selected == [] && r.start == s.start
    ensures r.cells == Paint(s.cells, s.selected, Green)
  {
    Drag(Paint(s.cells, s.selected, Green), false, s.start, [])
  }

  /**
   * mousedown as written: on a green cell, start dragging from it and push it
   * onto `selectedCells`, which is not emptied first.
   */
  function PressAsWritten(s: Drag, c: Cell): (r: Drag)
    requires c.hour < |s.cells|
    ensures s.cells[c.hour] != Green ==> r == s
    ensures s.cells[c.hour] == Green ==>
      r.dragging && r.start == Some(c) && r.selected == s.selected + [c.hour] && r.cells == s.cells[c.hour := Yellow]
  {
    if s.cells[c.hour] != Green then s
    else Drag(s.cells[c.hour := Yellow], true, Some(c), s.selected + [c.hour])
  }

  /** With nothing left selected, the mousedown as written and the corrected one agree. */
  lemma PressAsWrittenFresh(s: Drag, c: Cell)
    requires c.hour < |s.cells| && s.selected == []
    ensures PressAsWritten(s, c) == Press(s, c)
  {
    assert Paint(s.cells, s.selected, Green) == s.cells;
  }

  /**
   * With a full selection left over, the mousedown as written pushes a fourth
   * cell: the three-cell bound of the drag invariant no longer holds.
   */
  lemma PressAsWrittenOverflows(s: Drag, c: Cell)
    requires Inv(s) && |s.selected| == MaxSelection
    requires c.hour < |s.cells| && s.cells[c.hour] == Green
    ensures |PressAsWritten(s, c).selected| == MaxSelection + 1
    ensures !Inv(PressAsWritten(s, c))
  {
  }

  /**
   * mousedown, corrected: a selection left over from an earlier drag is
   * given back its green first, so the new selection is the pressed cell alone.
   */
  function Press(s: Drag, c: Cell): (r: Drag)
    requires c.hour < |s.cells|
    ensures |r.cells| == |s.cells|
    ensures s.cells[c.hour] != Green ==> r == s
    ensures s.cells[c.hour] == Green ==>
      r.dragging && r.start == Some(c) && r.selected == [c.hour] && r.cells[c.hour] == Yellow
  {
    if s.cells[c.hour] != Green then s
    else
      assert c.hour !in s.selected ==> Paint(s.cells, s.selected, Green)[c.hour] == Green;
      Drag(Paint(s.cells, s.selected, Green)[c.hour := Yellow], true, Some(c), [c.hour])
  }

  /** mousemove over cell `c`. */
  function Move(s: Drag, c: Cell): Drag
    requires c.hour < |s.cells|
  {
    if !s.dragging || s.start.None? then s
    else if c.field != s.start.value.field then Abort(s)
    else if s.cells[c.hour] == Green && c.hour !in s.selected then
      if |s.selected| >= MaxSelection then Abort(s)
      else s.(cells := s.cells[c.hour := Yellow], selected := s.selected + [c.hour])
    else if s.cells[c.hour] == Red || s.cells[c.hour] == Gray then Abort(s)
    else s
  }

  /** `pricePerHour * selectedCells.length`, the checkout total. */
  function Total(pricePerHour: real, hours: nat): real
  {
    pricePerHour * hours as real
  }

  /**
   * mouseup: the limit lookups, the confirmation, the booking and the
   * checkout. The second component is the reservation request sent, if any.
   */
  function Release(s: Drag, pricePerHour: real, o: Outcome): (Drag, Option<Request>)
  {
    if !s.dragging then (s, None)
    else
      var s1 := s.(dragging := false);
      if s.selected == [] || s.start.None? then (s1, None)
      else match o.dayCount
        case LookupError => (s1, None)
        case Missing => (s1, None)
        case Count(n) =>
          if n >= DayLimit then (Abort(s1), None)
          else if o.fieldCount.Count? && o.fieldCount.n >= FieldLimit then (Abort(s1), None)
          else if !o.confirmed then (Drag(Paint(s.cells, s.selected, Green), false, None, []), None)
          else
            var total := Total(pricePerHour, |s.selected|);
            var req := Request(s.start.value.field, s.start.value.hour, s.selected[|s.selected| - 1] + 1, total);
            var color := if o.booking == Booked then Red else Green;
            (Drag(Paint(s.cells, s.selected, color), false, None, []), Some(req))
  }

  /**
   * The state the listeners keep consistent: 24 cells; the selection is at
   * most three distinct hours, begins at the start cell, and its cells are
   * exactly the yellow ones; a drag always has a selection.
   */
  predicate Inv(s: Drag)
  {
    && |s.cells| == HoursPerDay
    && |s.selected| <= MaxSelection
    && (forall i, j :: 0 <= i < j < |s.selected| ==> s.selected[i] != s.selected[j])
    && (forall i :: 0 <= i < |s.selected| ==> s.selected[i] < HoursPerDay)
    && (forall h :: 0 <= h < |s.cells| ==> (s.cells[h] == Yellow <==> h in s.selected))
    && (s.selected != [] ==> s.start.Some? && s.start.value.hour == s.selected[0])
    && (s.dragging ==> s.selected != [])
  }

  lemma InitialInv(grid: seq<Status>)
    requires |grid| == HoursPerDay && Yellow !in grid
    ensures Inv(Initial(grid))
  {
  }

  lemma AbortInv(s: Drag)
    requires Inv(s)
    ensures Inv(Abort(s))
  {
  }

  lemma PressInv(s: Drag, c: Cell)
    requires Inv(s) && c.hour < |s.cells|
    ensures Inv(Press(s, c))
  {
  }

  lemma MoveInv(s: Drag, c: Cell)
    requires Inv(s) && c.hour < |s.cells|
    ensures Inv(Move(s, c))
  {
    if s.dragging && s.start.Some? && c.field == s.start.value.field
      && s.cells[c.hour] == Green && c.hour !in s.selected && |s.selected| < MaxSelection
    {
      var r := Move(s, c);
      assert r.selected == s.selected + [c.hour];
      forall h | 0 <= h < |r.cells|
        ensures r.cells[h] == Yellow <==> h in r.selected
      {
        assert h in r.selected <==> h in s.selected || h == c.hour;
      }
    }
  }

  lemma ReleaseInv(s: Drag, pricePerHour: real, o: Outcome)
    requires Inv(s)
    ensures Inv(Release(s, pricePerHour, o).0)
  {
  }

  /** Press, move and release never turn a gray or red cell into another colour except red on booking. */
  lemma ClosedAndReservedStay(s: Drag, c: Cell, pricePerHour: real, o: Outcome, h: nat)
    requires Inv(s) && c.hour < |s.cells| && h < |s.cells|
    requires s.cells[h] == Gray || s.cells[h] == Red
    ensures Press(s, c).cells[h] == s.cells[h]
    ensures Move(s, c).cells[h] == s.cells[h]
    ensures Release(s, pricePerHour, o).0.cells[h] == s.cells[h]
  {
  }

  /** A drag starts only on a green cell, and then the selection is that cell alone. */
  lemma PressOnlyOnGreen(s: Drag, c: Cell)
    requires Inv(s) && c.hour < |s.cells|
    ensures Press(s, c).dragging <==> s.dragging || s.cells[c.hour] == Green
    ensures s.cells[c.hour] == Green ==> Press(s, c).selected == [c.hour]
  {
  }

  /**
   * Moving onto another field, onto a red or gray cell, or onto a fourth green
   * cell stops the drag and turns every selected cell green.
   */
  lemma MoveAborts(s: Drag, c: Cell)
    requires Inv(s) && c.hour < |s.cells| && s.dragging
    requires c.field != s.start.value.field
      || s.cells[c.hour] == Red || s.cells[c.hour] == Gray
      || (s.cells[c.hour] == Green && |s.selected| == MaxSelection)
    ensures var r := Move(s, c);
      !r.dragging && r.selected == []
      && forall h :: 0 <= h < |s.cells| ==> r.cells[h] == if h in s.selected then Green else s.cells[h]
  {
  }

  /** Moving back over a cell already selected changes nothing. */
  lemma MoveOverSelectedIgnored(s: Drag, c: Cell)
    requires Inv(s) && c.hour < |s.cells| && s.dragging
    requires c.field == s.start.value.field && c.hour in s.selected
    ensures Move(s, c) == s
  {
  }

  /** A release that hits a per-day or per-field limit sends nothing and reverts the selection to green. */
  lemma ReleaseLimits(s: Drag, pricePerHour: real, o: Outcome)
    requires Inv(s) && s.dragging
    requires (o.dayCount.Count? && o.dayCount.n >= DayLimit)
      || (o.dayCount.Count? && o.fieldCount.Count? && o.fieldCount.n >= FieldLimit)
    ensures var (r, req) := Release(s, pricePerHour, o);
      req == None && !r.dragging && r.selected == []
      && forall h :: 0 <= h < |s.cells| ==> r.cells[h] == if h in s.selected then Green else s.cells[h]
  {
  }

  /**
   * A confirmed release past the limits asks for the hours from the start cell
   * to the last selected cell + 1, at price-per-hour times the selection size;
   * after a successful booking the selected cells are red whatever the
   * checkout did, and the selection is cleared.
   */
  lemma ReleaseBooks(s: Drag, pricePerHour: real, o: Outcome)
    requires Inv(s) && s.dragging
    requires o.dayCount.Count? && o.dayCount.n < DayLimit
    requires !o.fieldCount.Count? || o.fieldCount.n < FieldLimit
    requires o.confirmed
    ensures var (r, req) := Release(s, pricePerHour, o);
      && req == Some(Request(s.start.value.field, s.selected[0], s.selected[|s.selected| - 1] + 1,
                             Total(pricePerHour, |s.selected|)))
      && !r.dragging && r.selected == [] && r.start == None
      && (o.booking == Booked ==> forall i :: 0 <= i < |s.selected| ==> r.cells[s.selected[i]] == Red)
      && (o.booking != Booked ==> forall i :: 0 <= i < |s.selected| ==> r.cells[s.selected[i]] == Green)
  {
    var r := Release(s, pricePerHour, o).0;
    var color := if o.booking == Booked then Red else Green;
    assert r.cells == Paint(s.cells, s.selected, color);
    forall i | 0 <= i < |s.selected|
      ensures r.cells[s.selected[i]] == color
    {
      assert s.selected[i] in s.selected;
    }
  }

  /**
   * Neither adjacency nor direction is checked: pressing 12:00 and moving up
   * to 11:00 asks for 12:00 to 12:00 and charges two hours.
   */
  lemma UpwardDrag(grid: seq<Status>, field: int, pricePerHour: real, o: Outcome)
    requires |grid| == HoursPerDay && grid[12] == Green && grid[11] == Green
    requires o.dayCount == Count(0) && o.fieldCount == Count(0) && o.confirmed
    ensures var s := Move(Press(Initial(grid), Cell(field, 12)), Cell(field, 11));
      Release(s, pricePerHour, o).1 == Some(Request(field, 12, 12, pricePerHour * 2.0))
  {
    var s := Move(Press(Initial(grid), Cell(field, 12)), Cell(field, 11));
    assert s.selected == [12, 11];
    assert |s.selected| as real == 2.0;
  }

  /**
   * With the mousedown as written, a failed day-limit lookup leaves three
   * hours selected; pressing and releasing one more green hour then asks for
   * that single hour at a total of four. Once the booking succeeds, that total
   * is what goes to the checkout.
   */
  lemma StaleSelectionOvercharges(grid: seq<Status>, field: int, pricePerHour: real, o: Outcome)
    requires |grid| == HoursPerDay
    requires grid[10] == Green && grid[11] == Green && grid[12] == Green && grid[15] == Green
    requires o.dayCount == Count(0) && o.fieldCount == Count(0) && o.confirmed && o.booking == Booked
    ensures var s0 := Move(Move(PressAsWritten(Initial(grid), Cell(field, 10)), Cell(field, 11)), Cell(field, 12));
      var s1 := Release(s0, pricePerHour, o.(dayCount := LookupError)).0;
      var s2 := PressAsWritten(s1, Cell(field, 15));
      s2.selected == [10, 11, 12, 15]
      && Release(s2, pricePerHour, o).1 == Some(Request(field, 15, 16, pricePerHour * 4.0))
  {
    var s0 := Move(Move(PressAsWritten(Initial(grid), Cell(field, 10)), Cell(field, 11)), Cell(field, 12));
    assert s0.selected == [10, 11, 12];
  }

  /** With the corrected mousedown, the booked hours and the charged hours agree for a downward drag. */
  lemma FreshSelectionCharges(s: Drag, c: Cell, pricePerHour: real, o: Outcome)
    requires Inv(s) && c.hour < |s.cells| && s.cells[c.hour] == Green
    requires o.dayCount.Count? && o.dayCount.n < DayLimit
    requires !o.fieldCount.Count? || o.fieldCount.n < FieldLimit
    requires o.confirmed
    ensures Release(Press(s, c), pricePerHour, o).1
      == Some(Request(c.field, c.hour, c.hour + 1, pricePerHour * 1.0))
  {
  }

  /** The release once the selection is past both limit checks. */
  lemma ReleasePastLimits(s: Drag, pricePerHour: real, o: Outcome)
    requires s.dragging && s.selected != [] && s.start.Some?
    requires o.dayCount.Count? && o.dayCount.n < DayLimit
    requires !(o.fieldCount.Count? && o.fieldCount.n >= FieldLimit)
    ensures !o.confirmed ==> Release(s, pricePerHour, o) == (Drag(Paint(s.cells, s.selected, Green), false, None, []), None)
    ensures o.confirmed ==> (Release(s, pricePerHour, o) ==
      (Drag(Paint(s.cells, s.selected, if o.booking == Booked then Red else Green), false, None, []),
       Some(Request(s.start.value.field, s.start.value.hour, s.selected[|s.selected| - 1] + 1,
                    Total(pricePerHour, |s.selected|)))))
  {
    if o.confirmed {
      var r := Release(s, pricePerHour, o);
      var color := if o.booking == Booked then Red else Green;
      assert r.0 == Drag(Paint(s.cells, s.selected, color), false, None, []);
      assert r.1.Some?;
      assert r.1.value.field == s.start.value.field;
      assert r.1.value.startHour == s.start.value.hour;
      assert r.1.value.endHour == s.selected[|s.selected| - 1] + 1;
      assert r.1.value.total == Total(pricePerHour, |s.selected|);
    }
  }

  // ---------------------------------------------------------------- the listeners

  /** The listeners' closure variables over the popup's cells. */
  class DragSelection {
    var cells: array<Status>
    var dragging: bool
    var start: Option<Cell>
    var selected: seq<nat>

    ghost function State(): Drag
      reads this, cells
    {
      Drag(cells[..], dragging, start, selected)
    }

    constructor (grid: seq<Status>)
      ensures State() == Initial(grid)
      ensures fresh(cells)
    {
      cells := new Status[|grid|](i requires 0 <= i < |grid| => grid[i]);
      dragging, start, selected := false, None, [];
    }

    /** Colour every selected cell. */
    method PaintSelected(color: Status)
      requires forall i :: 0 <= i < |selected| ==> selected[i] < cells.Length
      modifies cells
      ensures cells[..] == Paint(old(cells[..]), selected, color)
    {
      var i := 0;
      while i < |selected|
        invariant 0 <= i <= |selected|
        invariant cells[..] == Paint(old(cells[..]), selected[..i], color)
      {
        assert selected[..i + 1] == selected[..i] + [selected[i]];
        cells[selected[i]] := color;
        i := i + 1;
      }
      assert selected[..i] == selected;
    }

    method MouseDown(c: Cell)
      requires c.hour < cells.Length && Inv(State())
      modifies this, cells
      ensures cells == old(cells)
      ensures State() == Press(old(State()), c)
    {
      if cells[c.hour] == Green {
        PaintSelected(Green);
        dragging := true;
        start := Some(c);
        selected := [c.hour];
        cells[c.hour] := Yellow;
      }
    }

    method MouseMove(c: Cell)
      requires c.hour < cells.Length && Inv(State())
      modifies this, cells
      ensures cells == old(cells)
      ensures State() == Move(old(State()), c)
    {
      if dragging && start.Some? {
        if c.field != start.value.field {
          Stop();
          return;
        }
        if cells[c.hour] == Green && c.hour !in selected {
          if |selected| >= MaxSelection {
            Stop();
            return;
          }
          selected := selected + [c.hour];
          cells[c.hour] := Yellow;
        }
        if cells[c.hour] == Red || cells[c.hour] == Gray {
          Stop();
        }
      }
    }

    /** The abort branches: stop, repaint the selection green, forget it. */
    method Stop()
      requires forall i :: 0 <= i < |selected| ==> selected[i] < cells.Length
      modifies this, cells
      ensures cells == old(cells)
      ensures State() == Abort(old(State()))
    {
      dragging := false;
      PaintSelected(Green);
      selected := [];
    }

    method MouseUp(pricePerHour: real, o: Outcome) returns (req: Option<Request>)
      requires Inv(State())
      modifies this, cells
      ensures cells == old(cells)
      ensures State() == Release(old(State()), pricePerHour, o).0
      ensures req == Release(old(State()), pricePerHour, o).1
    {
      ghost var s0 := State();
      req := None;
      if !dragging {
        return;
      }
      dragging := false;
      assert State() == s0.(dragging := false);
      if selected == [] || start.None? {
        return;
      }
      match o.dayCount {
        case LookupError =>
          return;
        case Missing =>
          return;
        case Count(n) =>
          if n >= DayLimit {
            Stop();
            return;
          }
      }
      if o.fieldCount.Count? && o.fieldCount.n >= FieldLimit {
        Stop();
        return;
      }
      req := Settle(s0, pricePerHour, o);
    }

    /** The release once both limit checks have passed: the confirmation, the booking and the checkout. */
    method Settle(ghost s0: Drag, pricePerHour: real, o: Outcome) returns (req: Option<Request>)
      requires Inv(s0) && s0.dragging && s0.selected != [] && s0.start.Some?
      requires o.dayCount.Count? && o.dayCount.n < DayLimit
      requires !(o.fieldCount.Count? && o.fieldCount.n >= FieldLimit)
      requires State() == s0.(dragging := false)
      modifies this, cells
      ensures cells == old(cells)
      ensures State() == Release(s0, pricePerHour, o).0
      ensures req == Release(s0, pricePerHour, o).1
    {
      req := None;
      var total := Total(pricePerHour, |selected|);
      ReleasePastLimits(s0, pricePerHour, o);
      assert start == s0.start && selected == s0.selected && cells[..] == s0.cells;
      if !o.confirmed {
        PaintSelected(Green);
        selected, start := [], None;
        return;
      }
      req := Some(Request(start.value.field, start.value.hour, selected[|selected| - 1] + 1, total));
      assert req == Release(s0, pricePerHour, o).1;
      if o.booking == Booked && o.payment != Redirected {
        PaintSelected(Green);
        PaintTwice(s0.cells, selected, Green, Red);
        PaintSelected(Red);
      } else if o.booking == Booked {
        PaintSelected(Red);
      } else {
        PaintSelected(Green);
      }
      selected, start := [], None;
    }
  }
}

=== FILE: lists.dfy ===
/**
 * The membership toggle used by the favourite-sports checkboxes and by the
 * training-day checkboxes: `prev.includes(x) ? prev.filter(y => y !== x) : [...prev, x]`.
 */
module Lists {

  /** `xs.filter(y => y !== x)`: every occurrence of `x` goes, the rest keep their order. */
  function RemoveAll<T(==,!new)>(xs: seq<T>, x: T): (r: seq<T>)
    ensures x !in r
    ensures forall y :: y != x ==> (y in r <==> y in xs)
    ensures |r| <= |xs|
  {
    if xs == [] then []
    else if xs[0] == x then RemoveAll(xs[1..], x)
    else [xs[0]] + RemoveAll(xs[1..], x)
  }

  /** The toggle: a present element is removed everywhere, an absent one is appended. */
  function Toggle<T(==,!new)>(xs: seq<T>, x: T): (r: seq<T>)
    ensures x in r <==> x !in xs
    ensures forall y :: y != x ==> (y in r <==> y in xs)
  {
    if x in xs then RemoveAll(xs, x) else xs + [x]
  }

  lemma {:induction false} RemoveAllAbsent<T(!new)>(xs: seq<T>, x: T)
    requires x !in xs
    ensures RemoveAll(xs, x) == xs
  {
    if xs != [] {
      RemoveAllAbsent(xs[1..], x);
      assert [xs[0]] + xs[1..] == xs;
    }
  }

  lemma {:induction false} RemoveAllAppend<T(!new)>(xs: seq<T>, ys: seq<T>, x: T)
    ensures RemoveAll(xs + ys, x) == RemoveAll(xs, x) + RemoveAll(ys, x)
  {
    if xs == [] {
      assert xs + ys == ys;
    } else {
      assert (xs + ys)[1..] == xs[1..] + ys;
      RemoveAllAppend(xs[1..], ys, x);
    }
  }

  /** An absent element is appended at the end and nothing else changes. */
  lemma ToggleAbsentAppends<T(!new)>(xs: seq<T>, x: T)
    requires x !in xs
    ensures Toggle(xs, x) == xs + [x]
  {
  }

  /** Toggling an absent element twice gives back exactly the list. */
  lemma ToggleTwiceAbsent<T(!new)>(xs: seq<T>, x: T)
    requires x !in xs
    ensures Toggle(Toggle(xs, x), x) == xs
  {
    RemoveAllAppend(xs, [x], x);
    RemoveAllAbsent(xs, x);
    assert RemoveAll([x], x) == [];
  }

  /** Toggling twice restores every element's membership. */
  lemma ToggleTwiceMembership<T(!new)>(xs: seq<T>, x: T, y: T)
    ensures y in Toggle(Toggle(xs, x), x) <==> y in xs
  {
  }

  /** How often `y` occurs in `xs`. */
  function Count<T(==,!new)>(xs: seq<T>, y: T): nat
  {
    if xs == [] then 0 else (if xs[0] == y then 1 else 0) + Count(xs[1..], y)
  }

  /** Removing `x` keeps every other element exactly as often as it was. */
  lemma {:induction false} RemoveAllKeepsOthers<T(!new)>(xs: seq<T>, x: T, y: T)
    requires y != x
    ensures Count(RemoveAll(xs, x), y) == Count(xs, y)
  {
    if xs != [] {
      RemoveAllKeepsOthers(xs[1..], x, y);
      if xs[0] != x {
        assert ([xs[0]] + RemoveAll(xs[1..], x))[1..] == RemoveAll(xs[1..], x);
      }
    }
  }
}

=== FILE: my_profile.dfy ===
/**
 * The favourite-sports editor of the player's profile: the stored text is a
 * ", "-separated list, edited through checkboxes that toggle membership and
 * saved back as the joined list.
 */
module MyProfile {
  import opened Wrappers
  import Text
  import Lists

  /** `xs.filter(Boolean)` on strings: the empty pieces go, the rest keep their order. */
  function NonEmpty(xs: seq<string>): (r: seq<string>)
    ensures forall x :: x in r <==> x in xs && x != ""
    ensures |r| <= |xs|
  {
    if xs == [] then []
    else if xs[0] == "" then NonEmpty(xs[1..])
    else [xs[0]] + NonEmpty(xs[1..])
  }

  lemma {:induction false} NonEmptyKeeps(xs: seq<string>)
    requires forall i :: 0 <= i < |xs| ==> xs[i] != ""
    ensures NonEmpty(xs) == xs
  {
    if xs != [] {
      NonEmptyKeeps(xs[1..]);
      assert [xs[0]] + xs[1..] == xs;
    }
  }

  /** `(sporturi_preferate || "").split(", ").filter(Boolean)`; a null column is None. */
  function ParseSports(stored: Option<string>): (sports: seq<string>)
    ensures forall x :: x in sports ==> x != ""
    ensures stored == None || stored == Some("") ==> sports == []
  {
    NonEmpty(Text.Split(stored.GetOr(""), Text.ListSeparator))
  }

  /** `favouriteSports.join(", ")` */
  function JoinSports(sports: seq<string>): string
  {
    Text.Join(sports, Text.ListSeparator)
  }

  /** A list a checkbox can produce: no empty name, no name containing ", ". */
  predicate WellFormed(sports: seq<string>)
  {
    forall i :: 0 <= i < |sports| ==> sports[i] != "" && !Text.Contains(sports[i], Text.ListSeparator)
  }

  /** Reading back a saved list gives the list itself. */
  lemma ParseJoin(sports: seq<string>)
    requires WellFormed(sports)
    ensures ParseSports(Some(JoinSports(sports))) == sports
  {
    if sports == [] {
      assert Text.Split("", Text.ListSeparator) == [""];
    } else {
      Text.SplitJoinCommaSpace(sports);
      NonEmptyKeeps(sports);
    }
  }

  /** `handleCheckboxChange`: the toggle of `sport`. */
  function ToggleSport(sports: seq<string>, sport: string): (r: seq<string>)
    ensures sport in r <==> sport !in sports
    ensures forall s :: s != sport ==> (s in r <==> s in sports)
    ensures sport !in sports ==> r == sports + [sport]
  {
    Lists.Toggle(sports, sport)
  }

  /** Toggling a well-formed name keeps the list well-formed. */
  lemma ToggleKeepsWellFormed(sports: seq<string>, sport: string)
    requires WellFormed(sports)
    requires sport != "" && !Text.Contains(sport, Text.ListSeparator)
    ensures WellFormed(ToggleSport(sports, sport))
  {
    var r := ToggleSport(sports, sport);
    forall i | 0 <= i < |r|
      ensures r[i] != "" && !Text.Contains(r[i], Text.ListSeparator)
    {
      assert r[i] in r;
      if r[i] != sport {
        var j :| 0 <= j < |sports| && sports[j] == r[i];
      }
    }
  }

  /** Toggling the same sport twice from an absent state gives back the list. */
  lemma ToggleTwice(sports: seq<string>, sport: string)
    ensures forall s :: s in ToggleSport(ToggleSport(sports, sport), sport) <==> s in sports
    ensures sport !in sports ==> ToggleSport(ToggleSport(sports, sport), sport) == sports
  {
    forall s
      ensures s in ToggleSport(ToggleSport(sports, sport), sport) <==> s in sports
    {
      Lists.ToggleTwiceMembership(sports, sport, s);
    }
    if sport !in sports {
      Lists.ToggleTwiceAbsent(sports, sport);
    }
  }

  /** The page state: the profile's stored column, the edited list and the modal. */
  datatype Page = Page(storedSports: Option<string>, favourites: seq<string>, showModal: bool)

  /** `fetchProfile` on a successful reply: the column is kept and parsed into the edited list. */
  function LoadProfile(p: Page, stored: Option<string>): (r: Page)
    ensures r.storedSports == stored && r.showModal == p.showModal
    ensures forall x :: x in r.favourites ==> x != ""
  {
    p.(storedSports := stored, favourites := ParseSports(stored))
  }

  /**
   * `saveSports`: the joined list is sent; on success the profile's column
   * becomes that text and the modal closes; otherwise nothing changes.
   */
  function SaveSports(p: Page, success: bool): (r: (Page, string))
    ensures r.1 == JoinSports(p.favourites)
    ensures success ==> r.0 == p.(storedSports := Some(r.1), showModal := false)
    ensures !success ==> r.0 == p
  {
    var body := JoinSports(p.favourites);
    if success then (p.(storedSports := Some(body), showModal := false), body) else (p, body)
  }

  /** After a successful save, loading the profile again shows the same list. */
  lemma SaveThenLoad(p: Page)
    requires WellFormed(p.favourites)
    ensures var saved := SaveSports(p, true).0;
      LoadProfile(saved, saved.storedSports).favourites == p.favourites
  {
    ParseJoin(p.favourites);
  }
}

=== FILE: owners.dfy ===
/**
 * The owner's reservation history: one column of 24 cells per owned field,
 * coloured by its own copy of the occupancy rule; clicking a reserved cell
 * opens the reservation in a modal, from which it can be cancelled.
 */
module OwnersHistory {
  import opened Wrappers
  import opened Availability

  /** An owned field with its localised reservations. */
  datatype OwnedField = OwnedField(id: int, schedule: string, reservations: seq<Row>)

  /** `modalData`: the reservation's id, its player, and its localised start and end. */
  datatype Modal = Modal(id: int, user: string, start: int, end: int)

  /** The modal opened on a reservation. */
  function ModalOf(r: Row): Modal
  {
    Modal(r.id, r.user, r.start, r.end)
  }

  /** The cell's colour expression: `withinSchedule ? (reserved ? red : green) : gray`. */
  function CellColour(within: bool, reserved: bool): Status
  {
    if within then (if reserved then Red else Green) else Gray
  }

  /** `isReserved(hourString, reservationsForDate)` for hour `i`. */
  predicate CellReserved(f: OwnedField, date: int, i: int)
  {
    IsReserved(i, OnDate(f.reservations, date))
  }

  /** The owner's colour for hour `i` is the shared cell status. */
  lemma CellColourAgrees(f: OwnedField, date: int, i: int)
    ensures CellColour(IsWithinSchedule(i, ParseSchedule(f.schedule)), CellReserved(f, date, i))
      == CellStatus(ParseSchedule(f.schedule), f.reservations, date, i)
  {
    IsReservedIff(i, OnDate(f.reservations, date));
  }

  /** `rows.find(res => i >= resStart && i < resEnd)` */
  function FindCovering(rows: seq<Row>, i: int): (r: Option<Row>)
    ensures r.Some? ==> StartHour(r.value) <= i < EndHour(r.value)
    ensures r.Some? ==> exists k :: (0 <= k < |rows| && rows[k] == r.value &&
      forall j :: 0 <= j < k ==> !(StartHour(rows[j]) <= i < EndHour(rows[j])))
    ensures r.None? ==> forall x :: x in rows ==> !(StartHour(x) <= i < EndHour(x))
  {
    if rows == [] then None
    else if StartHour(rows[0]) <= i < EndHour(rows[0]) then Some(rows[0])
    else
      var r := FindCovering(rows[1..], i);
      assert r.Some? ==> exists k :: (1 <= k < |rows| && rows[k] == r.value &&
        forall j :: 0 <= j < k ==> !(StartHour(rows[j]) <= i < EndHour(rows[j]))) by {
        if r.Some? {
          var k :| 0 <= k < |rows[1..]| && rows[1..][k] == r.value
            && forall j :: 0 <= j < k ==> !(StartHour(rows[1..][j]) <= i < EndHour(rows[1..][j]));
          assert rows[k + 1] == r.value;
          assert forall j :: 0 <= j < k + 1 ==> !(StartHour(rows[j]) <= i < EndHour(rows[j])) by {
            forall j | 0 <= j < k + 1
              ensures !(StartHour(rows[j]) <= i < EndHour(rows[j]))
            {
              if j > 0 {
                assert rows[j] == rows[1..][j - 1];
              }
            }
          }
        }
      }
      r
  }

  /** The cell's `onClick`: nothing unless the cell is reserved; else the first covering reservation of that day. */
  function Click(f: OwnedField, date: int, i: int): (m: Option<Modal>)
    ensures !CellReserved(f, date, i) ==> m == None
  {
    if !CellReserved(f, date, i) then None
    else match FindCovering(OnDate(f.reservations, date), i)
      case None => None
      case Some(r) => Some(ModalOf(r))
  }

  /** `rows[k]` is the first row of the list whose hours cover hour `i`. */
  predicate FirstCoverAt(rows: seq<Row>, i: int, k: int)
  {
    0 <= k < |rows| && StartHour(rows[k]) <= i < EndHour(rows[k]) &&
    forall j :: 0 <= j < k ==> !(StartHour(rows[j]) <= i < EndHour(rows[j]))
  }

  /**
   * Clicking a reserved cell always opens a reservation: the first, in list
   * order, of that day's reservations whose hours cover the cell.
   */
  lemma ClickOnReservedOpens(f: OwnedField, date: int, i: int)
    requires CellReserved(f, date, i)
    ensures Click(f, date, i).Some?
    ensures exists r :: (r in f.reservations && r.date == date && StartHour(r) <= i < EndHour(r) &&
      Click(f, date, i) == Some(ModalOf(r)))
    ensures exists k :: (FirstCoverAt(OnDate(f.reservations, date), i, k) &&
      Click(f, date, i) == Some(ModalOf(OnDate(f.reservations, date)[k])))
  {
    var day := OnDate(f.reservations, date);
    IsReservedIff(i, day);
    var found := FindCovering(day, i);
    assert found.Some?;
    var k :| 0 <= k < |day| && day[k] == found.value &&
      forall j :: 0 <= j < k ==> !(StartHour(day[j]) <= i < EndHour(day[j]));
    assert FirstCoverAt(day, i, k);
  }

  /**
   * The click is decided by `reserved`, not by the colour: a reservation lying
   * outside the schedule leaves its cell gray, and the cell still opens it.
   */
  lemma GrayReservedCellOpens(f: OwnedField, date: int, i: int)
    requires !IsWithinSchedule(i, ParseSchedule(f.schedule)) && CellReserved(f, date, i)
    ensures CellColour(IsWithinSchedule(i, ParseSchedule(f.schedule)), CellReserved(f, date, i)) == Gray
    ensures Click(f, date, i).Some?
  {
    ClickOnReservedOpens(f, date, i);
  }

  /** The reply to `DELETE /cancel-reservation/:id`. */
  datatype CancelReply = Cancelled | NotCancelled | CancelError

  /** What a cancel leaves: the modal, the reservation id sent (if any), and whether the search runs again. */
  datatype CancelEffect = CancelEffect(modal: Option<Modal>, sent: Option<int>, rerun: bool)

  /** `handleCancelReservation` */
  function CancelReservation(modal: Option<Modal>, confirmed: bool, reply: CancelReply): (e: CancelEffect)
    ensures e.sent.Some? <==> modal.Some? && confirmed
    ensures e.sent.Some? ==> e.sent.value == modal.value.id
    ensures e.rerun <==> e.sent.Some? && reply == Cancelled
    ensures e.modal == if e.rerun then None else modal
  {
    if modal.None? || !confirmed then CancelEffect(modal, None, false)
    else if reply == Cancelled then CancelEffect(None, Some(modal.value.id), true)
    else CancelEffect(modal, Some(modal.value.id), false)
  }
}

=== FILE: register.dfy ===
/**
 * The registration form: the e-mail suffix rule, the password complexity rule
 * and its five separate flags, and the alert record that the validation and
 * the submission set.
 */
module Register {
  import opened Wrappers
  import Text

  const GmailSuffix: string := "@gmail.com"
  const MinPasswordLength: nat := 8
  const MaxPasswordLength: nat := 12

  /** The class `[!@#$%^&*(),.?":{}|<>]`. */
  const SpecialChars: set<char> :=
    {'!', '@', '#', '$', '%', '^', '&', '*', '(', ')', ',', '.', '?', '"', ':', '{', '}', '|', '<', '>'}

  /** `email.endsWith("@gmail.com")` */
  predicate ValidateEmail(email: string)
  {
    Text.EndsWith(email, GmailSuffix)
  }

  /** An address is accepted exactly when it is some local part followed by "@gmail.com". */
  lemma ValidateEmailIff(email: string)
    ensures ValidateEmail(email) <==> exists local :: email == local + GmailSuffix
  {
    if ValidateEmail(email) {
      var local := email[..|email| - |GmailSuffix|];
      assert email == local + GmailSuffix;
    }
    if exists local :: email == local + GmailSuffix {
      var local :| email == local + GmailSuffix;
      assert email[|email| - |GmailSuffix|..] == GmailSuffix;
    }
  }

  /** The object `validatePasswordComplexity` returns. */
  datatype Checks = Checks(uppercase: bool, lowercase: bool, number: bool, special: bool, length: bool)

  function PasswordChecks(password: string): (c: Checks)
    ensures c.uppercase <==> exists i :: 0 <= i < |password| && 'A' <= password[i] <= 'Z'
    ensures c.lowercase <==> exists i :: 0 <= i < |password| && 'a' <= password[i] <= 'z'
    ensures c.number <==> exists i :: 0 <= i < |password| && '0' <= password[i] <= '9'
    ensures c.special <==> exists i :: 0 <= i < |password| && password[i] in SpecialChars
    ensures c.length <==> MinPasswordLength <= |password| <= MaxPasswordLength
  {
    Checks(Text.HasUpper(password), Text.HasLower(password), Text.HasDigit(password),
           Text.HasCharIn(password, SpecialChars),
           |password| >= MinPasswordLength && |password| <= MaxPasswordLength)
  }

  /** `isPasswordComplex` */
  predicate IsPasswordComplex(password: string)
  {
    && Text.HasUpper(password) && Text.HasLower(password) && Text.HasDigit(password)
    && Text.HasCharIn(password, SpecialChars)
    && MinPasswordLength <= |password| <= MaxPasswordLength
  }

  /** The five flags all hold exactly when the password is complex. */
  lemma ChecksAgree(password: string)
    ensures var c := PasswordChecks(password);
      (c.uppercase && c.lowercase && c.number && c.special && c.length) == IsPasswordComplex(password)
  {
  }

  /** A password of 8 to 12 characters with one character of each of the four kinds is complex. */
  lemma ComplexExample()
    ensures IsPasswordComplex("Abcdef1!")
  {
    var p := "Abcdef1!";
    assert Text.IsUpper(p[0]) && Text.IsLower(p[1]) && Text.IsDigit(p[6]) && p[7] in SpecialChars;
  }

  /** Without an uppercase letter, or with more than 12 characters, it is not. */
  lemma NotComplexExamples()
    ensures !IsPasswordComplex("abcdef1!")
    ensures !IsPasswordComplex("Abcdefgh1!xyz")
  {
    var p := "abcdef1!";
    assert forall i :: 0 <= i < |p| ==> !Text.IsUpper(p[i]);
  }

  /** The form's `alerts` state. */
  datatype Alerts = Alerts(duplicateEmail: bool, invalidEmail: bool, differentPasswords: bool, passwordComplexity: bool)

  const NoAlerts := Alerts(false, false, false, false)

  /** How many alerts are raised. */
  function Raised(a: Alerts): nat
  {
    (if a.duplicateEmail then 1 else 0) + (if a.invalidEmail then 1 else 0)
    + (if a.differentPasswords then 1 else 0) + (if a.passwordComplexity then 1 else 0)
  }

  /**
   * `validateAccount`: clear every alert, then check the e-mail, the
   * complexity and the confirmation in that order; the first failure raises
   * its own alert and the result is false.
   */
  function ValidateAccount(email: string, password: string, confirm: string): (r: (bool, Alerts))
    ensures r.0 <==> ValidateEmail(email) && IsPasswordComplex(password) && password == confirm
    ensures r.0 ==> r.1 == NoAlerts
    ensures !ValidateEmail(email) ==> r.1 == NoAlerts.(invalidEmail := true)
    ensures ValidateEmail(email) && !IsPasswordComplex(password) ==> r.1 == NoAlerts.(passwordComplexity := true)
    ensures ValidateEmail(email) && IsPasswordComplex(password) && password != confirm ==>
      r.1 == NoAlerts.(differentPasswords := true)
  {
    if !ValidateEmail(email) then (false, NoAlerts.(invalidEmail := true))
    else if !IsPasswordComplex(password) then (false, NoAlerts.(passwordComplexity := true))
    else if password != confirm then (false, NoAlerts.(differentPasswords := true))
    else (true, NoAlerts)
  }

  /** The reply to `POST /register`: success with the new username, refusal, or a failed request. */
  datatype RegisterReply = Registered(username: string) | Refused | RegisterError

  /** What a submission leaves: the alerts, whether a request was sent, and the username stored in `localStorage`. */
  datatype SubmitEffect = SubmitEffect(alerts: Alerts, sent: bool, username: Option<string>)

  /** `handleSubmit` */
  function Submit(email: string, password: string, confirm: string, reply: RegisterReply): (e: SubmitEffect)
    ensures e.sent <==> ValidateAccount(email, password, confirm).0
    ensures e.sent && reply.Registered? ==> e.alerts == NoAlerts && e.username == Some(reply.username)
    ensures e.sent && !reply.Registered? ==> e.alerts == NoAlerts.(duplicateEmail := true) && e.username == None
    ensures Raised(e.alerts) <= 1
  {
    var (ok, alerts) := ValidateAccount(email, password, confirm);
    if !ok then SubmitEffect(alerts, false, None)
    else match reply
      case Registered(name) => SubmitEffect(alerts, true, Some(name))
      case _ => SubmitEffect(alerts.(duplicateEmail := true), true, None)
  }
}

=== FILE: reservation_history.dfy ===
/**
 * The player's reservation history: each row from the backend is shown with
 * its display date, its start and end times and whether it lies in the
 * future; only future rows can be cancelled, and a cancelled row leaves the
 * list.
 */
module ReservationHistory {
  import opened Wrappers
  import Availability

  /**
   * A row of `/get-reservations`: `date`, `start` and `end` are instants in
   * minutes since the epoch (UTC).
   */
  datatype Reservation = Reservation(id: int, fieldName: string, date: int, start: int, end: int)

  /** The row with what the page adds: the ISO date of `date` + 3 h, the local start and end times, `isFuture`. */
  datatype Formatted = Formatted(reservation: Reservation, formattedDate: int, startTime: int, endTime: int, isFuture: bool)

  const MinutesPerDay: int := Availability.MinutesPerDay

  /**
   * The `map` callback: every original field kept, the date shifted by 3 h
   * and cut to its day, the times cut to the minute of the day (no shift),
   * and `isFuture` when the start is later than `now`.
   */
  function Format(r: Reservation, now: int): (f: Formatted)
    ensures f.reservation == r
    ensures f.isFuture <==> r.start > now
    ensures f.formattedDate * MinutesPerDay <= r.date + Availability.DisplayShift < (f.formattedDate + 1) * MinutesPerDay
    ensures 0 <= f.startTime < MinutesPerDay && (r.start - f.startTime) % MinutesPerDay == 0
    ensures 0 <= f.endTime < MinutesPerDay && (r.end - f.endTime) % MinutesPerDay == 0
  {
    Formatted(r, (r.date + Availability.DisplayShift) / MinutesPerDay,
      r.start % MinutesPerDay, r.end % MinutesPerDay, r.start > now)
  }

  /** `data.reservations.map(...)` */
  function FormatAll(rows: seq<Reservation>, now: int): (fs: seq<Formatted>)
    ensures |fs| == |rows|
    ensures forall i :: 0 <= i < |rows| ==> fs[i] == Format(rows[i], now)
  {
    if rows == [] then [] else [Format(rows[0], now)] + FormatAll(rows[1..], now)
  }

  /** The cancel button's `disabled`. */
  predicate CancelDisabled(f: Formatted)
  {
    !f.isFuture
  }

  /** A reservation can be cancelled from the page exactly when it has not started yet. */
  lemma CancelOnlyFuture(r: Reservation, now: int)
    ensures CancelDisabled(Format(r, now)) <==> r.start <= now
  {
  }

  /**
   * The history shows start times without the +3 h shift the owner's grid and
   * the map popup apply, so the two pages show the same reservation three
   * hours apart.
   */
  lemma HistoryTimeDiffersFromGrid(r: Reservation, now: int)
    ensures (Availability.Localise(Availability.Row(r.id, "", 0, r.date, r.start, r.end)).start
      - Format(r, now).startTime) % MinutesPerDay == Availability.DisplayShift
  {
  }

  /** The JSON body of `/get-reservations`. */
  datatype HistoryReply = HistoryReply(success: bool, reservations: seq<Reservation>, isArray: bool, message: string)

  /** The page's list and error text. */
  datatype Page = Page(reservations: seq<Formatted>, error: string)

  const NotFoundText: string := "Nu s-a gasit nicio rezervare."
  const LoadErrorText: string := "Error loading data."

  /**
   * `fetchReservations`: a successful reply with an array fills the list; any
   * other reply sets its message (or the fallback) as the error; a failed
   * request (None) sets the loading error.
   */
  function Load(p: Page, reply: Option<HistoryReply>, now: int): (r: Page)
    ensures reply.Some? && reply.value.success && reply.value.isArray ==>
      r == p.(reservations := FormatAll(reply.value.reservations, now))
    ensures reply.Some? && !(reply.value.success && reply.value.isArray) ==>
      r == p.(error := if reply.value.message != "" then reply.value.message else NotFoundText)
    ensures reply.None? ==> r == p.(error := LoadErrorText)
  {
    match reply
    case None => p.(error := LoadErrorText)
    case Some(body) =>
      if body.success && body.isArray then p.(reservations := FormatAll(body.reservations, now))
      else p.(error := if body.message != "" then body.message else NotFoundText)
  }

  /** `prev.filter(res => res.id_rezervare !== id)` */
  function RemoveById(rows: seq<Formatted>, id: int): (r: seq<Formatted>)
    ensures forall f :: f in r <==> f in rows && f.reservation.id != id
    ensures |r| <= |rows|
  {
    if rows == [] then []
    else if rows[0].reservation.id == id then RemoveById(rows[1..], id)
    else [rows[0]] + RemoveById(rows[1..], id)
  }

  /** The filter works piecewise, so the kept rows stay in their order. */
  lemma {:induction false} RemoveByIdAppend(a: seq<Formatted>, b: seq<Formatted>, id: int)
    ensures RemoveById(a + b, id) == RemoveById(a, id) + RemoveById(b, id)
  {
    if a == [] {
      assert a + b == b;
    } else {
      assert (a + b)[1..] == a[1..] + b;
      RemoveByIdAppend(a[1..], b, id);
    }
  }

  /** When no row has the id, the list is unchanged. */
  lemma {:induction false} RemoveByIdAbsent(rows: seq<Formatted>, id: int)
    requires forall i :: 0 <= i < |rows| ==> rows[i].reservation.id != id
    ensures RemoveById(rows, id) == rows
  {
    if rows != [] {
      RemoveByIdAbsent(rows[1..], id);
      assert [rows[0]] + rows[1..] == rows;
    }
  }

  /** Exactly the rows with the id go: the list shrinks by their number. */
  lemma {:induction false} RemoveByIdCount(rows: seq<Formatted>, id: int)
    ensures |RemoveById(rows, id)| == |rows| - CountId(rows, id)
  {
    if rows != [] {
      RemoveByIdCount(rows[1..], id);
    }
  }

  function CountId(rows: seq<Formatted>, id: int): nat
  {
    if rows == [] then 0 else (if rows[0].reservation.id == id then 1 else 0) + CountId(rows[1..], id)
  }

  /** The reply to `DELETE /cancel-reservation/:id`, or a failed request. */
  datatype CancelReply = Cancelled | NotCancelled | CancelError

  /**
   * `handleCancel`: nothing is sent unless the user confirms; only a
   * successful reply removes the rows with that id. The second component says
   * whether the request was sent.
   */
  function Cancel(rows: seq<Formatted>, id: int, confirmed: bool, reply: CancelReply): (r: (seq<Formatted>, bool))
    ensures r.1 <==> confirmed
    ensures confirmed && reply == Cancelled ==> r.0 == RemoveById(rows, id)
    ensures !(confirmed && reply == Cancelled) ==> r.0 == rows
  {
    if !confirmed then (rows, false)
    else if reply == Cancelled then (RemoveById(rows, id), true)
    else (rows, true)
  }
}

=== FILE: reset_password.dfy ===
/**
 * The reset-password form: the e-mail suffix rule and the three alert flags
 * that each handled outcome sets as a whole record.
 */
module ResetPassword {
  import Register

  /** The form's `alert` state. */
  datatype Alerts = Alerts(invalidEmail: bool, nonExistentEmail: bool, emailSent: bool)

  /** The reply to `POST /reset-password`, or a failed request. */
  datatype ResetReply = Sent | UnknownEmail | ResetError

  /** How many flags are raised. */
  function Raised(a: Alerts): nat
  {
    (if a.invalidEmail then 1 else 0) + (if a.nonExistentEmail then 1 else 0) + (if a.emailSent then 1 else 0)
  }

  /**
   * `resetPassword`: an address without the Gmail suffix raises only
   * `invalidEmail` and sends nothing; a success raises only `emailSent`, a
   * refusal only `nonExistentEmail`; a failed request leaves the flags as
   * they were. The second component says whether a request was sent.
   */
  function ResetPassword(before: Alerts, email: string, reply: ResetReply): (r: (Alerts, bool))
    ensures r.1 <==> Register.ValidateEmail(email)
    ensures !r.1 ==> r.0 == Alerts(true, false, false)
    ensures r.1 && reply == Sent ==> r.0 == Alerts(false, false, true)
    ensures r.1 && reply == UnknownEmail ==> r.0 == Alerts(false, true, false)
    ensures r.1 && reply == ResetError ==> r.0 == before
  {
    if !Register.ValidateEmail(email) then (Alerts(true, false, false), false)
    else match reply
      case Sent => (Alerts(false, false, true), true)
      case UnknownEmail => (Alerts(false, true, false), true)
      case ResetError => (before, true)
  }

  /** Every handled outcome leaves exactly one flag raised. */
  lemma ExactlyOneFlag(before: Alerts, email: string, reply: ResetReply)
    requires !Register.ValidateEmail(email) || reply != ResetError
    ensures Raised(ResetPassword(before, email, reply).0) == 1
  {
  }

  /** Starting from no flags, at most one flag is ever raised. */
  lemma AtMostOneFlag(before: Alerts, email: string, reply: ResetReply)
    requires Raised(before) <= 1
    ensures Raised(ResetPassword(before, email, reply).0) <= 1
  {
  }
}

=== FILE: search_fields.dfy ===
/**
 * The search results page: the base status map computed for every found
 * field and hour, and the drag selection over it. Its state is the live
 * `cellStatus` map, the `baseCellStatusRef` map it is reset from, the dragging
 * flag, the start cell and the ordered selected keys.
 *
 * As on the map page, the selection is specified by pure transitions on
 * `Search` and implemented by the class `SearchGrid`.
 */
module SearchFields {
  import opened Wrappers
  import Text
  import opened Availability
  import FieldsMap

  /** The key `${fieldId}-${HH}` of one cell. */
  datatype CellKey = CellKey(field: int, hour: nat)

  /** A found field with its localised reservations. */
  datatype Field = Field(id: int, schedule: string, pricePerHour: real, reservations: seq<Row>)

  /** The page's selection state. */
  datatype Search = Search(status: map<CellKey, Status>, base: map<CellKey, Status>,
                           dragging: bool, start: Option<CellKey>, selected: seq<CellKey>)

  /** The `/make-reservation` body: field (undefined when not found), "HH:00" labels, and the checkout total. */
  datatype Request = Request(field: Option<int>, from: string, to: string, total: real)

  /** What the release handler learns from the session, the user and the backend. */
  datatype Outcome = Outcome(loggedIn: bool, dayCount: FieldsMap.Lookup, fieldCount: FieldsMap.Lookup,
                             confirmed: bool, booking: FieldsMap.Booking, payment: FieldsMap.Payment)

  const MaxSelection: nat := 3
  const DayLimit: nat := 3
  const FieldLimit: nat := 1

  const NoDateError: string := "Selecteaza o data pentru cautare!"
  const NoFieldsError: string := "No fields found matching the criteria."
  const SearchError: string := "A aparut o eroare in timpul cautarii de terenuri. Incearca din nou."

  // ---------------------------------------------------------------- the base map

  /** The colour of field `f` at `hour` on `date`. */
  function Colour(f: Field, date: int, hour: int): Status
  {
    CellStatus(ParseSchedule(f.schedule), f.reservations, date, hour)
  }

  /** The ids of the found fields. */
  function Ids(fields: seq<Field>): set<int>
  {
    set i | 0 <= i < |fields| :: fields[i].id
  }

  /** No later field has the same id as field `i`, so its cells are the ones kept. */
  predicate LastWithId(fields: seq<Field>, i: int)
    requires 0 <= i < |fields|
  {
    forall j :: i < j < |fields| ==> fields[j].id != fields[i].id
  }

  /** No field in (i, j) has the same id as field `i`. */
  predicate LastBefore(fields: seq<Field>, i: int, j: int)
    requires 0 <= i < |fields| && j <= |fields|
  {
    forall i' :: i < i' < j ==> fields[i'].id != fields[i].id
  }

  /** The ids of the first `j` fields. */
  function IdsUpTo(fields: seq<Field>, j: int): set<int>
    requires 0 <= j <= |fields|
  {
    set i | 0 <= i < j :: fields[i].id
  }

  /** Every field among the first `j` that no later one among them repeats has its colour `colours[i]` at `hour` in `m`. */
  predicate HourFilled(fields: seq<Field>, colours: seq<Status>, hour: nat, j: int, m: map<CellKey, Status>)
    requires 0 <= j <= |fields| == |colours|
  {
    forall i :: 0 <= i < j && LastBefore(fields, i, j) ==>
      CellKey(fields[i].id, hour) in m && m[CellKey(fields[i].id, hour)] == colours[i]
  }

  lemma FillStep(fields: seq<Field>, colours: seq<Status>, hour: nat, j: int, m: map<CellKey, Status>)
    requires 0 <= j < |fields| == |colours| && HourFilled(fields, colours, hour, j, m)
    ensures HourFilled(fields, colours, hour, j + 1, m[CellKey(fields[j].id, hour) := colours[j]])
    ensures IdsUpTo(fields, j + 1) == IdsUpTo(fields, j) + {fields[j].id}
  {
    var next := m[CellKey(fields[j].id, hour) := colours[j]];
    forall i | 0 <= i < j + 1 && LastBefore(fields, i, j + 1)
      ensures CellKey(fields[i].id, hour) in next && next[CellKey(fields[i].id, hour)] == colours[i]
    {
      if i < j {
        assert LastBefore(fields, i, j);
        assert fields[j].id != fields[i].id;
      }
    }
  }

  /** The inner loop of the base computation: one hour, every field. */
  method FillHour(fields: seq<Field>, date: int, hour: nat, base: map<CellKey, Status>)
    returns (filled: map<CellKey, Status>)
    ensures forall k :: k in filled <==> k in base || (k.hour == hour && k.field in Ids(fields))
    ensures forall k :: k in base && k.hour != hour ==> filled[k] == base[k]
    ensures forall i :: 0 <= i < |fields| && LastWithId(fields, i) ==>
      CellKey(fields[i].id, hour) in filled && filled[CellKey(fields[i].id, hour)] == Colour(fields[i], date, hour)
  {
    ghost var colours := seq(|fields|, i requires 0 <= i < |fields| => Colour(fields[i], date, hour));
    filled := base;
    var j := 0;
    while j < |fields|
      invariant 0 <= j <= |fields|
      invariant forall k :: k in filled <==> k in base || (k.hour == hour && k.field in IdsUpTo(fields, j))
      invariant forall k :: k in base && k.hour != hour ==> filled[k] == base[k]
      invariant HourFilled(fields, colours, hour, j, filled)
    {
      FillStep(fields, colours, hour, j, filled);
      filled := filled[CellKey(fields[j].id, hour) := Colour(fields[j], date, hour)];
      j := j + 1;
    }
    assert IdsUpTo(fields, j) == Ids(fields);
  }

  /**
   * The base-status loop of `handleSubmit`: hour by hour, field by field, a
   * key for every found field and hour whose value is the cell's colour; a
   * repeated field id keeps the colours of its last occurrence.
   */
  method ComputeBase(fields: seq<Field>, date: int) returns (base: map<CellKey, Status>)
    ensures forall k :: k in base <==> k.hour < HoursPerDay && k.field in Ids(fields)
    ensures forall i, h :: 0 <= i < |fields| && 0 <= h < HoursPerDay && LastWithId(fields, i) ==>
      CellKey(fields[i].id, h) in base && base[CellKey(fields[i].id, h)] == Colour(fields[i], date, h)
  {
    base := map[];
    var hour := 0;
    while hour < HoursPerDay
      invariant 0 <= hour <= HoursPerDay
      invariant forall k :: k in base <==> k.hour < hour && k.field in Ids(fields)
      invariant forall i, h :: 0 <= i < |fields| && 0 <= h < hour && LastWithId(fields, i) ==>
        CellKey(fields[i].id, h) in base && base[CellKey(fields[i].id, h)] == Colour(fields[i], date, h)
    {
      base := FillHour(fields, date, hour, base);
      hour := hour + 1;
    }
  }

  // ---------------------------------------------------------------- the selection

  /** `baseCellStatusRef.current[k] ?? "green"` */
  function BaseOr(base: map<CellKey, Status>, k: CellKey): Status
  {
    if k in base then base[k] else Green
  }

  /** The `forEach` of `resetSelectedCellsToBase` on a copy of the live map. */
  function Restore(m: map<CellKey, Status>, base: map<CellKey, Status>, keys: seq<CellKey>): (r: map<CellKey, Status>)
    ensures forall k :: k in r <==> k in m || k in keys
    ensures forall k :: k in r ==> r[k] == if k in keys then BaseOr(base, k) else m[k]
  {
    if keys == [] then m
    else
      var last := keys[|keys| - 1];
      assert forall k :: k in keys <==> k in keys[..|keys| - 1] || k == last;
      Restore(m, base, keys[..|keys| - 1])[last := BaseOr(base, last)]
  }

  /** `selectedCellKeys.forEach((k) => (copy[k] = color))` */
  function PaintKeys(m: map<CellKey, Status>, keys: seq<CellKey>, color: Status): (r: map<CellKey, Status>)
    ensures forall k :: k in r <==> k in m || k in keys
    ensures forall k :: k in r ==> r[k] == if k in keys then color else m[k]
  {
    if keys == [] then m
    else
      var last := keys[|keys| - 1];
      assert forall k :: k in keys <==> k in keys[..|keys| - 1] || k == last;
      PaintKeys(m, keys[..|keys| - 1], color)[last := color]
  }

  /** `resetSelectedCellsToBase` */
  function ResetToBase(s: Search): (r: Search)
    ensures !r.dragging && r.start == None && r.selected == [] && r.base == s.base
    ensures forall k :: k in r.status <==> k in s.status || k in s.selected
    ensures forall k :: k in s.selected ==> r.status[k] == BaseOr(s.base, k)
    ensures forall k :: k in s.status && k !in s.selected ==> r.status[k] == s.status[k]
  {
    Search(Restore(s.status, s.base, s.selected), s.base, false, None, [])
  }

  /** The `finally` of the release handler. */
  function Clear(s: Search): Search
  {
    s.(dragging := false, start := None, selected := [])
  }

  /** `handleCellMouseDown` */
  function Press(s: Search, k: CellKey): Search
  {
    if k in s.status && s.status[k] == Green then
      s.(dragging := true, start := Some(k), selected := [k], status := s.status[k := Yellow])
    else s
  }

  /** `handleCellMouseEnter` */
  function Enter(s: Search, k: CellKey): Search
  {
    if !s.dragging then s
    else if s.start.None? then s.(dragging := false)
    else if k.field != s.start.value.field then ResetToBase(s)
    else if !(k in s.status && s.status[k] == Green) then ResetToBase(s)
    else if k in s.selected then s
    else if |s.selected| >= MaxSelection then ResetToBase(s)
    else s.(selected := s.selected + [k], status := s.status[k := Yellow])
  }

  /** The global `mouseup` listener: a release outside the grid resets a drag. */
  function ReleaseOutside(s: Search): Search
  {
    if s.dragging then ResetToBase(s) else s
  }

  /** `fields.find(f => String(f.id_teren) === String(id))` */
  function FindField(fields: seq<Field>, id: int): (r: Option<Field>)
    ensures r.None? <==> id !in Ids(fields)
    ensures r.Some? ==> (r.value.id == id &&
      exists i :: 0 <= i < |fields| && fields[i] == r.value && forall j :: 0 <= j < i ==> fields[j].id != id)
  {
    if fields == [] then None
    else if fields[0].id == id then Some(fields[0])
    else FindField(fields[1..], id)
  }

  /** `String(hour).padStart(2, "0") + ":00"` */
  function HourLabel(hour: nat): string
  {
    Text.Pad2(hour) + ":00"
  }

  /** `Number(fieldObj.pret_ora || 0)`: the first record with the id, or 0 when there is none. */
  function HourlyPrice(fields: seq<Field>, id: int): real
  {
    var found := FindField(fields, id);
    if found.Some? then found.value.pricePerHour else 0.0
  }

  /**
   * The request of a confirmed release: the release field's record (when
   * found) gives the id and the hourly price; the hours come from the start
   * cell and the last selected key.
   */
  function MakeRequest(start: CellKey, selected: seq<CellKey>, releaseField: int, fields: seq<Field>): Request
    requires selected != []
  {
    var found := FindField(fields, releaseField);
    Request(if found.Some? then Some(found.value.id) else None,
            HourLabel(start.hour), HourLabel(selected[|selected| - 1].hour + 1),
            HourlyPrice(fields, releaseField) * |selected| as real)
  }

  /** The backend reads the hour back from its label. */
  lemma HourLabelPrefix(hour: nat)
    requires hour < 100
    ensures HourPrefix(HourLabel(hour)) == Some(hour)
  {
    HourPrefixOfClock(hour);
  }

  /** The checkout total is the hourly price of the release field times the number of selected hours. */
  lemma RequestTotal(s: Search, releaseField: int, fields: seq<Field>)
    requires s.selected != [] && s.start.Some?
    ensures MakeRequest(s.start.value, s.selected, releaseField, fields).total == HourlyPrice(fields, releaseField) * |s.selected| as real
    ensures releaseField !in Ids(fields) ==> MakeRequest(s.start.value, s.selected, releaseField, fields).total == 0.0
  {
  }

  /** A lookup that stops the booking: an error, or a count at the limit. */
  predicate Blocks(l: FieldsMap.Lookup, limit: nat)
  {
    l.LookupError? || (l.Count? && l.n >= limit)
  }

  /**
   * `handleCellMouseUp` on the cell of field `releaseField`. The second
   * component is the reservation request sent, if any.
   */
  function Release(s: Search, releaseField: int, fields: seq<Field>, o: Outcome): (Search, Option<Request>)
  {
    (Released(s, o), if Sends(s, o) then Some(MakeRequest(s.start.value, s.selected, releaseField, fields)) else None)
  }

  /** The release reaches the backend: a drag with a start cell, a user, both limits clear, and a confirmation. */
  predicate Sends(s: Search, o: Outcome)
  {
    s.dragging && s.selected != [] && s.start.Some? && o.loggedIn
    && !Blocks(o.dayCount, DayLimit) && !Blocks(o.fieldCount, FieldLimit) && o.confirmed
  }

  /** The page state the release handler leaves. */
  function Released(s: Search, o: Outcome): Search
  {
    if !s.dragging then s
    else
      var s1 := s.(dragging := false);
      if s.selected == [] then ResetToBase(s1)
      else if s.start.None? || !o.loggedIn then s1
      else if Blocks(o.dayCount, DayLimit) || Blocks(o.fieldCount, FieldLimit) || !o.confirmed then
        ResetToBase(s1)
      else if o.booking != FieldsMap.Booked then Clear(ResetToBase(s1))
      else
        var live := PaintKeys(s.status, s.selected, Red);
        var s2 := s1.(status := live, base := s.base + live);
        if o.payment == FieldsMap.Redirected then Clear(s2)
        else Clear(ResetToBase(s2))
  }

  predicate Inv(s: Search)
  {
    && |s.selected| <= MaxSelection
    && (forall i, j :: 0 <= i < j < |s.selected| ==> s.selected[i] != s.selected[j])
    && (forall i :: 0 <= i < |s.selected| ==> s.selected[i] in s.status && s.status[s.selected[i]] == Yellow)
    && (forall i :: 0 <= i < |s.selected| ==> s.selected[i].field == s.selected[0].field)
    && (s.selected != [] ==> s.start == Some(s.selected[0]))
    && (s.dragging ==> s.selected != [])
    && s.status.Keys == s.base.Keys
    && (forall k :: k in s.status ==> k.hour < HoursPerDay)
  }

  /** The maps `handleSubmit` installs satisfy the invariant. */
  lemma SubmittedInv(base: map<CellKey, Status>)
    requires forall k :: k in base ==> k.hour < HoursPerDay
    ensures Inv(Search(base, base, false, None, []))
  {
  }

  lemma ResetInv(s: Search)
    requires Inv(s)
    ensures Inv(ResetToBase(s))
  {
  }

  lemma PressInv(s: Search, k: CellKey)
    requires Inv(s)
    ensures Inv(Press(s, k))
  {
  }

  lemma EnterInv(s: Search, k: CellKey)
    requires Inv(s)
    ensures Inv(Enter(s, k))
  {
  }

  lemma ReleaseOutsideInv(s: Search)
    requires Inv(s)
    ensures Inv(ReleaseOutside(s))
  {
  }

  lemma ReleaseInv(s: Search, releaseField: int, fields: seq<Field>, o: Outcome)
    requires Inv(s)
    ensures Inv(Release(s, releaseField, fields, o).0)
  {
    ReleasedInv(s, o);
  }

  lemma ReleasedInv(s: Search, o: Outcome)
    requires Inv(s)
    ensures Inv(Released(s, o))
  {
    if s.dragging {
      var s1 := s.(dragging := false);
      StopInv(s);
      if s.selected == [] {
        ResetInv(s1);
      } else if s.start.None? || !o.loggedIn {
        assert Released(s, o) == s1;
      } else if Blocks(o.dayCount, DayLimit) || Blocks(o.fieldCount, FieldLimit) || !o.confirmed {
        assert Released(s, o) == ResetToBase(s1);
        ResetInv(s1);
      } else if o.booking != FieldsMap.Booked {
        assert Released(s, o) == Clear(ResetToBase(s1));
        ResetKeys(s1);
        IdleInv(Clear(ResetToBase(s1)));
      } else {
        BookedInv(s1);
      }
    }
  }

  lemma StopInv(s: Search)
    requires Inv(s)
    ensures Inv(s.(dragging := false))
  {
  }

  /** After a booking the painted map is both the live and the base map, with the same keys. */
  lemma BookedInv(s: Search)
    requires Inv(s)
    ensures var live := PaintKeys(s.status, s.selected, Red);
      var s2 := s.(status := live, base := s.base + live);
      Inv(Clear(s2)) && Inv(Clear(ResetToBase(s2)))
  {
    var live := PaintKeys(s.status, s.selected, Red);
    var s2 := s.(status := live, base := s.base + live);
    assert live.Keys == s.status.Keys;
    assert s2.base.Keys == s.base.Keys;
    IdleInv(Clear(s2));
    ResetKeys(s2);
    IdleInv(Clear(ResetToBase(s2)));
  }

  /** Restoring keys that are all in the live map adds no key. */
  lemma ResetKeys(s: Search)
    requires forall i :: 0 <= i < |s.selected| ==> s.selected[i] in s.status
    ensures ResetToBase(s).status.Keys == s.status.Keys
  {
  }

  /** With nothing selected and no drag, only the keys matter. */
  lemma IdleInv(s: Search)
    requires !s.dragging && s.selected == []
    requires s.status.Keys == s.base.Keys && forall k :: k in s.status ==> k.hour < HoursPerDay
    ensures Inv(s)
  {
  }

  /** A drag starts only on a green key, and then the selection is exactly that key, now yellow. */
  lemma PressOnlyOnGreen(s: Search, k: CellKey)
    ensures var r := Press(s, k);
      if k in s.status && s.status[k] == Green
      then r.dragging && r.selected == [k] && r.status[k] == Yellow && r.start == Some(k)
      else r == s
  {
  }

  /**
   * During a drag, entering a key of another field or any key that is not
   * green resets the selection; that includes a key already selected, which
   * is yellow.
   */
  lemma EnterAborts(s: Search, k: CellKey)
    requires Inv(s) && s.dragging
    requires k.field != s.start.value.field || k !in s.status || s.status[k] != Green
    ensures Enter(s, k) == ResetToBase(s)
  {
  }

  lemma EnterSelectedAborts(s: Search, i: nat)
    requires Inv(s) && s.dragging && i < |s.selected|
    ensures Enter(s, s.selected[i]) == ResetToBase(s)
  {
  }

  /** Entering a fourth green key resets the selection. */
  lemma EnterFourthAborts(s: Search, k: CellKey)
    requires Inv(s) && s.dragging && |s.selected| == MaxSelection
    requires k.field == s.start.value.field && k in s.status && s.status[k] == Green
    ensures Enter(s, k) == ResetToBase(s)
  {
  }

  /** A release with no drag in progress changes nothing and sends nothing. */
  lemma ReleaseIdle(s: Search, releaseField: int, fields: seq<Field>, o: Outcome)
    requires !s.dragging
    ensures Release(s, releaseField, fields, o) == (s, None)
  {
  }

  /** A failed lookup, a limit hit or a declined confirmation resets the selection and sends nothing. */
  lemma ReleaseBlocked(s: Search, releaseField: int, fields: seq<Field>, o: Outcome)
    requires Inv(s) && s.dragging && o.loggedIn
    requires Blocks(o.dayCount, DayLimit) || Blocks(o.fieldCount, FieldLimit) || !o.confirmed
    ensures Release(s, releaseField, fields, o) == (ResetToBase(s.(dragging := false)), None)
  {
  }

  /** A confirmed release past the limits sends `MakeRequest`. */
  lemma ReleaseSendsRequest(s: Search, releaseField: int, fields: seq<Field>, o: Outcome)
    requires Inv(s) && s.dragging && o.loggedIn && o.confirmed
    requires !Blocks(o.dayCount, DayLimit) && !Blocks(o.fieldCount, FieldLimit)
    ensures Release(s, releaseField, fields, o).1 == Some(MakeRequest(s.start.value, s.selected, releaseField, fields))
  {
  }

  /**
   * The request asks for the zero-padded first selected hour to the
   * zero-padded last selected hour + 1, with no adjacency or order check, at
   * the release field's price times the selection size; the backend reads the
   * two hours back from the labels.
   */
  lemma RequestContents(s: Search, releaseField: int, fields: seq<Field>)
    requires Inv(s) && s.selected != []
    ensures var req := MakeRequest(s.start.value, s.selected, releaseField, fields);
      var first, last := s.selected[0], s.selected[|s.selected| - 1];
      && req.from == HourLabel(first.hour)
      && req.to == HourLabel(last.hour + 1)
      && HourPrefix(req.from) == Some(first.hour)
      && HourPrefix(req.to) == Some(last.hour + 1)
  {
    var first, last := s.selected[0], s.selected[|s.selected| - 1];
    assert first in s.status && last in s.status;
    HourLabelPrefix(first.hour);
    HourLabelPrefix(last.hour + 1);
  }

  /**
   * After a successful booking every selected key is red in the live map and
   * in the base map, whatever the checkout did, and the selection is cleared.
   */
  lemma BookedStaysRed(s: Search, releaseField: int, fields: seq<Field>, o: Outcome)
    requires Inv(s) && s.dragging && o.loggedIn && o.confirmed
    requires !Blocks(o.dayCount, DayLimit) && !Blocks(o.fieldCount, FieldLimit)
    requires o.booking == FieldsMap.Booked
    ensures var r := Release(s, releaseField, fields, o).0;
      && !r.dragging && r.selected == [] && r.start == None
      && forall i :: 0 <= i < |s.selected| ==> r.status[s.selected[i]] == Red && r.base[s.selected[i]] == Red
  {
  }

  /** Without a logged-in user the release stops the drag but leaves the selection yellow. */
  lemma ReleaseWithoutUser(s: Search, releaseField: int, fields: seq<Field>, o: Outcome)
    requires Inv(s) && s.dragging && !o.loggedIn
    ensures Release(s, releaseField, fields, o) == (s.(dragging := false), None)
  {
  }

  // ---------------------------------------------------------------- the component

  /** The component's refs and state. */
  class SearchGrid {
    var status: map<CellKey, Status>
    var base: map<CellKey, Status>
    var dragging: bool
    var start: Option<CellKey>
    var selected: seq<CellKey>
    var error: string

    ghost function State(): Search
      reads this
    {
      Search(status, base, dragging, start, selected)
    }

    constructor ()
      ensures State() == Search(map[], map[], false, None, []) && error == ""
    {
      status, base, dragging, start, selected, error := map[], map[], false, None, [], "";
    }

    /**
     * `handleSubmit`: clear everything; without a date, without a reply
     * (`found` is `None` when the request or its JSON fails) or without fields
     * report the error; otherwise install the base map as the live map. An
     * unsuccessful reply or one without fields arrives as `Some([])`.
     */
    method Submit(date: Option<int>, found: Option<seq<Field>>)
      modifies this
      ensures date.None? ==> State() == Search(map[], map[], false, None, []) && error == NoDateError
      ensures date.Some? && found.None? ==> State() == Search(map[], map[], false, None, []) && error == SearchError
      ensures date.Some? && found == Some([]) ==> State() == Search(map[], map[], false, None, []) && error == NoFieldsError
      ensures date.Some? && found.Some? && found.value != [] ==> (error == "" && Inv(State())
        && status == base && !dragging && selected == []
        && (forall k :: k in base <==> k.hour < HoursPerDay && k.field in Ids(found.value))
        && (forall i, h :: 0 <= i < |found.value| && 0 <= h < HoursPerDay && LastWithId(found.value, i) ==>
              CellKey(found.value[i].id, h) in base && base[CellKey(found.value[i].id, h)] == Colour(found.value[i], date.value, h)))
    {
      error := "";
      status, base, dragging, start, selected := map[], map[], false, None, [];
      if date.None? {
        error := NoDateError;
        return;
      }
      if found.None? {
        error := SearchError;
        return;
      }
      if found.value == [] {
        error := NoFieldsError;
        return;
      }
      var computed := ComputeBase(found.value, date.value);
      base := computed;
      status := computed;
    }

    /** `resetSelectedCellsToBase`, with its `forEach` over the selected keys. */
    method ResetSelectedToBase()
      modifies this
      ensures State() == ResetToBase(old(State()))
    {
      var copy := status;
      var i := 0;
      while i < |selected|
        invariant 0 <= i <= |selected|
        invariant copy == Restore(status, base, selected[..i])
      {
        assert selected[..i + 1][..i] == selected[..i];
        var k := selected[i];
        copy := copy[k := BaseOr(base, k)];
        i := i + 1;
      }
      assert selected[..i] == selected;
      status := copy;
      selected := [];
      start := None;
      dragging := false;
    }

    method MouseDown(k: CellKey)
      modifies this
      ensures State() == Press(old(State()), k)
    {
      if k !in status || status[k] != Green {
        return;
      }
      dragging := true;
      start := Some(k);
      selected := [k];
      status := status[k := Yellow];
    }

    method MouseEnter(k: CellKey)
      modifies this
      ensures State() == Enter(old(State()), k)
    {
      if !dragging {
        return;
      }
      if start.None? {
        dragging := false;
        return;
      }
      if k.field != start.value.field {
        dragging := false;
        ResetSelectedToBase();
        return;
      }
      if k !in status || status[k] != Green {
        dragging := false;
        ResetSelectedToBase();
        return;
      }
      if k in selected {
        return;
      }
      if |selected| >= MaxSelection {
        dragging := false;
        ResetSelectedToBase();
        return;
      }
      selected := selected + [k];
      status := status[k := Yellow];
    }

    method GlobalMouseUp()
      modifies this
      ensures State() == ReleaseOutside(old(State()))
    {
      if dragging {
        ResetSelectedToBase();
      }
    }

    method MouseUp(releaseField: int, fields: seq<Field>, o: Outcome) returns (req: Option<Request>)
      modifies this
      ensures State() == Release(old(State()), releaseField, fields, o).0
      ensures req == Release(old(State()), releaseField, fields, o).1
    {
      req := None;
      ghost var s0 := State();
      if !dragging {
        return;
      }
      dragging := false;
      ghost var s1 := State();
      assert s1 == s0.(dragging := false);
      if selected == [] {
        ResetSelectedToBase();
        return;
      }
      if start.None? || !o.loggedIn {
        return;
      }
      if Blocks(o.dayCount, DayLimit) || Blocks(o.fieldCount, FieldLimit) || !o.confirmed {
        ResetSelectedToBase();
        return;
      }
      req := Some(MakeRequest(start.value, selected, releaseField, fields));
      if o.booking == FieldsMap.Booked {
        status := PaintKeys(status, selected, Red);
        base := base + status;
        ghost var s2 := State();
        assert s2 == s1.(status := PaintKeys(s0.status, s0.selected, Red),
                         base := s0.base + PaintKeys(s0.status, s0.selected, Red));
        if o.payment != FieldsMap.Redirected {
          ResetSelectedToBase();
          assert State() == ResetToBase(s2);
        }
      } else {
        ResetSelectedToBase();
        assert State() == ResetToBase(s1);
      }
      selected := [];
      start := None;
      dragging := false;
    }
  }
}

=== FILE: set_new_password.dfy ===
/**
 * The new-password form: the same complexity rule written as an object of
 * five checks reduced with `every(Boolean)`, and the two-flag alert record.
 */
module SetNewPassword {
  import Text
  import Register

  /** `passwordChecks`, in the order of `Object.values`. */
  function CheckValues(password: string): (vs: seq<bool>)
    ensures |vs| == 5
  {
    [Text.HasUpper(password), Text.HasLower(password), Text.HasDigit(password),
     Text.HasCharIn(password, Register.SpecialChars),
     |password| >= 8 && |password| <= 12]
  }

  /** `Object.values(passwordChecks).every(Boolean)` */
  predicate IsPasswordComplex(password: string)
  {
    forall i :: 0 <= i < |CheckValues(password)| ==> CheckValues(password)[i]
  }

  /** The rule is the registration form's rule. */
  lemma SameRuleAsRegister(password: string)
    ensures IsPasswordComplex(password) <==> Register.IsPasswordComplex(password)
  {
    var vs := CheckValues(password);
    if Register.IsPasswordComplex(password) {
      assert forall i :: 0 <= i < 5 ==> vs[i];
    }
    if IsPasswordComplex(password) {
      assert vs[0] && vs[1] && vs[2] && vs[3] && vs[4];
    }
  }

  /** The form's `alerts` state. */
  datatype Alerts = Alerts(passwordComplexity: bool, differentPasswords: bool)

  /**
   * `validatePasswords`: a password that is not complex raises only
   * `passwordComplexity`; a complex one that differs from its confirmation
   * raises only `differentPasswords`; otherwise both are cleared and it passes.
   */
  function ValidatePasswords(password: string, confirm: string): (r: (bool, Alerts))
    ensures r.0 <==> Register.IsPasswordComplex(password) && password == confirm
    ensures !Register.IsPasswordComplex(password) ==> r.1 == Alerts(true, false)
    ensures Register.IsPasswordComplex(password) && password != confirm ==> r.1 == Alerts(false, true)
    ensures r.0 ==> r.1 == Alerts(false, false)
    ensures !(r.1.passwordComplexity && r.1.differentPasswords)
  {
    SameRuleAsRegister(password);
    if !IsPasswordComplex(password) then (false, Alerts(true, false))
    else if password != confirm then (false, Alerts(false, true))
    else (true, Alerts(false, false))
  }

  /** `handleSubmit`: the new password is sent only when validation passes. */
  function Submit(password: string, confirm: string): (sent: bool)
    ensures sent <==> Register.IsPasswordComplex(password) && password == confirm
  {
    ValidatePasswords(password, confirm).0
  }
}

=== FILE: text.dfy ===
/**
 * The string operations of JavaScript that the application's rules are built
 * from: trim, toLowerCase, endsWith, split on a literal separator, join,
 * padStart(2, "0"), parseInt(_, 10) and the `<` / `<=` order on strings.
 * Strings are sequences of characters; every character the rules look at is
 * in the Basic Multilingual Plane, so one character is one UTF-16 code unit.
 */
module Text {
  import opened Wrappers

  /** The characters matched by `\s` and removed by `String.prototype.trim`. */
  predicate IsSpace(c: char)
  {
    if c <= ' ' then c == ' ' || '\t' <= c <= '\r'
    else '\U{00A0}' <= c && WideSpace(c)
  }

  /** The white space above U+00A0: no-break, Ogham, the typographic spaces and U+FEFF. */
  predicate WideSpace(c: char)
  {
    || c == '\U{00A0}' || c == '\U{1680}' || ('\U{2000}' <= c <= '\U{200A}')
    || c == '\U{2028}' || c == '\U{2029}' || c == '\U{202F}' || c == '\U{205F}'
    || c == '\U{3000}' || c == '\U{FEFF}'
  }

  /** `[0-9]`, `[A-Z]`, `[a-z]` */
  predicate IsDigit(c: char) { '0' <= c <= '9' }
  predicate IsUpper(c: char) { 'A' <= c <= 'Z' }
  predicate IsLower(c: char) { 'a' <= c <= 'z' }

  /** `/[...]/.test(s)` for a character class given as a predicate. */
  predicate HasDigit(s: string) { exists i :: 0 <= i < |s| && IsDigit(s[i]) }
  predicate HasUpper(s: string) { exists i :: 0 <= i < |s| && IsUpper(s[i]) }
  predicate HasLower(s: string) { exists i :: 0 <= i < |s| && IsLower(s[i]) }
  predicate HasCharIn(s: string, chars: set<char>) { exists i :: 0 <= i < |s| && s[i] in chars }

  // ---------------------------------------------------------------- trim

  function TrimStart(s: string): (r: string)
    ensures |r| <= |s| && r == s[|s| - |r|..]
    ensures r == [] || !IsSpace(r[0])
  {
    if s != [] && IsSpace(s[0]) then TrimStart(s[1..]) else s
  }

  /** What `TrimStart` removes is white space. */
  lemma {:induction false} TrimStartSpace(s: string)
    ensures forall i :: 0 <= i < |s| - |TrimStart(s)| ==> IsSpace(s[i])
  {
    if s != [] && IsSpace(s[0]) {
      TrimStartSpace(s[1..]);
      assert forall i :: 1 <= i < |s| ==> s[i] == s[1..][i - 1];
    }
  }

  function TrimEnd(s: string): (r: string)
    ensures |r| <= |s| && r == s[..|r|]
    ensures r == [] || !IsSpace(r[|r| - 1])
  {
    if s != [] && IsSpace(s[|s| - 1]) then TrimEnd(s[..|s| - 1]) else s
  }

  /** What `TrimEnd` removes is white space. */
  lemma {:induction false} TrimEndSpace(s: string)
    ensures forall i :: |TrimEnd(s)| <= i < |s| ==> IsSpace(s[i])
  {
    if s != [] && IsSpace(s[|s| - 1]) {
      TrimEndSpace(s[..|s| - 1]);
    }
  }

  /** `s.trim()`: white space is removed at both ends (and, by TrimKeeps, nowhere else). */
  function Trim(s: string): (r: string)
    ensures |r| <= |s|
    ensures r == [] || (!IsSpace(r[0]) && !IsSpace(r[|r| - 1]))
  {
    TrimEnd(TrimStart(s))
  }

  /** Trimming loses only white space and adds nothing. */
  lemma TrimKeeps(s: string)
    ensures forall c :: c in Trim(s) ==> c in s
    ensures forall c :: c in s && !IsSpace(c) ==> c in Trim(s)
  {
    TrimStartKeeps(s);
    TrimEndKeeps(TrimStart(s));
  }

  lemma {:induction false} TrimStartKeeps(s: string)
    ensures forall c :: c in TrimStart(s) ==> c in s
    ensures forall c :: c in s && !IsSpace(c) ==> c in TrimStart(s)
  {
    if s != [] && IsSpace(s[0]) {
      TrimStartKeeps(s[1..]);
      assert forall c :: c in s ==> c == s[0] || c in s[1..];
    }
  }

  lemma {:induction false} TrimEndKeeps(s: string)
    ensures forall c :: c in TrimEnd(s) ==> c in s
    ensures forall c :: c in s && !IsSpace(c) ==> c in TrimEnd(s)
  {
    if s != [] && IsSpace(s[|s| - 1]) {
      var init := s[..|s| - 1];
      TrimEndKeeps(init);
      assert forall c :: c in s ==> c == s[|s| - 1] || c in init by {
        assert s == init + [s[|s| - 1]];
      }
    }
  }

  lemma TrimOfTrimmed(s: string)
    requires s == [] || (!IsSpace(s[0]) && !IsSpace(s[|s| - 1]))
    ensures Trim(s) == s
  {
  }

  // ---------------------------------------------------------------- case and affixes

  function LowerChar(c: char): (r: char)
    ensures IsUpper(c) ==> IsLower(r)
    ensures !IsUpper(c) ==> r == c
  {
    if IsUpper(c) then (c as int + 32) as char else c
  }

  /** `s.toLowerCase()` on the ASCII letters. */
  function ToLower(s: string): (r: string)
    ensures |r| == |s|
    ensures forall i :: 0 <= i < |s| ==> r[i] == LowerChar(s[i])
  {
    seq(|s|, i requires 0 <= i < |s| => LowerChar(s[i]))
  }

  /** `s.endsWith(suffix)` */
  predicate EndsWith(s: string, suffix: string)
  {
    |suffix| <= |s| && s[|s| - |suffix|..] == suffix
  }

  // ---------------------------------------------------------------- split and join

  /** `sep` occurs somewhere in `s`. */
  predicate Contains(s: string, sep: string)
  {
    sep <= s || (s != [] && Contains(s[1..], sep))
  }

  /**
   * `s.split(sep)` for a non-empty literal separator: scanning from the left,
   * every occurrence of `sep` ends one piece; the pieces between occurrences
   * are kept, empty ones included.
   */
  function Split(s: string, sep: string): (r: seq<string>)
    requires sep != []
    ensures |r| >= 1
    decreases |s|
  {
    if s == [] then [""]
    else if sep <= s then [""] + Split(s[|sep|..], sep)
    else
      var rest := Split(s[1..], sep);
      [[s[0]] + rest[0]] + rest[1..]
  }

  /** `xs.join(sep)` */
  function Join(xs: seq<string>, sep: string): string
  {
    if |xs| == 0 then ""
    else if |xs| == 1 then xs[0]
    else xs[0] + sep + Join(xs[1..], sep)
  }

  lemma {:induction false} SplitWithoutSeparator(s: string, sep: string)
    requires sep != [] && !Contains(s, sep)
    ensures Split(s, sep) == [s]
    decreases |s|
  {
    if s != [] {
      SplitWithoutSeparator(s[1..], sep);
      assert [s[0]] + s[1..] == s;
    }
  }

  /** No occurrence of `sep` starts inside `x` when `x` is followed by `t`. */
  predicate NoMatchStartsIn(x: string, t: string, sep: string)
    decreases |x|
  {
    x == [] || (!(sep <= x + t) && NoMatchStartsIn(x[1..], t, sep))
  }

  lemma {:induction false} SplitAfterPiece(x: string, sep: string, rest: string)
    requires sep != []
    requires NoMatchStartsIn(x, sep + rest, sep)
    ensures Split(x + sep + rest, sep) == [x] + Split(rest, sep)
    decreases |x|
  {
    var s := x + sep + rest;
    if x == [] {
      assert s == sep + rest;
      assert s[|sep|..] == rest;
    } else {
      assert x + (sep + rest) == s;
      assert s[1..] == x[1..] + sep + rest;
      SplitAfterPiece(x[1..], sep, rest);
      assert [x[0]] + x[1..] == x;
    }
  }

  /** A piece that does not hold the separator's first character cannot start a match. */
  lemma {:induction false} NoFirstCharNoMatch(x: string, t: string, sep: string)
    requires sep != [] && sep[0] !in x
    ensures NoMatchStartsIn(x, t, sep)
    decreases |x|
  {
    if x != [] {
      assert (x + t)[0] == x[0];
      assert x[1..] + t == (x + t)[1..];
      NoFirstCharNoMatch(x[1..], t, sep);
    }
  }

  const ListSeparator: string := ", "

  /** For ", " a match can neither straddle a piece's end nor start inside the separator. */
  lemma {:induction false} CommaSpaceNoStraddle(x: string, rest: string)
    requires !Contains(x, ListSeparator)
    ensures NoMatchStartsIn(x, ListSeparator + rest, ListSeparator)
    decreases |x|
  {
    if x != [] {
      var t := ListSeparator + rest;
      if |x| >= 2 {
        assert (x + t)[..2] == x[..2];
        assert !(ListSeparator <= x);
      } else {
        assert (x + t)[1] == ',';
      }
      CommaSpaceNoStraddle(x[1..], rest);
    }
  }

  /** Splitting a joined list on ", " gives the list back. */
  lemma {:induction false} SplitJoinCommaSpace(xs: seq<string>)
    requires xs != []
    requires forall i :: 0 <= i < |xs| ==> !Contains(xs[i], ListSeparator)
    ensures Split(Join(xs, ListSeparator), ListSeparator) == xs
    decreases |xs|
  {
    if |xs| == 1 {
      SplitWithoutSeparator(xs[0], ListSeparator);
    } else {
      var rest := Join(xs[1..], ListSeparator);
      CommaSpaceNoStraddle(xs[0], rest);
      SplitAfterPiece(xs[0], ListSeparator, rest);
      SplitJoinCommaSpace(xs[1..]);
      assert [xs[0]] + xs[1..] == xs;
    }
  }

  // ---------------------------------------------------------------- numbers

  function DigitChar(d: nat): (c: char)
    requires d < 10
    ensures IsDigit(c) && c as int - 48 == d
  {
    (48 + d) as char
  }

  predicate AllDigits(s: string) { forall i :: 0 <= i < |s| ==> IsDigit(s[i]) }

  /** `String(n)` for a natural number. */
  function NatToDecimal(n: nat): (r: string)
    ensures |r| >= 1 && AllDigits(r)
    ensures n < 10 <==> |r| == 1
  {
    if n < 10 then [DigitChar(n)] else NatToDecimal(n / 10) + [DigitChar(n % 10)]
  }

  /** `s.padStart(2, "0")` */
  function PadStart2(s: string): (r: string)
    ensures |r| == if |s| < 2 then 2 else |s|
  {
    if |s| == 0 then "00" else if |s| == 1 then "0" + s else s
  }

  /** `n.toString().padStart(2, "0")` */
  function Pad2(n: nat): (r: string)
    ensures AllDigits(r)
    ensures n < 100 ==> r == [DigitChar(n / 10), DigitChar(n % 10)]
  {
    var ds := NatToDecimal(n);
    assert n < 10 ==> ds == [DigitChar(n)] && DigitChar(0) == '0';
    assert 10 <= n < 100 ==> NatToDecimal(n / 10) == [DigitChar(n / 10)];
    PadStart2(ds)
  }

  /** The value of a run of decimal digits, most significant first. */
  function DigitsValue(ds: string): nat
    requires AllDigits(ds)
  {
    if ds == [] then 0 else 10 * DigitsValue(ds[..|ds| - 1]) + (ds[|ds| - 1] as int - 48)
  }

  lemma {:induction false} DecimalRoundTrip(n: nat)
    ensures DigitsValue(NatToDecimal(n)) == n
  {
    if n >= 10 {
      var r := NatToDecimal(n);
      assert r[..|r| - 1] == NatToDecimal(n / 10);
      DecimalRoundTrip(n / 10);
    }
  }

  lemma Pad2RoundTrip(n: nat)
    requires n < 100
    ensures DigitsValue(Pad2(n)) == n
  {
    var r := Pad2(n);
    assert r[..|r| - 1] == [DigitChar(n / 10)];
    assert r[..|r| - 1][..0] == [];
    assert DigitsValue(r[..|r| - 1]) == n / 10;
  }

  /** The longest run of digits at the start of `s`. */
  function LeadingDigits(s: string): (r: string)
    ensures r <= s && AllDigits(r)
    ensures |r| < |s| ==> !IsDigit(s[|r|])
  {
    if s != [] && IsDigit(s[0]) then [s[0]] + LeadingDigits(s[1..]) else []
  }

  /** A run of digits followed by a non-digit is exactly the leading run. */
  lemma {:induction false} LeadingDigitsOf(digits: string, rest: string)
    requires AllDigits(digits)
    requires rest == [] || !IsDigit(rest[0])
    ensures LeadingDigits(digits + rest) == digits
  {
    if digits == [] {
      assert digits + rest == rest;
    } else {
      assert (digits + rest)[1..] == digits[1..] + rest;
      LeadingDigitsOf(digits[1..], rest);
      assert [digits[0]] + digits[1..] == digits;
    }
  }

  /**
   * `parseInt(s, 10)`: leading white space is skipped, an optional sign is read,
   * then the longest run of digits; no digit at all gives NaN (None).
   */
  function ParseInt(s: string): Option<int>
  {
    var t := TrimStart(s);
    var negative := t != [] && t[0] == '-';
    var body := if t != [] && (t[0] == '-' || t[0] == '+') then t[1..] else t;
    var ds := LeadingDigits(body);
    if ds == [] then None
    else if negative then Some(-(DigitsValue(ds) as int))
    else Some(DigitsValue(ds))
  }

  lemma ParseIntOfPad2(n: nat)
    requires n < 100
    ensures ParseInt(Pad2(n)) == Some(n)
  {
    var r := Pad2(n);
    assert TrimStart(r) == r;
    assert LeadingDigits(r[1..][1..]) == [];
    assert LeadingDigits(r) == r;
    Pad2RoundTrip(n);
  }

  // ---------------------------------------------------------------- string order

  /** JavaScript's `a < b` on strings: lexicographic by character. */
  predicate LexLess(a: string, b: string)
  {
    if a == [] then b != []
    else if b == [] then false
    else if a[0] != b[0] then a[0] < b[0]
    else LexLess(a[1..], b[1..])
  }

  /** JavaScript's `a <= b` on strings. */
  predicate LexLessEq(a: string, b: string)
  {
    !LexLess(b, a)
  }

  /** The zero-padded "HH:MM" text the backend builds from an hour and a minute. */
  function ClockText(hour: nat, minute: nat): string
  {
    Pad2(hour) + ":" + Pad2(minute)
  }

  lemma DigitCharOrder(x: nat, y: nat)
    requires x < 10 && y < 10
    ensures DigitChar(x) < DigitChar(y) <==> x < y
    ensures DigitChar(x) == DigitChar(y) <==> x == y
  {
  }

  /** `<` on zero-padded "HH:MM" texts is the order of (hour, minute) pairs. */
  lemma ClockTextLess(h1: nat, m1: nat, h2: nat, m2: nat)
    requires h1 < 100 && m1 < 100 && h2 < 100 && m2 < 100
    ensures LexLess(ClockText(h1, m1), ClockText(h2, m2)) <==> (h1 < h2 || (h1 == h2 && m1 < m2))
  {
    var a, b := ClockText(h1, m1), ClockText(h2, m2);
    assert a == [DigitChar(h1 / 10), DigitChar(h1 % 10), ':', DigitChar(m1 / 10), DigitChar(m1 % 10)];
    assert b == [DigitChar(h2 / 10), DigitChar(h2 % 10), ':', DigitChar(m2 / 10), DigitChar(m2 % 10)];
    DigitCharOrder(h1 / 10, h2 / 10);
    DigitCharOrder(h1 % 10, h2 % 10);
    DigitCharOrder(m1 / 10, m2 / 10);
    DigitCharOrder(m1 % 10, m2 % 10);
    var a1, b1 := a[1..], b[1..];
    var a2, b2 := a1[1..], b1[1..];
    var a3, b3 := a2[1..], b2[1..];
    var a4, b4 := a3[1..], b3[1..];
    assert a4[1..] == [] && b4[1..] == [];
    if h1 / 10 != h2 / 10 {
      assert LexLess(a, b) <==> h1 / 10 < h2 / 10;
    } else if h1 % 10 != h2 % 10 {
      assert LexLess(a, b) <==> LexLess(a1, b1);
      assert LexLess(a1, b1) <==> h1 % 10 < h2 % 10;
    } else {
      assert h1 == h2;
      assert LexLess(a, b) <==> LexLess(a1, b1);
      assert LexLess(a1, b1) <==> LexLess(a2, b2);
      assert LexLess(a2, b2) <==> LexLess(a3, b3);
      if m1 / 10 != m2 / 10 {
        assert LexLess(a3, b3) <==> m1 / 10 < m2 / 10;
      } else {
        assert LexLess(a3, b3) <==> LexLess(a4, b4);
        assert LexLess(a4, b4) <==> m1 % 10 < m2 % 10;
      }
    }
  }

  /** Comparing zero-padded "HH:MM" texts with `<=` is comparing (hour, minute) pairs. */
  lemma ClockTextOrder(h1: nat, m1: nat, h2: nat, m2: nat)
    requires h1 < 100 && m1 < 100 && h2 < 100 && m2 < 100
    ensures LexLessEq(ClockText(h1, m1), ClockText(h2, m2)) <==> (h1 < h2 || (h1 == h2 && m1 <= m2))
  {
    ClockTextLess(h2, m2, h1, m1);
  }
}

=== FILE: training_plan.dfy ===
/**
 * The text side of the training-plan endpoint: the fixed exercise dictionary
 * in front of the translation service, the exercise-name pattern
 * `(?:Exercitiu \d+ - |\* )?([^:-]+)`, and the parser that cuts the
 * generated text into numbered days and their exercise lines.
 */
module TrainingPlan {
  import opened Wrappers
  import Text

  // ---------------------------------------------------------------- translateText

  /** `exerciseDictionary`: the entry for a normalised word, if there is one. */
  function Dictionary(key: string): Option<string>
  {
    if key == "incalzire" then Some("warming-up")
    else if key == "sut" then Some("shooting")
    else if key == "genuflexiuni" then Some("squats")
    else if key == "flotari" then Some("push-ups")
    else if key == "abdomen" then Some("core exercises")
    else if key == "alergare" then Some("running")
    else if key == "sarituri" then Some("jumping")
    else if key == "jonglerii" then Some("juggling")
    else if key == "pasare" || key == "pase" then Some("passing")
    else if key == "dribbling" then Some("dribbling")
    else None
  }

  /** `text.trim().toLowerCase()` */
  function Normalize(text: string): string
  {
    Text.ToLower(Text.Trim(text))
  }

  /**
   * `translateText`: the dictionary entry of the normalised text when there is
   * one; otherwise the service's answer, or the original text when the call
   * fails (None).
   */
  function TranslateText(text: string, service: Option<string>): (r: string)
    ensures Dictionary(Normalize(text)).Some? ==> r == Dictionary(Normalize(text)).value
    ensures Dictionary(Normalize(text)).None? ==> r == service.GetOr(text)
  {
    match Dictionary(Normalize(text))
    case Some(english) => english
    case None => service.GetOr(text)
  }

  /** A dictionary word is translated without consulting the service at all. */
  lemma DictionaryIgnoresService(text: string, a: Option<string>, b: Option<string>)
    requires Dictionary(Normalize(text)).Some?
    ensures TranslateText(text, a) == TranslateText(text, b)
    ensures TranslateText(text, a) != ""
  {
    DictionaryNonEmpty(Normalize(text));
  }

  /** Every dictionary entry is a non-empty word. */
  lemma DictionaryNonEmpty(key: string)
    ensures Dictionary(key).Some? ==> Dictionary(key).value != ""
  {
  }

  // ---------------------------------------------------------------- extractExerciseName

  /** The characters `[^:-]` excludes. */
  predicate IsStop(c: char) { c == ':' || c == '-' }

  /** `[^:-]+` taken greedily: the longest prefix without ':' or '-'. */
  function NameRun(s: string): (r: string)
    ensures r <= s
    ensures forall c :: c in r ==> !IsStop(c) && c in s
    ensures |r| < |s| ==> IsStop(s[|r|])
  {
    if s != [] && !IsStop(s[0]) then [s[0]] + NameRun(s[1..]) else []
  }

  /** The suffix that starts at the first character the group can begin with. */
  function SkipStops(s: string): (r: string)
    ensures |r| <= |s|
    ensures forall c :: c in r ==> c in s
    ensures r == [] <==> forall i :: 0 <= i < |s| ==> IsStop(s[i])
    ensures r != [] ==> !IsStop(r[0])
  {
    if s != [] && IsStop(s[0]) then SkipStops(s[1..]) else s
  }

  const BulletPrefix: string := "* "
  const NumberedPrefix: string := "Exercitiu "
  const NumberedSeparator: string := " - "

  /** The length of the optional prefix `Exercitiu \d+ - ` or `\* ` at the start of `t`, or 0. */
  function PrefixLength(t: string): (n: nat)
    ensures n <= |t|
  {
    if BulletPrefix <= t then |BulletPrefix|
    else if NumberedPrefix <= t then
      var ds := Text.LeadingDigits(t[|NumberedPrefix|..]);
      var after := |NumberedPrefix| + |ds|;
      if ds != [] && NumberedSeparator <= t[after..] then after + |NumberedSeparator| else 0
    else 0
  }

  /** The captured group when the match starts at `t[0]`: after the prefix if a name follows it, else from `t[0]`. */
  function Group(t: string): (g: string)
    ensures forall c :: c in g ==> !IsStop(c) && c in t
  {
    var p := PrefixLength(t);
    if 0 < p < |t| && !IsStop(t[p]) then
      var g := NameRun(t[p..]);
      assert forall c :: c in t[p..] ==> c in t by {
        forall c | c in t[p..] ensures c in t {
          var i :| 0 <= i < |t[p..]| && t[p..][i] == c;
          assert t[p + i] == c;
        }
      }
      g
    else NameRun(t)
  }

  /**
   * `extractExerciseName`: the trimmed group of the first match, or None
   * (`null`) when the text has no character the group can start with.
   */
  function ExtractExerciseName(s: string): (r: Option<string>)
    ensures r.None? <==> forall i :: 0 <= i < |s| ==> IsStop(s[i])
    ensures r.Some? ==> forall c :: c in r.value ==> !IsStop(c) && c in s
    ensures r.Some? ==> r.value == [] || (!Text.IsSpace(r.value[0]) && !Text.IsSpace(r.value[|r.value| - 1]))
  {
    var t := SkipStops(s);
    if t == [] then None
    else
      var g := Group(t);
      Text.TrimKeeps(g);
      Some(Text.Trim(g))
  }

  /** After "* ", the name starts at the first character that is not ':' or '-'. */
  lemma BulletSkipped(rest: string)
    requires rest != [] && !IsStop(rest[0])
    ensures Group(BulletPrefix + rest) == NameRun(rest)
  {
    var t := BulletPrefix + rest;
    assert BulletPrefix <= t;
    assert t[2..] == rest;
  }

  /** After "Exercitiu N - ", likewise. */
  lemma NumberedSkipped(digits: string, rest: string)
    requires digits != [] && Text.AllDigits(digits)
    requires rest != [] && !IsStop(rest[0])
    ensures Group(NumberedPrefix + digits + NumberedSeparator + rest) == NameRun(rest)
  {
    var head := NumberedPrefix + digits;
    NumberedPrefixLength(digits, NumberedSeparator + rest);
    SeqAssoc(head, NumberedSeparator, rest);
    GroupAt(head + NumberedSeparator, rest);
  }

  /** When the prefix is exactly `head` and a name follows it, the group is that name. */
  lemma GroupAt(head: string, rest: string)
    requires PrefixLength(head + rest) == |head|
    requires rest != [] && !IsStop(rest[0])
    ensures Group(head + rest) == NameRun(rest)
  {
    var t := head + rest;
    assert t[|head|..] == rest;
    assert t[|head|] == rest[0];
  }

  /** "Exercitiu ", digits and " - " make up the whole optional prefix. */
  lemma NumberedPrefixLength(digits: string, tail: string)
    requires digits != [] && Text.AllDigits(digits)
    requires NumberedSeparator <= tail
    ensures PrefixLength(NumberedPrefix + digits + tail) == |NumberedPrefix| + |digits| + |NumberedSeparator|
  {
    var t := NumberedPrefix + digits + tail;
    assert t[0] == 'E';
    assert t[..|NumberedPrefix|] == NumberedPrefix;
    assert t[|NumberedPrefix|..] == digits + tail;
    assert tail[0] == ' ';
    Text.LeadingDigitsOf(digits, tail);
    assert t[|NumberedPrefix| + |digits|..] == tail;
  }

  // ---------------------------------------------------------------- day sections

  /** `\d+\.\s?[A-Z][a-z]+` at the start of `t`, the look-ahead of the day split. */
  predicate IsHeader(t: string)
  {
    var n := |Text.LeadingDigits(t)|;
    n > 0 && n < |t| && t[n] == '.' &&
    (UpperLower(t[n + 1..]) || (n + 1 < |t| && Text.IsSpace(t[n + 1]) && UpperLower(t[n + 2..])))
  }

  predicate UpperLower(t: string)
  {
    |t| >= 2 && Text.IsUpper(t[0]) && Text.IsLower(t[1])
  }

  /** `split(/\n(?=\d+\.\s?[A-Z][a-z]+)/)`: cut at each newline that a day header follows. */
  function SplitDays(s: string): (r: seq<string>)
    ensures |r| >= 1
    decreases |s|
  {
    if s == [] then [""]
    else if s[0] == '\n' && IsHeader(s[1..]) then [""] + SplitDays(s[1..])
    else
      var rest := SplitDays(s[1..]);
      [[s[0]] + rest[0]] + rest[1..]
  }

  /** Rejoining the pieces with the newlines the split consumed gives the text back. */
  lemma {:induction false} SplitDaysJoin(s: string)
    ensures Text.Join(SplitDays(s), "\n") == s
    decreases |s|
  {
    if s != [] {
      SplitDaysJoin(s[1..]);
      JoinStep(s);
      assert s == [s[0]] + s[1..];
    }
  }

  /** One character of the text adds one character to the rejoined pieces. */
  lemma JoinStep(s: string)
    requires s != []
    ensures Text.Join(SplitDays(s), "\n") == [s[0]] + Text.Join(SplitDays(s[1..]), "\n")
  {
    var rest := SplitDays(s[1..]);
    if s[0] == '\n' && IsHeader(s[1..]) {
      assert SplitDays(s) == [""] + rest;
      JoinCons("", rest);
    } else {
      assert SplitDays(s) == [[s[0]] + rest[0]] + rest[1..];
      JoinGlue(s[0], rest);
    }
  }

  /** A character glued to the first piece comes first in the rejoined text. */
  lemma JoinGlue(c: char, rest: seq<string>)
    requires rest != []
    ensures Text.Join([[c] + rest[0]] + rest[1..], "\n") == [c] + Text.Join(rest, "\n")
  {
    var x, more := rest[0], rest[1..];
    assert rest == [x] + more;
    JoinCons([c] + x, more);
    JoinCons(x, more);
    if more != [] {
      var j := Text.Join(more, "\n");
      SeqAssoc(x, "\n", j);
      SeqAssoc([c] + x, "\n", j);
      SeqAssoc([c], x, "\n" + j);
    }
  }

  lemma SeqAssoc(a: string, b: string, c: string)
    ensures a + (b + c) == (a + b) + c
  {
  }

  /** `Join` on a list with a known first piece. */
  lemma JoinCons(x: string, rest: seq<string>)
    ensures Text.Join([x] + rest, "\n") == if rest == [] then x else x + "\n" + Text.Join(rest, "\n")
  {
    assert ([x] + rest)[0] == x;
    assert ([x] + rest)[1..] == rest;
  }

  /** The split cuts at position `j` of `t`: a newline followed by a day header. */
  predicate CutAt(t: string, j: nat)
    requires j < |t|
  {
    t[j] == '\n' && IsHeader(t[j + 1..])
  }

  /** How many characters the header at the start of `t` spans. */
  function HeaderLength(t: string): nat
    requires IsHeader(t)
  {
    var n := |Text.LeadingDigits(t)|;
    if UpperLower(t[n + 1..]) then n + 3 else n + 4
  }

  /** A header starts with a digit. */
  lemma HeaderStartsWithDigit(t: string)
    requires IsHeader(t)
    ensures t != [] && Text.IsDigit(t[0])
  {
    var ds := Text.LeadingDigits(t);
    assert ds[0] == t[0];
  }

  /** No cut falls inside a header: its only possible newline is the optional space, followed by a capital. */
  lemma HeaderNoCut(t: string)
    requires IsHeader(t)
    ensures HeaderLength(t) <= |t|
    ensures forall j :: 0 <= j < HeaderLength(t) ==> !CutAt(t, j)
  {
    var ds := Text.LeadingDigits(t);
    var n := |ds|;
    forall j | 0 <= j < HeaderLength(t)
      ensures !CutAt(t, j)
    {
      if j < n {
        assert t[j] == ds[j];
      } else if j == n + 1 && !UpperLower(t[n + 1..]) && t[j] == '\n' && IsHeader(t[n + 2..]) {
        HeaderStartsWithDigit(t[n + 2..]);
      }
    }
  }

  /** A text that begins with the header of `t` is itself a header. */
  lemma HeaderKept(t: string, u: string)
    requires IsHeader(t) && HeaderLength(t) <= |t|
    requires t[..HeaderLength(t)] <= u
    ensures IsHeader(u)
  {
    var ds := Text.LeadingDigits(t);
    var n := |ds|;
    assert t[..n] == ds;
    assert u == ds + u[n..] by {
      assert u[..n] == t[..HeaderLength(t)][..n];
    }
    assert u[n] == t[n];
    Text.LeadingDigitsOf(ds, u[n..]);
    if UpperLower(t[n + 1..]) {
      assert u[n + 1] == t[n + 1] && u[n + 2] == t[n + 2];
      assert UpperLower(u[n + 1..]);
    } else {
      assert u[n + 1] == t[n + 1] && u[n + 2] == t[n + 2] && u[n + 3] == t[n + 3];
      assert UpperLower(u[n + 2..]);
    }
  }

  /** Without a cut among its first `m` characters, the first piece of `t` begins with them. */
  lemma {:induction false} NoCutPrefix(t: string, m: nat)
    requires m <= |t|
    requires forall j :: 0 <= j < m ==> !CutAt(t, j)
    ensures t[..m] <= SplitDays(t)[0]
    decreases m
  {
    if m > 0 {
      assert !CutAt(t, 0);
      forall j | 0 <= j < m - 1
        ensures !CutAt(t[1..], j)
      {
        assert !CutAt(t, j + 1);
        assert t[1..][j + 1..] == t[j + 2..];
      }
      NoCutPrefix(t[1..], m - 1);
      assert t[..m] == [t[0]] + t[1..][..m - 1];
    }
  }

  /** The first piece of a text that starts with a header starts with that header. */
  lemma FirstPieceHeader(t: string)
    requires IsHeader(t)
    ensures IsHeader(SplitDays(t)[0])
  {
    HeaderNoCut(t);
    NoCutPrefix(t, HeaderLength(t));
    HeaderKept(t, SplitDays(t)[0]);
  }

  /** Every piece after the first starts with a day header: the split cuts only before headers. */
  lemma {:induction false} SplitDaysHeaders(s: string)
    ensures forall k :: 1 <= k < |SplitDays(s)| ==> IsHeader(SplitDays(s)[k])
    decreases |s|
  {
    if s != [] {
      var rest := SplitDays(s[1..]);
      SplitDaysHeaders(s[1..]);
      if s[0] == '\n' && IsHeader(s[1..]) {
        FirstPieceHeader(s[1..]);
        assert SplitDays(s) == [""] + rest;
      } else {
        assert SplitDays(s) == [[s[0]] + rest[0]] + rest[1..];
      }
    }
  }

  /**
   * A preamble with no newline followed by a header stays in the first piece,
   * which the parser drops: the later pieces are those of the rest of the text.
   */
  lemma {:induction false} PreambleDropped(p: string, u: string)
    requires forall i :: 0 <= i < |p| && p[i] == '\n' ==> !IsHeader((p + u)[i + 1..])
    ensures SplitDays(p + u)[0] == p + SplitDays(u)[0]
    ensures SplitDays(p + u)[1..] == SplitDays(u)[1..]
    decreases |p|
  {
    if p != [] {
      PreambleShift(p, u);
      PreambleDropped(p[1..], u);
      ConsParts(p, u);
      SplitGlue(p + u);
      ConsParts(p, SplitDays(u)[0]);
    } else {
      assert p + u == u && p + SplitDays(u)[0] == SplitDays(u)[0];
    }
  }

  /** The preamble without its first character still has no newline followed by a header. */
  lemma PreambleShift(p: string, u: string)
    requires p != []
    requires forall i :: 0 <= i < |p| && p[i] == '\n' ==> !IsHeader((p + u)[i + 1..])
    ensures forall i :: 0 <= i < |p[1..]| && p[1..][i] == '\n' ==> !IsHeader((p[1..] + u)[i + 1..])
  {
    forall i | 0 <= i < |p[1..]| && p[1..][i] == '\n'
      ensures !IsHeader((p[1..] + u)[i + 1..])
    {
      assert p[i + 1] == '\n';
      assert (p + u)[i + 2..] == (p[1..] + u)[i + 1..];
    }
  }

  /** The first character of `p + u` is that of `p`, and the rest is the rest of `p` and `u`. */
  lemma ConsParts(p: string, u: string)
    requires p != []
    ensures (p + u)[0] == p[0] && (p + u)[1..] == p[1..] + u
  {
  }

  /** A first character that does not start a cut is glued to the first piece. */
  lemma SplitGlue(s: string)
    requires s != [] && !(s[0] == '\n' && IsHeader(s[1..]))
    ensures SplitDays(s)[0] == [s[0]] + SplitDays(s[1..])[0]
    ensures SplitDays(s)[1..] == SplitDays(s[1..])[1..]
  {
  }

  /** A plan text with a preamble, then a newline and the first header: the parser sees exactly the days. */
  lemma DaysAfterPreamble(p: string, u: string)
    requires forall i :: 0 <= i < |p| && p[i] == '\n' ==> !IsHeader((p + "\n" + u)[i + 1..])
    requires IsHeader(u)
    ensures SplitDays(p + "\n" + u)[1..] == SplitDays(u)
  {
    assert p + "\n" + u == p + ("\n" + u);
    PreambleDropped(p, "\n" + u);
    assert ("\n" + u)[1..] == u;
    assert SplitDays("\n" + u) == [""] + SplitDays(u);
  }

  predicate AllSpace(s: string)
  {
    forall i :: 0 <= i < |s| ==> Text.IsSpace(s[i])
  }

  /** `line` is the digits `ds`, a dot, the optional space `sp` and `rest`. */
  predicate NumberedAs(line: string, ds: string, sp: string, rest: string)
  {
    ds != [] && Text.AllDigits(ds) && |sp| <= 1 && AllSpace(sp) && line == ds + "." + sp + rest
  }

  /** `line` begins with `\d+\.`, the day number the replace removes. */
  ghost predicate DayNumbered(line: string)
  {
    exists ds, rest :: NumberedAs(line, ds, [], rest)
  }

  /**
   * `r` is what is left of `line` after its day number: the digits, the dot
   * and at most one white-space character, which is taken when there is one.
   */
  ghost predicate NumberStripped(line: string, r: string)
  {
    exists ds, sp :: NumberedAs(line, ds, sp, r) && (sp == [] ==> r == [] || !Text.IsSpace(r[0]))
  }

  /** `line` is the white space `a`, a dash, the white space `b` and `rest`. */
  predicate DashedAs(line: string, a: string, b: string, rest: string)
  {
    AllSpace(a) && AllSpace(b) && line == a + "-" + b + rest
  }

  /** `r` is what is left of `line` after some white space, a dash and some white space. */
  ghost predicate DashStripped(line: string, r: string)
  {
    exists a, b :: DashedAs(line, a, b, r)
  }

  /** `dayLine.replace(/^\d+\.\s?/, '')` */
  function StripDayNumber(line: string): (r: string)
    ensures |r| <= |line| && r == line[|line| - |r|..]
  {
    var ds := Text.LeadingDigits(line);
    if ds != [] && |ds| < |line| && line[|ds|] == '.' then DropSpace(line[|ds| + 1..]) else line
  }

  /** `\s?`: one leading white-space character, when there is one, goes. */
  function DropSpace(s: string): (r: string)
    ensures |r| <= |s| && r == s[|s| - |r|..]
  {
    if s != [] && Text.IsSpace(s[0]) then s[1..] else s
  }

  /**
   * The replace removes exactly the day number: a numbered line loses its
   * digits, the dot and at most one white-space character (one is taken
   * when there is one); any other line is unchanged.
   */
  lemma StripDayNumberExact(line: string)
    ensures DayNumbered(line) ==> NumberStripped(line, StripDayNumber(line))
    ensures !DayNumbered(line) ==> StripDayNumber(line) == line
  {
    var ds := Text.LeadingDigits(line);
    if ds != [] && |ds| < |line| && line[|ds|] == '.' {
      StripNumbered(line);
    } else {
      StripUnnumbered(line);
    }
  }

  /** The case where the leading digits are followed by a dot. */
  lemma StripNumbered(line: string)
    requires var ds := Text.LeadingDigits(line); ds != [] && |ds| < |line| && line[|ds|] == '.'
    ensures DayNumbered(line)
    ensures NumberStripped(line, StripDayNumber(line))
  {
    var ds := Text.LeadingDigits(line);
    var rest := line[|ds| + 1..];
    DigitsDot(line, ds);
    assert StripDayNumber(line) == DropSpace(rest);
    NumberedParts(line, ds, rest);
  }

  /** A prefix followed by a dot: the line is the prefix, the dot and the rest. */
  lemma DigitsDot(line: string, ds: string)
    requires ds <= line && |ds| < |line| && line[|ds|] == '.'
    ensures line == ds + "." + line[|ds| + 1..]
  {
    assert line == line[..|ds|] + [line[|ds|]] + line[|ds| + 1..];
  }

  /** The case where they are not: no day number to strip. */
  lemma StripUnnumbered(line: string)
    requires var ds := Text.LeadingDigits(line); !(ds != [] && |ds| < |line| && line[|ds|] == '.')
    ensures !DayNumbered(line) && StripDayNumber(line) == line
  {
    if DayNumbered(line) {
      var ds', rest' :| NumberedAs(line, ds', [], rest');
      NumberedDigits(line, ds', rest');
    }
  }

  /** The digits of a numbered line are its leading digits, and a dot follows them. */
  lemma NumberedDigits(line: string, ds: string, rest: string)
    requires NumberedAs(line, ds, [], rest)
    ensures Text.LeadingDigits(line) == ds && |ds| < |line| && line[|ds|] == '.'
  {
    var tail := "." + rest;
    assert ds + "." + [] == ds + ".";
    SeqAssoc(ds, ".", rest);
    assert tail[0] == '.';
    Text.LeadingDigitsOf(ds, tail);
    assert line[|ds|] == tail[0];
  }

  /** Digits, a dot and `rest`: the number, the dot and at most one space go. */
  lemma NumberedParts(line: string, ds: string, rest: string)
    requires ds != [] && Text.AllDigits(ds) && line == ds + "." + rest
    ensures DayNumbered(line)
    ensures NumberStripped(line, DropSpace(rest))
  {
    var r := DropSpace(rest);
    var sp := rest[..|rest| - |r|];
    assert line == ds + "." + [] + rest;
    assert NumberedAs(line, ds, [], rest);
    assert rest == sp + r;
    assert line == ds + "." + sp + r;
    assert NumberedAs(line, ds, sp, r);
  }

  // `line.replace(/^\s*-\s*/, '')`
  function StripDash(line: string): (r: string)
    ensures |r| <= |line| && r == line[|line| - |r|..]
  {
    var t := Text.TrimStart(line);
    if t != [] && t[0] == '-' then Text.TrimStart(t[1..]) else line
  }

  /**
   * A line whose first non-space character is a dash loses exactly the
   * leading white space, the dash and all the white space after it; any
   * other line is unchanged.
   */
  lemma StripDashExact(line: string)
    ensures var t := Text.TrimStart(line); t != [] && t[0] == '-' ==>
      DashStripped(line, StripDash(line)) && (StripDash(line) == [] || !Text.IsSpace(StripDash(line)[0]))
    ensures var t := Text.TrimStart(line); t == [] || t[0] != '-' ==> StripDash(line) == line
  {
    var t := Text.TrimStart(line);
    if t != [] && t[0] == '-' {
      StripDashed(line);
    }
  }

  /** The case where the first non-space character is a dash. */
  lemma StripDashed(line: string)
    requires var t := Text.TrimStart(line); t != [] && t[0] == '-'
    ensures DashStripped(line, StripDash(line))
    ensures StripDash(line) == [] || !Text.IsSpace(StripDash(line)[0])
  {
    var t := Text.TrimStart(line);
    var u := t[1..];
    var r := Text.TrimStart(u);
    SpaceSplit(line);
    SpaceSplit(u);
    DashedJoin(line, LeadSpace(line), t, LeadSpace(u), r);
    assert StripDash(line) == r;
  }

  /** The white space `TrimStart` removes from the front of `s`. */
  function LeadSpace(s: string): string
  {
    s[..|s| - |Text.TrimStart(s)|]
  }

  /** `s` is its leading white space followed by what `TrimStart` keeps. */
  lemma SpaceSplit(s: string)
    ensures s == LeadSpace(s) + Text.TrimStart(s)
    ensures AllSpace(LeadSpace(s))
  {
    var t := Text.TrimStart(s);
    var k := |s| - |t|;
    var a := LeadSpace(s);
    assert a == s[..k] && t == s[k..];
    assert s == s[..k] + s[k..];
    Text.TrimStartSpace(s);
    assert forall i :: 0 <= i < |a| ==> a[i] == s[i];
  }

  /** White space, the dash, white space and `r` make up the line. */
  lemma DashedJoin(line: string, a: string, t: string, b: string, r: string)
    requires line == a + t && t != [] && t[0] == '-' && t[1..] == b + r
    requires AllSpace(a) && AllSpace(b)
    ensures DashStripped(line, r)
  {
    assert t == "-" + b + r;
    assert DashedAs(line, a, b, r);
  }

  /** `" <a href=…>[Video]</a>"` for a found link, nothing otherwise. */
  function LinkSuffix(link: Option<string>): string
  {
    match link
    case None => ""
    case Some(url) => " <a href=\"" + url + "\" target=\"_blank\">[Video]</a>"
  }

  /**
   * One exercise line: the line without its leading dash, trimmed, plus the
   * video link, or None when the name before '(' yields no exercise name.
   * `links` holds the video the search finds for a name; a name it lacks has none.
   */
  function ExerciseEntry(line: string, links: map<string, string>): (r: Option<string>)
    ensures r.Some? ==> Text.Trim(StripDash(line)) <= r.value && Text.Trim(StripDash(line)) != ""
    ensures r.Some? <==> var name := ExtractExerciseName(Text.Trim(Text.Split(Text.Trim(StripDash(line)), "(")[0]));
      name.Some? && name.value != ""
  {
    var formatted := Text.Trim(StripDash(line));
    var name := ExtractExerciseName(Text.Trim(Text.Split(formatted, "(")[0]));
    if name.None? || name.value == [] then None
    else
      SplitFirstPieceEmpty(formatted);
      Some(formatted + LinkSuffix(if name.value in links then Some(links[name.value]) else None))
  }

  /** The first piece of an empty text is empty. */
  lemma SplitFirstPieceEmpty(s: string)
    ensures s == "" ==> Text.Split(s, "(")[0] == ""
  {
  }

  /** The exercise lines that survive, in order. */
  function Exercises(lines: seq<string>, links: map<string, string>): (r: seq<string>)
    ensures |r| <= |lines|
  {
    if lines == [] then []
    else
      var rest := Exercises(lines[1..], links);
      match ExerciseEntry(lines[0], links)
      case None => rest
      case Some(e) => [e] + rest
  }

  /** A plan entry: the day name and its exercises. */
  datatype Entry = Entry(day: string, exercises: seq<string>)

  /** `trainingPlan`: the object's properties in insertion order. */
  type Plan = seq<Entry>

  /** `daySection.trim().split('\n')`, then the day name and the surviving exercise lines. */
  function DayOf(section: string, links: map<string, string>): Entry
  {
    var lines := Text.Split(Text.Trim(section), "\n");
    Entry(Text.Trim(StripDayNumber(lines[0])), Exercises(lines[1..], links))
  }

  /** One entry per section, in order: `sections.map(section => DayOf(section, links))`. */
  function DaysOf(sections: seq<string>, links: map<string, string>): (r: seq<Entry>)
    ensures |r| == |sections|
  {
    Map(section => DayOf(section, links), sections)
  }

  /** `xs.map(f)`. */
  function Map<A, B>(f: A -> B, xs: seq<A>): (r: seq<B>)
    ensures |r| == |xs|
  {
    if xs == [] then [] else [f(xs[0])] + Map(f, xs[1..])
  }

  /** The k-th day of the plan is built from the k-th section alone. */
  lemma DaysOfAt(sections: seq<string>, k: nat, links: map<string, string>)
    requires k < |sections|
    ensures DaysOf(sections, links)[k] == DayOf(sections[k], links)
  {
    MapAt(section => DayOf(section, links), sections, k);
  }

  /** From position `i` on, the mapped list is `f` of `xs[i]`, then the mapped rest. */
  lemma MapFrom<A, B>(f: A -> B, xs: seq<A>, i: nat)
    requires i < |xs|
    ensures Map(f, xs[i..]) == [f(xs[i])] + Map(f, xs[i + 1..])
  {
    assert xs[i..][1..] == xs[i + 1..];
  }

  /** The days from section `i` on: the day of section `i`, then those of the later sections. */
  lemma DaysOfFrom(sections: seq<string>, i: nat, links: map<string, string>)
    requires i < |sections|
    ensures DaysOf(sections[i..], links) == [DayOf(sections[i], links)] + DaysOf(sections[i + 1..], links)
  {
    MapFrom(section => DayOf(section, links), sections, i);
  }

  /** The k-th element of the mapped list is `f` of the k-th element alone. */
  lemma {:induction false} MapAt<A, B>(f: A -> B, xs: seq<A>, k: nat)
    requires k < |xs|
    ensures Map(f, xs)[k] == f(xs[k])
  {
    if k > 0 {
      MapAt(f, xs[1..], k - 1);
    }
  }

  function Days(plan: Plan): set<string>
  {
    set k | 0 <= k < |plan| :: plan[k].day
  }

  lemma DaysCons(e: Entry, rest: Plan)
    ensures Days([e] + rest) == {e.day} + Days(rest)
  {
    var p := [e] + rest;
    forall d | d in Days(p)
      ensures d in {e.day} + Days(rest)
    {
      var k :| 0 <= k < |p| && p[k].day == d;
      if k > 0 {
        assert rest[k - 1].day == d;
      }
    }
    forall d | d in Days(rest)
      ensures d in Days(p)
    {
      var k :| 0 <= k < |rest| && rest[k].day == d;
      assert p[k + 1].day == d;
    }
    assert p[0].day == e.day;
  }

  function Lookup(plan: Plan, day: string): Option<seq<string>>
  {
    if plan == [] then None
    else if plan[0].day == day then Some(plan[0].exercises)
    else Lookup(plan[1..], day)
  }

  predicate DistinctDays(plan: Plan)
  {
    forall i, j :: 0 <= i < j < |plan| ==> plan[i].day != plan[j].day
  }

  /**
   * `trainingPlan[day] = exercises`: an existing property is overwritten in
   * its place, a new one is added last; every other day keeps its exercises.
   */
  function Assign(plan: Plan, day: string, exercises: seq<string>): (r: Plan)
    ensures Lookup(r, day) == Some(exercises)
    ensures forall d :: d != day ==> Lookup(r, d) == Lookup(plan, d)
  {
    if plan == [] then [Entry(day, exercises)]
    else if plan[0].day == day then [Entry(day, exercises)] + plan[1..]
    else
      var tail := Assign(plan[1..], day, exercises);
      assert ([plan[0]] + tail)[1..] == tail;
      [plan[0]] + tail
  }

  /** The assigned day joins the plan's days. */
  lemma {:induction false} AssignDays(plan: Plan, day: string, exercises: seq<string>)
    ensures Days(Assign(plan, day, exercises)) == Days(plan) + {day}
  {
    var e := Entry(day, exercises);
    if plan == [] {
      DaysCons(e, []);
    } else {
      var rest := plan[1..];
      assert plan == [plan[0]] + rest;
      DaysCons(plan[0], rest);
      if plan[0].day == day {
        DaysCons(e, rest);
      } else {
        AssignDays(rest, day, exercises);
        DaysCons(plan[0], Assign(rest, day, exercises));
      }
    }
  }

  /** A day already there is overwritten in its place; a new day is appended. */
  lemma {:induction false} AssignShape(plan: Plan, day: string, exercises: seq<string>)
    ensures day in Days(plan) ==> (|Assign(plan, day, exercises)| == |plan|
      && forall k :: 0 <= k < |plan| ==> Assign(plan, day, exercises)[k].day == plan[k].day)
    ensures day !in Days(plan) ==> Assign(plan, day, exercises) == plan + [Entry(day, exercises)]
  {
    var e := Entry(day, exercises);
    if plan != [] && plan[0].day != day {
      var rest := plan[1..];
      assert plan == [plan[0]] + rest;
      DaysCons(plan[0], rest);
      AssignShape(rest, day, exercises);
      if day !in Days(plan) {
        assert [plan[0]] + (rest + [e]) == plan + [e];
      } else {
        AssignPositions(plan[0], rest, Assign(rest, day, exercises));
      }
    } else if plan == [] {
      assert Days(plan) == {};
    } else {
      assert plan[0].day == day;
      assert day in Days(plan);
    }
  }

  lemma AssignPositions(head: Entry, rest: Plan, tail: Plan)
    requires |tail| == |rest| && forall k :: 0 <= k < |rest| ==> tail[k].day == rest[k].day
    ensures forall k :: 0 <= k < |rest| + 1 ==> ([head] + tail)[k].day == ([head] + rest)[k].day
  {
  }

  /** Assigning keeps the days distinct. */
  lemma {:induction false} AssignDistinct(plan: Plan, day: string, exercises: seq<string>)
    requires DistinctDays(plan)
    ensures DistinctDays(Assign(plan, day, exercises))
  {
    if plan != [] && plan[0].day != day {
      var rest := plan[1..];
      DistinctSplit(plan);
      AssignDistinct(rest, day, exercises);
      AssignDays(rest, day, exercises);
      DistinctCons(plan[0], Assign(rest, day, exercises));
    } else if plan != [] {
      DistinctReplaceHead(plan, Entry(day, exercises));
    }
  }

  lemma DistinctSplit(plan: Plan)
    requires DistinctDays(plan) && plan != []
    ensures DistinctDays(plan[1..]) && plan[0].day !in Days(plan[1..])
  {
  }

  lemma DistinctCons(head: Entry, tail: Plan)
    requires DistinctDays(tail) && head.day !in Days(tail)
    ensures DistinctDays([head] + tail)
  {
    var p := [head] + tail;
    forall i, j | 0 <= i < j < |p|
      ensures p[i].day != p[j].day
    {
      if i == 0 {
        assert p[j] == tail[j - 1];
      } else {
        assert p[i] == tail[i - 1] && p[j] == tail[j - 1];
      }
    }
  }

  lemma DistinctReplaceHead(plan: Plan, e: Entry)
    requires DistinctDays(plan) && plan != [] && e.day == plan[0].day
    ensures DistinctDays([e] + plan[1..])
  {
    var p := [e] + plan[1..];
    forall i, j | 0 <= i < j < |p|
      ensures p[i].day != p[j].day
    {
      assert p[j] == plan[j];
      assert p[i].day == plan[i].day;
    }
  }

  /** The plan after assigning each entry in turn to `plan`. */
  function Build(plan: Plan, entries: seq<Entry>): Plan
    decreases |entries|
  {
    if entries == [] then plan
    else Build(Assign(plan, entries[0].day, entries[0].exercises), entries[1..])
  }

  /** Building from a first entry assigns it, then builds from the rest. */
  lemma BuildCons(plan: Plan, e: Entry, rest: seq<Entry>)
    ensures Build(plan, [e] + rest) == Build(Assign(plan, e.day, e.exercises), rest)
  {
    assert ([e] + rest)[1..] == rest;
  }

  /** The parsed plan: the sections after the first piece, each assigned in order. */
  function PlanOf(raw: string, links: map<string, string>): Plan
  {
    Build([], DaysOf(SplitDays(raw)[1..], links))
  }

  /** The plan's days are exactly the days it had and the days named. */
  lemma {:induction false} BuildDays(plan: Plan, entries: seq<Entry>)
    ensures Days(Build(plan, entries)) == Days(plan) + Days(entries)
    decreases |entries|
  {
    if entries == [] {
      assert Days(entries) == {};
    } else {
      var e, rest := entries[0], entries[1..];
      var next := Assign(plan, e.day, e.exercises);
      AssignDays(plan, e.day, e.exercises);
      BuildDays(next, rest);
      assert entries == [e] + rest;
      DaysCons(e, rest);
    }
  }

  /** Each day appears once in the plan, however often it is named. */
  lemma {:induction false} BuildDistinct(plan: Plan, entries: seq<Entry>)
    requires DistinctDays(plan)
    ensures DistinctDays(Build(plan, entries))
    decreases |entries|
  {
    if entries != [] {
      AssignDistinct(plan, entries[0].day, entries[0].exercises);
      BuildDistinct(Assign(plan, entries[0].day, entries[0].exercises), entries[1..]);
    }
  }

  /** A day named again overwrites the earlier exercises: the last entry with that name wins. */
  lemma {:induction false} LastEntryWins(plan: Plan, entries: seq<Entry>, k: nat)
    requires k < |entries|
    requires forall j :: k < j < |entries| ==> entries[j].day != entries[k].day
    ensures Lookup(Build(plan, entries), entries[k].day) == Some(entries[k].exercises)
    decreases |entries|
  {
    var next := Assign(plan, entries[0].day, entries[0].exercises);
    if k == 0 {
      UnnamedDayKept(next, entries[1..], entries[0].day);
    } else {
      LastEntryWins(next, entries[1..], k - 1);
    }
  }

  /** Entries with other names leave a day's exercises alone. */
  lemma {:induction false} UnnamedDayKept(plan: Plan, entries: seq<Entry>, day: string)
    requires forall j :: 0 <= j < |entries| ==> entries[j].day != day
    ensures Lookup(Build(plan, entries), day) == Lookup(plan, day)
    decreases |entries|
  {
    if entries != [] {
      UnnamedDayKept(Assign(plan, entries[0].day, entries[0].exercises), entries[1..], day);
    }
  }

  /**
   * What the parser promises about its result, whatever the generated text:
   * one property per day, named by the sections after the first piece.
   */
  lemma PlanOfDays(raw: string, links: map<string, string>)
    ensures DistinctDays(PlanOf(raw, links))
    ensures Days(PlanOf(raw, links)) == Days(DaysOf(SplitDays(raw)[1..], links))
  {
    BuildDays([], DaysOf(SplitDays(raw)[1..], links));
    BuildDistinct([], DaysOf(SplitDays(raw)[1..], links));
    assert Days([]) == {};
  }

  /** The exercise loop: each line in turn, skipping those without a name. */
  method CollectExercises(lines: seq<string>, links: map<string, string>) returns (exercises: seq<string>)
    ensures exercises == Exercises(lines, links)
  {
    exercises := [];
    var j := 0;
    assert lines[j..] == lines;
    while j < |lines|
      invariant 0 <= j <= |lines|
      invariant exercises + Exercises(lines[j..], links) == Exercises(lines, links)
    {
      var entry := ExerciseEntry(lines[j], links);
      ghost var before := exercises;
      if entry.Some? {
        exercises := exercises + [entry.value];
      }
      assert exercises + Exercises(lines[j + 1..], links) == before + Exercises(lines[j..], links) by {
        ExercisesStep(lines, j, links);
        if entry.Some? {
          PushedEntry(before, entry.value, Exercises(lines[j + 1..], links));
        }
      }
      j := j + 1;
    }
    assert exercises + [] == exercises;
  }

  /** A pushed entry sits between what was collected and what is still to come. */
  lemma PushedEntry(before: seq<string>, e: string, rest: seq<string>)
    ensures before + [e] + rest == before + ([e] + rest)
  {
  }

  lemma ExercisesStep(lines: seq<string>, j: nat, links: map<string, string>)
    requires j < |lines|
    ensures Exercises(lines[j..], links) == match ExerciseEntry(lines[j], links)
      case None => Exercises(lines[j + 1..], links)
      case Some(e) => [e] + Exercises(lines[j + 1..], links)
  {
    assert lines[j..][1..] == lines[j + 1..];
  }

  /** The parsing loop over the day sections. */
  method ParseTrainingPlan(raw: string, links: map<string, string>) returns (plan: Plan)
    ensures plan == PlanOf(raw, links)
    ensures DistinctDays(plan)
  {
    var sections := SplitDays(raw)[1..];
    plan := [];
    var i := 0;
    while i < |sections|
      invariant 0 <= i <= |sections|
      invariant Build(plan, DaysOf(sections[i..], links)) == PlanOf(raw, links)
    {
      var lines := Text.Split(Text.Trim(sections[i]), "\n");
      var dayName := Text.Trim(StripDayNumber(lines[0]));
      var exercises := CollectExercises(lines[1..], links);
      DaysOfFrom(sections, i, links);
      BuildCons(plan, DayOf(sections[i], links), DaysOf(sections[i + 1..], links));
      plan := Assign(plan, dayName, exercises);
      i := i + 1;
    }
    PlanOfDays(raw, links);
  }
}

=== FILE: virtual_assistant.dfy ===
/**
 * The training assistant's page: the availability checkboxes, the guards in
 * front of the plan request, the sport/position coupling and the chat list,
 * which every handler extends and none shortens.
 */
module VirtualAssistant {
  import opened Wrappers
  import Lists
  import TrainingPlan

  /** A chat entry: the user's summary, an assistant text, or a rendered plan. */
  datatype Message = UserText(text: string) | AssistantText(text: string) | PlanCard(plan: TrainingPlan.Plan)

  /** The page state the handlers touch (the other form inputs are carried unchanged). */
  datatype Assistant = Assistant(
    sport: string, experience: string, age: string, preferredPosition: string,
    availability: seq<string>, availabilityError: bool,
    messages: seq<Message>, typing: bool)

  const OfflineText: string := "No internet connection. Please check your connection and try again."
  const NoPlanText: string := "Scuze, nu pot genera un program de antrenament acum."
  const ErrorText: string := "A apărut o eroare. Vă rugăm să încercați din nou mai târziu."
  const OfflineRetryText: string := "No internet connection. Please try again."

  /** `handleAvailabilityChange` */
  function ToggleDay(s: Assistant, day: string): (r: Assistant)
    ensures day in r.availability <==> day !in s.availability
    ensures forall d :: d != day ==> (d in r.availability <==> d in s.availability)
    ensures day !in s.availability ==> r.availability == s.availability + [day]
    ensures r == s.(availability := r.availability)
  {
    s.(availability := Lists.Toggle(s.availability, day))
  }

  /** The sport select's `onChange`: the new sport, and the position is cleared. */
  function ChangeSport(s: Assistant, sport: string): (r: Assistant)
    ensures r.sport == sport && r.preferredPosition == ""
    ensures r.messages == s.messages && r.availability == s.availability
  {
    s.(sport := sport, preferredPosition := "")
  }

  /** The user's message: `Sport: …, Nivel de experienta: …, Varsta: …`. */
  function Summary(s: Assistant): string
  {
    "Sport: " + s.sport + ", Nivel de experienta: " + s.experience + ", Varsta: " + s.age
  }

  /**
   * `handleSubmit`, given whether the browser is online: the new state, and
   * whether the plan stream was opened.
   */
  function Submit(s: Assistant, online: bool): (r: (Assistant, bool))
    ensures r.1 <==> s.availability != [] && online
    ensures s.availability == [] ==> r.0 == s.(availabilityError := true)
    ensures s.availability != [] ==> !r.0.availabilityError
    ensures s.availability != [] && !online ==> r.0.messages == s.messages + [AssistantText(OfflineText)]
    ensures r.1 ==> r.0.messages == s.messages + [UserText(Summary(s))] && r.0.typing
  {
    if s.availability == [] then (s.(availabilityError := true), false)
    else if !online then (s.(availabilityError := false, messages := s.messages + [AssistantText(OfflineText)]), false)
    else (s.(availabilityError := false, messages := s.messages + [UserText(Summary(s))], typing := true), true)
  }

  /**
   * The stream's `onmessage`: a successful event with a plan adds the plan card,
   * any other adds the event's message, or the fallback when it is empty.
   */
  function OnMessage(s: Assistant, success: bool, plan: Option<TrainingPlan.Plan>, message: string): (r: Assistant)
    ensures !r.typing
    ensures success && plan.Some? ==> r.messages == s.messages + [PlanCard(plan.value)]
    ensures !(success && plan.Some?) ==>
      r.messages == s.messages + [AssistantText(if message != "" then message else NoPlanText)]
  {
    if success && plan.Some? then s.(typing := false, messages := s.messages + [PlanCard(plan.value)])
    else s.(typing := false, messages := s.messages + [AssistantText(if message != "" then message else NoPlanText)])
  }

  /** The stream's `onerror`: one assistant message chosen by the connection state. */
  function OnError(s: Assistant, online: bool): (r: Assistant)
    ensures !r.typing
    ensures r.messages == s.messages + [AssistantText(if online then ErrorText else OfflineRetryText)]
  {
    s.(typing := false, messages := s.messages + [AssistantText(if online then ErrorText else OfflineRetryText)])
  }

  /** Every event the page handles. */
  datatype Event =
    | DayToggled(day: string)
    | SportChanged(sport: string)
    | Submitted(online: bool)
    | StreamMessage(success: bool, plan: Option<TrainingPlan.Plan>, message: string)
    | StreamError(online: bool)

  function Step(s: Assistant, e: Event): Assistant
  {
    match e
    case DayToggled(day) => ToggleDay(s, day)
    case SportChanged(sport) => ChangeSport(s, sport)
    case Submitted(online) => Submit(s, online).0
    case StreamMessage(success, plan, message) => OnMessage(s, success, plan, message)
    case StreamError(online) => OnError(s, online)
  }

  function Run(s: Assistant, events: seq<Event>): Assistant
    decreases |events|
  {
    if events == [] then s else Run(Step(s, events[0]), events[1..])
  }

  /** One event keeps the old messages as a prefix and adds at most one. */
  lemma StepAppends(s: Assistant, e: Event)
    ensures s.messages <= Step(s, e).messages
    ensures |Step(s, e).messages| <= |s.messages| + 1
  {
  }

  /** The chat list only grows: any run keeps the earlier list as a prefix, at most one entry per event. */
  lemma {:induction false} RunAppends(s: Assistant, events: seq<Event>)
    ensures s.messages <= Run(s, events).messages
    ensures |Run(s, events).messages| <= |s.messages| + |events|
    decreases |events|
  {
    if events != [] {
      StepAppends(s, events[0]);
      RunAppends(Step(s, events[0]), events[1..]);
    }
  }

  /** Offline, a submit with days chosen adds exactly one assistant message and opens nothing. */
  lemma OfflineSubmit(s: Assistant)
    requires s.availability != []
    ensures !Submit(s, false).1
    ensures |Submit(s, false).0.messages| == |s.messages| + 1
    ensures Submit(s, false).0.messages[|s.messages|].AssistantText?
  {
  }
}

=== FILE: wrappers.dfy ===
/** Optional values: JavaScript's null / undefined / NaN results and failed fetches. */
module Wrappers {

  datatype Option<+T> = None | Some(value: T) {

    function GetOr(default: T): T
    {
      match this
      case Some(v) => v
      case None => default
    }
  }
}
